=== FILE: README.md ===
# gl-tool-collection, modelled in Dafny

This project models the core of gl-tool-collection, a TypeScript collection library, and of `generate.py`, the Python script that writes the bit-selection tree `BitSet.get` uses. It proves properties of that model:

- **Packs.** `ArrayPack`, a growable array with a size and a capacity.
- **Circular buffer.** `CircularPackAdapter`, a ring over a pack that keeps a start and a size.
- **Heap.** `PackHeap`, a binary max-heap kept inside a pack.
- **Integer sets.** A bit set, a sparse/dense set and an identifier set, which is a permutation kept with its inverse.
- **Algorithms.** `bisect` with its `first`, `last` and `invert` variants, and Hoare's `quicksort`.
- **Small parts.** The sequence cursor, the typed-array width choice and the factory allocator's pool.

Each class becomes an immutable datatype. Each method becomes a function or method that returns the new state.

- **Errors.** What the library throws becomes an `Err` of the `Outcomes.Result` type. The failure names the error class: `IllegalSequenceIndex`, `NegativeSequenceIndex`, `IllegalSubsequence` or `EmptyCollection`.
- **JavaScript numbers.** Integer arithmetic follows JavaScript where it matters, and the model spells it out:
  - `%` truncates toward zero (`Sequences.Remainder`);
  - `>>>` reduces its operand modulo 2^32;
  - bitwise operators work on signed 32-bit words (`bv32` in `Bits`);
  - typed arrays wrap stored values around (`TypedArrays.Stored`).
- **Comparators.** A comparator is a function `(T, T) -> int`. `Comparators.Preorder` states what the sorting, searching and heap code assumes of it: it is antisymmetric in sign and transitive.

Modules and files:

| file | module | models |
|---|---|---|
| outcomes.dfy | Outcomes | results, options and the library's error classes |
| sequences.dfy | Sequences | the `startOrEnd`/`endOrStart` ranges, JavaScript `%`, array stores, swaps |
| numbers.dfy | Numbers | gcd and the orbits of `i -> (i + d) % n` that the rotation walks |
| bits.dfy | Bits | 32-bit words, `countBits`, masks |
| text.dfy | Text | Python's `hex`, `str` and `' ' * n` |
| generator.dfy | Generator | `generate.py` |
| bitset.dfy | BitSets | `sources/set/BitSet.ts` |
| arraypack.dfy | ArrayPacks | `sources/pack/ArrayPack.ts` |
| circular.dfy | CircularPacks | `sources/circular/CircularPackAdapter.ts` |
| comparators.dfy | Comparators | comparators and their reversal |
| heap.dfy | Heaps | `sources/heap/PackHeap.ts` |
| sparse.dfy | SparseDenseSets | `sources/set/PackSparseDenseSet.ts` |
| identifiers.dfy | IdentifierSets | `sources/set/IdentifierSet.ts` |
| bisect.dfy | Bisection | `sources/algorithm/bisect.ts` |
| quicksort.dfy | Sorting | `sources/algorithm/quicksort.ts` |
| cursor.dfy | SequenceCursors | `sources/sequence/SequenceCursor.ts` |
| typedarray.dfy | TypedArrays | `sources/native/TypedArray.ts` |
| allocator.dfy | FactoryAllocators | `sources/allocator/FactoryAllocator.ts` |

Where the code and its tests disagree, the model keeps the code as written. Beside it is a corrected version, and the difference is proved (see "## Findings").

For `test(0, 32)`, `generate.py` emits 32 leaves, one per bit position, and prints one mask line per test, 31 in all (`Generator.FullWordTree`).

## Model

| member | source | states |
|---|---|---|
| Generator.EmitError | generate.py:5-6 | a size below 1 prints `ERROR` at the indentation and builds no subtree |
| Generator.EmitLeaf | generate.py:7-8 | a size of 1 prints the leaf `cell * 32 + offset` at the indentation |
| Generator.MaskValue | generate.py:10-11 | when `offset + mid <= 32`, the mask `0xffffffff >> (32 - offset - mid)` is 2^(offset+mid) - 1, so exactly the low `offset + mid` bits are set |
| Generator.PrintedMaskIsLowMask | generate.py:11-21 | the mask the script prints with `hex(mask)`, 2^w - 1, has exactly the bits of the word `LowMask(w)` that `Eval` tests with: bit `j` of both is set iff `j < w`; this is where the text of `EmitRendersBuild` and the selection of `SelectsRankedBit` meet |
| Generator.OnesBit | generate.py:11 | bit `j` of 2^w - 1, the script's mask, is set iff `j < w` |
| Generator.ShiftRight | generate.py:11 | Python's `>>` fails with a ValueError exactly for a negative shift count, and otherwise never increases a non-negative operand |
| Generator.EmitPair | generate.py:14-19 | a size of 2 prints a single ternary at the current indentation, and its two branches carry no indentation |
| Generator.EmitNested | generate.py:20-26 | a size above 2 prints an if/else whose two branches are indented one level deeper than the test |
| Generator.EmitRendersBuild | generate.py:2-26 | `Emit`, the text the script's `test` returns, is the rendering of the tree `Build` describes, so every property of the tree is a property of the text; each recursive call has a strictly smaller size |
| Generator.LeavesOfPowerOfTwo | generate.py:16-24 | for a power-of-two size, the leaves read from top to bottom are `offset + size - 1` down to `offset`, so each position in the range appears exactly once |
| Generator.FullWordTree | generate.py:29 | `test(0, 32)` emits 32 leaves, one per bit position from 31 down to 0, and 31 tests |
| Generator.TestCounts | generate.py:15 | each emitted test compares the number of set bits below the node's split with `rest`; the strict `<` sends a count equal to `rest` to the lower half |
| Generator.SelectsRankedBit | generate.py:9-29 | in a tree that splits its bit range, a rank that falls inside the range selects the position of the bit of that rank |
| Generator.TreeSelect | generate.py:9-29 | code whose tree splits the whole word, given `1 <= rest <= popcount(bits)`, returns the position of the `rest`-th set bit |
| Generator.WordSelect | generate.py:9-29 | the code emitted for `(0, 32)` returns the position of the `rest`-th set bit of any 32-bit word |
| Text.Padding | generate.py:3 | the indentation `'  ' * depth` consists of spaces only, two per level of depth |
| Text.HexInjective | generate.py:11 | different masks print as different hexadecimal literals |
| Text.DecimalInjective | generate.py:8 | different offsets print as different decimal leaves |
| Bits.CountBitsIsPopcount | sources/set/BitSet.ts:14-18 | the SWAR `countBits` returns the number of set bits of its 32-bit argument |
| Bits.SingleAndPositive | sources/set/BitSet.ts:73-75 | `(cell & (1 << k)) > 0` holds when bit `k` is set, except for bit 31, whose mask is negative |
| BitSets.NewEmpty | sources/set/BitSet.ts:47-51 | `New`, that is `new BitSet(capacity)`: a new set is empty, and its capacity is the requested one rounded up to a multiple of 32 |
| BitSets.CapacityExamples | tests/set/BitSet.spec.ts:24-30 | capacities 8, 16 and 32 give 32; capacities 48 and 64 give 64 |
| BitSets.DefaultCapacity | sources/set/BitSet.ts:47-51 | `new BitSet()`, with the default capacity, is a valid empty set of capacity 32 |
| BitSets.HasIsMember | sources/set/BitSet.ts:70-76 | `Has`, the corrected `has(e)`, holds exactly when `e` is an element of the set |
| BitSets.HasAsWrittenMissesSignBit | sources/set/BitSet.ts:70-76 | `HasAsWritten`, `has(e)` as written, holds exactly for the stored elements not on bit 31 of their cell |
| BitSets.AddContents | sources/set/BitSet.ts:81-99 | `Add`, the corrected `add`, keeps the invariant, the set gains `e` and nothing else, and the size grows by one exactly when `e` was absent |
| BitSets.AddAsWrittenResurrects | sources/set/BitSet.ts:93-96 | `AddAsWritten`, `add` as written: `add(2)` after `add(1)` and `clear()` stores `{1, 2}` while counting one element |
| BitSets.DeleteContents | sources/set/BitSet.ts:104-121 | `Delete`, the corrected `delete`, keeps the invariant, the set loses `e` and nothing else, and the size drops by one exactly when `e` was present, so a second delete changes nothing |
| BitSets.Shrink | sources/set/BitSet.ts:113-116 | the `do … while (last === 0)` loop stops below the size after empty cells only, or never stops when every cell down to 0 is empty |
| BitSets.DeleteAsWrittenLosesNeighbour | sources/set/BitSet.ts:104-121 | as written, deleting 0 from `{0, 32}` keeps 0 and loses 32 |
| BitSets.DeleteAsWrittenHangs | sources/set/BitSet.ts:113-116 | as written, deleting 32 from `{32}` enters the shrinking loop and never leaves it |
| BitSets.DeleteAsWrittenAgrees | sources/set/BitSet.ts:104-121 | `DeleteAsWritten`, `delete` as written, stores a cleared word that is not 0; away from bit 31 and unless the word becomes 0, it equals the corrected `Delete` |
| BitSets.GetTreeGenerated | sources/set/BitSet.ts:143-204 | the decision tree pasted into `get` is the tree `generate.py` builds for offset 0 and size 32 |
| BitSets.RankedBit | sources/set/BitSet.ts:143-204 | the pasted tree on one cell returns the position of the bit of the given rank, 0 for a rank below 1, and 31 for a rank past the last set bit |
| BitSets.Get | sources/set/BitSet.ts:126-205 | the corrected 0-based `get(index)` is the element at position `index` in increasing order, and 0 outside `[0, size)` |
| BitSets.GetAsWritten | sources/set/BitSet.ts:126-205 | `get(k)` as written is the element at position `k - 1`, and `get(0)` is always 0 |
| BitSets.ClearEmpties | sources/set/BitSet.ts:248-251 | `Clear`, that is `clear()`, leaves a valid empty set of the same capacity, so `has` is false for every element |
| BitSets.Min | sources/set/BitSet.ts:256-258 | the corrected `min` is the least element, and 0 for an empty set |
| BitSets.Max | sources/set/BitSet.ts:263-266 | the corrected `max` is the greatest element, and 0 for an empty set |
| BitSets.MinAsWritten | sources/set/BitSet.ts:256-258 | `min` as written is 0 whatever the set holds |
| BitSets.MaxAsWritten | sources/set/BitSet.ts:263-266 | `max` as written is the second greatest element, strictly below the greatest, and 0 for a set of one |
| ArrayPacks.Create | sources/pack/ArrayPack.ts:653-664 | a new pack is empty and has the requested capacity, 32 by default |
| ArrayPacks.Resize | sources/pack/ArrayPack.ts:69-86 | the size setter truncates, or pads with the filling value, and grows the capacity to at least the new size |
| ArrayPacks.ResizeBack | sources/pack/ArrayPack.ts:69-86 | growing the size and shrinking it back restores the contents |
| ArrayPacks.Reallocate | sources/pack/ArrayPack.ts:98-113 | the capacity becomes exactly the requested one, the prefix is kept, and the size becomes `min(size, capacity)` |
| ArrayPacks.Get | sources/pack/ArrayPack.ts:125-131 | `get(index)` succeeds exactly inside `[0, size)`, reads the element there, and throws otherwise |
| ArrayPacks.Swap | sources/pack/ArrayPack.ts:197-211 | `swap` succeeds exactly when both indices lie in `[0, size)`, exchanges the two elements, and changes nothing else |
| ArrayPacks.SwapPermutes | sources/pack/ArrayPack.ts:197-211 | a swap keeps the multiset of elements |
| ArrayPacks.SwapTwice | sources/pack/ArrayPack.ts:197-211 | swapping the same two indices twice restores the pack |
| ArrayPacks.SetRange | sources/pack/ArrayPack.ts:224-267 | range `set` accepts its bounds in either order and throws on a negative bound; the range takes the value, the gap between the old size and the range takes the filling value, everything else is kept, and the size is `max(size, end)` |
| ArrayPacks.Set | sources/pack/ArrayPack.ts:224-267 | `set(index, value)` replaces one element inside the pack, or pads with the filling value and appends past it |
| ArrayPacks.GetAfterSet | sources/pack/ArrayPack.ts:224-267 | `get` reads back what `set` wrote, and every other element is unchanged |
| ArrayPacks.Insert | sources/pack/ArrayPack.ts:272-290 | `insert` below the size shifts the tail right by one; at or past the size it is `set`; a negative index throws |
| ArrayPacks.Push | sources/pack/ArrayPack.ts:295-306 | `push` appends the value, and a full array grows by one slot |
| ArrayPacks.Pop | sources/pack/ArrayPack.ts:136-141 | `pop` throws on an empty pack; otherwise the remaining contents followed by the popped value are the old contents |
| ArrayPacks.PushThenPop | sources/pack/ArrayPack.ts:136-141 | popping right after a push returns the pushed value and the contents from before the push |
| ArrayPacks.Clear | sources/pack/ArrayPack.ts:597-599 | `clear` empties the pack and keeps its capacity |
| ArrayPacks.Delete | sources/pack/ArrayPack.ts:357-374 | `delete` takes its bounds in either order, `endOrStart` being `startOrEnd + 1` by default, removes exactly the range, keeps the order of the rest, and throws for a range outside `[0, size]` |
| ArrayPacks.Warp | sources/pack/ArrayPack.ts:416-433 | `warp` (with `endOrStart = startOrEnd + 1` by default) removes the range by moving the last elements into it in reverse order, and throws for a range outside `[0, size]` |
| ArrayPacks.WarpedRemovesRange | sources/pack/ArrayPack.ts:416-433 | warping removes exactly the elements of the range, counted with multiplicity |
| ArrayPacks.IndexOf | sources/pack/ArrayPack.ts:445-463 | `indexOf` returns the first index in the range (the whole pack by default) that holds the element, -1 when no index does, and throws for a range outside the pack |
| ArrayPacks.ConcatArray | sources/pack/ArrayPack.ts:542-557 | `concatArray` appends the array's values and grows the capacity only as far as needed |
| ArrayPacks.Rotate | sources/pack/ArrayPack.ts:330-352 | the juggling rotation moves the element at `i` to `(i + offset) mod size`, for offsets of either sign, and leaves the slots past the size alone |
| ArrayPacks.RotatedBack | sources/pack/ArrayPack.ts:330-352 | rotating back by the same offset restores the contents |
| ArrayPacks.Carry | sources/pack/ArrayPack.ts:341-348 | the inner loop of `rotate` closes its orbit within one period, and every slot it visits receives the element from one step back |
| ArrayPacks.Unique | sources/pack/ArrayPack.ts:379-411 | `unique` replaces the range by the elements the comparator finds distinct from every earlier kept one, in order, keeps the rest of the pack, and throws for a range outside it |
| ArrayPacks.Compact | sources/pack/ArrayPack.ts:392-408 | the candidate loop of `unique` leaves in `[start, processedIndex)` the elements of the range that compare unequal to every element kept before them, in order, and leaves the cells before `start` and from `processedIndex` on as they were |
| ArrayPacks.UniqueOfDistinct | sources/pack/ArrayPack.ts:379-411 | no element `unique` keeps compares equal to one kept before it |
| ArrayPacks.UniqueOfCovers | sources/pack/ArrayPack.ts:379-411 | with a reflexive comparator, every element of the range has a kept representative |
| ArrayPacks.UniqueOfSubsequence | sources/pack/ArrayPack.ts:379-411 | the kept elements are elements of the range, in their original order |
| CircularPacks.Get | sources/circular/CircularPackAdapter.ts:175-180 | `get(i)` reads slot `(start + i) % capacity`, which is element `i` oldest first, and throws outside `[0, size)` |
| CircularPacks.SlotsDistinct | sources/circular/CircularPackAdapter.ts:175-180 | distinct positions below the capacity live in distinct slots |
| CircularPacks.Push | sources/circular/CircularPackAdapter.ts:342-355 | `push` appends; on a full buffer it overwrites the oldest element and advances the start, so the size never exceeds the capacity |
| CircularPacks.Unshift | sources/circular/CircularPackAdapter.ts:360-374 | `unshift` prepends by moving the start back; on a full buffer it overwrites the newest element, and the size grows only up to the capacity |
| CircularPacks.Pop | sources/circular/CircularPackAdapter.ts:209-218 | `pop` throws on an empty buffer; otherwise it returns the newest element and the buffer without it |
| CircularPacks.Shift | sources/circular/CircularPackAdapter.ts:223-230 | `shift` throws on an empty buffer; otherwise it returns the oldest element and the buffer without it |
| CircularPacks.PushThenPop | sources/circular/CircularPackAdapter.ts:342-355 | on a buffer with room, `pop` returns what `push` added and restores the elements |
| CircularPacks.UnshiftThenShift | sources/circular/CircularPackAdapter.ts:360-374 | on a buffer with room, `shift` returns what `unshift` added and restores the elements |
| CircularPacks.Delete | sources/circular/CircularPackAdapter.ts:379-395 | `delete` takes its bounds in either order, `endOrStart` being `startOrEnd + 1` by default, removes exactly the range, keeps the order of the rest, and throws for a range outside `[0, size]` |
| CircularPacks.DeleteSymmetric | sources/circular/CircularPackAdapter.ts:379-395 | the two bounds of `delete` may come in either order with the same outcome |
| CircularPacks.SetRange | sources/circular/CircularPackAdapter.ts:261-299 | the corrected range `set`, over the corrected `reallocate`, keeps every element, grows the buffer when the range ends past its capacity, fills the gap with the filling value and the range with the value, and throws on a negative bound |
| CircularPacks.Set | sources/circular/CircularPackAdapter.ts:261-299 | the corrected `set(index, value)` replaces one element below the size, or pads and appends past it |
| CircularPacks.GetAfterSet | sources/circular/CircularPackAdapter.ts:261-299 | `get` reads back what the corrected `set` wrote, and every other element is unchanged |
| CircularPacks.Insert | sources/circular/CircularPackAdapter.ts:317-337 | the corrected `insert` is the corrected `set` at or past the size; below it, the tail moves up by one; on a full buffer it inserts, then drops the oldest element; a negative index throws |
| CircularPacks.InsertThenDelete | sources/circular/CircularPackAdapter.ts:317-337 | deleting the position just inserted, with room to spare, gives the elements back |
| CircularPacks.InsertAsWritten | sources/circular/CircularPackAdapter.ts:317-337 | `insert` as written agrees with the corrected one at non-negative indices, except at index 0 of a full buffer and where its `set` grows a buffer whose start is not 0; at a negative index it succeeds whenever the shifted `index + start` is non-negative |
| CircularPacks.InsertAsWrittenAtNegative | sources/circular/CircularPackAdapter.ts:317-337 | as written, inserting at -1 into `[10, 20]` held from slot 1 of three leaves `[20, 10, 30]`, where the corrected insert throws |
| CircularPacks.InsertAsWrittenThrowsAtFront | sources/circular/CircularPackAdapter.ts:317-337 | as written, inserting at 0 into the full buffer `[10, 20]` that starts at slot 0 throws |
| CircularPacks.InsertAsWrittenOverwritesLast | sources/circular/CircularPackAdapter.ts:317-337 | as written, the same insertion into a buffer that starts at slot 1 leaves `[20, 30]` |
| CircularPacks.GrowAsWritten | sources/circular/CircularPackAdapter.ts:280-284 | `set` grows through `reallocate` as written: the start is kept, and the growth agrees with the corrected one when nothing grows or the start is 0 |
| CircularPacks.SetRangeAsWritten | sources/circular/CircularPackAdapter.ts:261-299 | range `set` as written writes the range and the gap before it as the corrected one does, throws on a negative bound, and agrees with the corrected one when nothing grows or the start is 0 |
| CircularPacks.SetAsWritten | sources/circular/CircularPackAdapter.ts:261-299 | `set(index, value)` as written reads back the value at `index`, fills the gap before it, and agrees with the corrected `set` when `index` is below the capacity or the start is 0 |
| CircularPacks.SetAsWrittenKeepsStart | sources/circular/CircularPackAdapter.ts:280-298 | as written, setting position 2 of `[1, 2]` held from slot 1 gives `[2, 0, 3]`; the corrected `set` gives `[1, 2, 3]` |
| CircularPacks.Reallocate | sources/circular/CircularPackAdapter.ts:123-135 | the corrected `reallocate` keeps the most recent `min(size, capacity)` elements in order and resets the start |
| CircularPacks.ReallocateKeepsAll | sources/circular/CircularPackAdapter.ts:123-135 | reallocating to a capacity at least the size keeps every element in order |
| CircularPacks.ReallocateAsWritten | sources/circular/CircularPackAdapter.ts:123-135 | `reallocate` as written keeps the old start and the size `min(size, capacity)`, and agrees with the corrected one when the start is 0 and nothing is cut |
| CircularPacks.ReallocateAsWrittenReordersCut | sources/circular/CircularPackAdapter.ts:123-135 | as written, cutting `[1, 2, 3]` to two elements keeps `[3, 1]` instead of `[2, 3]` |
| CircularPacks.ReallocateAsWrittenKeepsStart | sources/circular/CircularPackAdapter.ts:123-135 | as written, growing a buffer that starts at slot 1 reads `[2, 0]` instead of `[1, 2]` |
| CircularPacks.Clear | sources/circular/CircularPackAdapter.ts:563-566 | `clear` resets the start and the size to 0 and keeps the capacity |
| CircularPacks.ClearThenPush | sources/circular/CircularPackAdapter.ts:563-566 | after `clear`, pushing builds the buffer from nothing |
| Heaps.Parent | sources/heap/PackHeap.ts:297-308 | `(i - 1) >> 1` is the parent of `i`, whose children are `2p + 1` and `2p + 2` |
| Heaps.Uplift | sources/heap/PackHeap.ts:297-308 | `upliftAsPossible` moves the element up to a cell below a parent that does not come before it, keeps the multiset, and leaves the positions after `index` alone |
| Heaps.DiveChoice | sources/heap/PackHeap.ts:317-342 | one round of `diveAsPossible` picks the greatest child that comes after the element, or stops when no child does |
| Heaps.Dive | sources/heap/PackHeap.ts:317-342 | `diveAsPossible` sinks the element until the whole pack is a heap, keeps the multiset, and leaves the positions before `index` alone |
| Heaps.Sink | sources/heap/PackHeap.ts:318-341 | the loop of `diveAsPossible`, from a pack whose only fault is at `cell`, ends with a heap holding the same multiset; the element from `cell` ends at the returned position, at or after `cell`, and the positions before `cell` are unchanged |
| Heaps.Rearrange | sources/heap/PackHeap.ts:274-276 | uplift followed by a dive restores the heap around one changed position and keeps the multiset |
| Heaps.Heapify | sources/heap/PackHeap.ts:241-245 | `heapify` turns any pack into a heap with the same multiset |
| Heaps.Push | sources/heap/PackHeap.ts:285-288 | `push` adds exactly the value and keeps the heap property |
| Heaps.Remove | sources/heap/PackHeap.ts:261-269 | the corrected `remove` succeeds exactly inside `[0, size)`, deletes exactly the element at `index`, and keeps the heap property |
| Heaps.RemoveAsWritten | sources/heap/PackHeap.ts:261-269 | `remove` as written, over an `ArrayPack`, throws when asked for the last position of a heap of two or more |
| Heaps.RootIsMax | sources/heap/PackHeap.ts:297-342 | the root of a heap comes after, or ties with, every element |
| Heaps.Pop | sources/heap/PackHeap.ts:250-254 | the corrected `pop(index)`, over the corrected `remove`, succeeds exactly inside `[0, size)`, returns the element at `index` and keeps the heap property; popping the root returns an element no remaining element comes after |
| Heaps.PopAsWritten | sources/heap/PackHeap.ts:250-269 | `pop(index)` as written, over the as-written `remove` and an `ArrayPack`, throws for the last position of a heap of two or more, and otherwise returns the element at `index` and keeps the heap property |
| Heaps.Wrap | sources/heap/PackHeap.ts:77-82 | the constructor heapifies the wrapped pack with the given comparator and keeps its elements |
| Heaps.WithComparator | sources/heap/PackHeap.ts:66-69 | setting the comparator heapifies the pack again, so it is a heap for the new order with the same elements |
| SparseDenseSets.Create | sources/set/PackSparseDenseSet.ts:43-49 | a new set is empty, valid and has the requested capacity |
| SparseDenseSets.Distinct | sources/set/PackSparseDenseSet.ts:103-123 | the invariant `sparse[dense[i]] == i` makes every member listed once |
| SparseDenseSets.IndexOf | sources/set/PackSparseDenseSet.ts:75-91 | `indexOf` is the member's position in `dense` when it lies in the range, and -1 otherwise; it throws for a range outside `[0, size]` or an element outside the capacity |
| SparseDenseSets.Has | sources/set/PackSparseDenseSet.ts:68-70 | `has(e)` holds exactly when `e` occurs in `dense`, and throws outside the capacity |
| SparseDenseSets.Add | sources/set/PackSparseDenseSet.ts:103-110 | `add` appends an absent element to `dense`, leaves a member's set unchanged, and keeps the invariant |
| SparseDenseSets.AddIdempotent | sources/set/PackSparseDenseSet.ts:103-110 | adding twice is adding once |
| SparseDenseSets.AddThenHas | sources/set/PackSparseDenseSet.ts:103-110 | an added element is a member, and membership of every other element is unchanged |
| SparseDenseSets.Delete | sources/set/PackSparseDenseSet.ts:115-123 | `delete` of a member writes the last member over its position in `dense` and drops the last position; the element is gone, the other members stay, the invariant holds, and a non-member's set is unchanged |
| SparseDenseSets.DeleteThenHas | sources/set/PackSparseDenseSet.ts:115-123 | a deleted element is no longer a member, and membership of every other element is unchanged |
| SparseDenseSets.AddThenDelete | sources/set/PackSparseDenseSet.ts:103-123 | deleting a freshly added element gives back the members in their order |
| SparseDenseSets.Reallocate | sources/set/PackSparseDenseSet.ts:168-184 | `reallocate` keeps exactly the members below the new capacity, in their order |
| SparseDenseSets.Max | sources/set/PackSparseDenseSet.ts:202-213 | `max` is the greatest member, and 0 for an empty set |
| SparseDenseSets.Min | sources/set/PackSparseDenseSet.ts:220-231 | `min` is the least member, and 0 for an empty set |
| SparseDenseSets.Clear | sources/set/PackSparseDenseSet.ts:236-238 | `clear` leaves a valid empty set of the same capacity |
| SparseDenseSets.ClearThenHas | sources/set/PackSparseDenseSet.ts:236-238 | after `clear`, no element is a member |
| IdentifierSets.Create | sources/set/IdentifierSet.ts:50-61 | a new set has identity `dense` and `sparse` arrays, which are inverse permutations, and no member |
| IdentifierSets.HasMembers | sources/set/IdentifierSet.ts:80-82 | `Has`, that is `has(e)` or `sparse[e] < size`, holds exactly when `e` is among the members |
| IdentifierSets.IndexOf | sources/set/IdentifierSet.ts:87-90 | `indexOf` is the member's position in `dense`, and -1 for a non-member |
| IdentifierSets.Add | sources/set/IdentifierSet.ts:111-122 | `add` swaps a free identifier into the member prefix, keeps the permutations inverse, and changes nothing for a member or an identifier outside the capacity |
| IdentifierSets.AddIdempotent | sources/set/IdentifierSet.ts:111-122 | adding twice is adding once |
| IdentifierSets.Next | sources/set/IdentifierSet.ts:127-130 | `next` returns an identifier that was not a member, makes it one, and grows the size by one |
| IdentifierSets.Delete | sources/set/IdentifierSet.ts:135-148 | `delete` of a member moves the last member into its place, shrinks the size by one, parks the deleted identifier just past the members, and keeps the permutations inverse |
| IdentifierSets.DeleteThenNext | sources/set/IdentifierSet.ts:127-148 | after deleting a member, `next()` hands that identifier out again |
| IdentifierSets.AddThenDelete | sources/set/IdentifierSet.ts:111-148 | deleting a freshly added identifier gives back the same members |
| IdentifierSets.Reallocate | sources/set/IdentifierSet.ts:160-192 | `reallocate` keeps exactly the members below the new capacity, in their order |
| IdentifierSets.Max | sources/set/IdentifierSet.ts:207-218 | `max` is the greatest member, and undefined (`None`) for an empty set |
| IdentifierSets.Min | sources/set/IdentifierSet.ts:225-236 | `min` is the least member, and undefined (`None`) for an empty set |
| IdentifierSets.Clear | sources/set/IdentifierSet.ts:241-243 | `clear` removes every member and keeps the permutation |
| Bisection.Midpoint | sources/algorithm/bisect.ts:29 | `left + ((right - left) >>> 1)` lies in `[left, right)` |
| Bisection.Search | sources/algorithm/bisect.ts:28-41 | the loop returns an index holding an equal element, or `-(p + 1)` where every element before `p` is below the value and every element from `p` on is above it |
| Bisection.Bisect | sources/algorithm/bisect.ts:17-45 | a hit lies in `[offset, offset + size)` and compares 0 with the value; a miss encodes its insertion point; a size of 0 or less gives -1 |
| Bisection.BisectFinds | sources/algorithm/bisect.ts:17-45 | over a sorted range, `bisect` reports a hit exactly when the range holds an element equal to the value |
| Bisection.BisectInsertionKeepsSorted | sources/algorithm/bisect.ts:41 | over a sorted sequence, inserting the value at the reported position keeps it sorted |
| Bisection.First | sources/algorithm/bisect.ts:62-78 | `first` reports a miss as `bisect` does, and moves a hit down to the start of its run of equal elements |
| Bisection.FirstIsLeast | sources/algorithm/bisect.ts:62-78 | over a sequence ordered throughout, `first` finds the leftmost equal element |
| Bisection.Last | sources/algorithm/bisect.ts:91-109 | `last` reports a miss as `bisect` does, and moves a hit up to the end of its run of equal elements |
| Bisection.LastIsGreatest | sources/algorithm/bisect.ts:91-109 | over a sequence ordered throughout, `last` finds the rightmost equal element |
| Bisection.Invert | sources/algorithm/bisect.ts:122-150 | `invert` is `bisect` with the negated comparator |
| Bisection.InvertOrdered | sources/algorithm/bisect.ts:122-150 | a range sorted in reverse comparator order is one `invert` can search |
| Sorting.Partition | sources/algorithm/quicksort.ts:39-63 | Hoare's partition rearranges `[left, right]` (the same multiset, nothing outside it changed), returns `j` with `left <= j < right`, and leaves no element of the left side after one of the right side |
| Sorting.SwapRearranges | sources/algorithm/quicksort.ts:61 | trading two positions of a range rearranges the range and leaves everything outside it alone |
| Sorting.RQuicksort | sources/algorithm/quicksort.ts:23-34 | `rquicksort` sorts `[left, right]`, rearranges only that range, and leaves every element outside it unchanged |
| Sorting.Combined | sources/algorithm/quicksort.ts:23-34 | sorting both sides of a split range sorts the whole range |
| Sorting.Quicksort | sources/algorithm/quicksort.ts:13-18 | `[offset, offset + size)` comes out sorted, as a permutation of what it held, and nothing outside it changes |
| Sorting.QuicksortSorts | sources/algorithm/quicksort.ts:13-18 | sorting a whole list yields a sorted permutation of it |
| SequenceCursors.Create | sources/sequence/SequenceCursor.ts:33-37 | a new cursor points at the given sequence and index, 0 by default |
| SequenceCursors.IsInside | sources/sequence/SequenceCursor.ts:42-45 | `isInside` holds exactly when `0 <= index < size` |
| SequenceCursors.RegionsAsWritten | sources/sequence/SequenceCursor.ts:42-59 | as written, `IsStartAsWritten`, `IsInside` and `IsEnd` (the getters `isStart`, `isInside` and `isEnd`) split the indices into three disjoint regions: below 0, inside, and at or past the size |
| SequenceCursors.IsStartMissesFirst | tests/sequence/SequenceCursor.spec.ts:124-130 | as written, a cursor at index 0 of a 15-element sequence is not at the start, while the cursor's tests expect it to be |
| SequenceCursors.IsStartAtFirst | sources/sequence/SequenceCursor.ts:57-59 | `IsStart`, the corrected `isStart`, holds at 0 and before, and not at 1, 5 or 8 |
| SequenceCursors.Next | sources/sequence/SequenceCursor.ts:64-66 | `next` keeps the sequence and adds one to the index |
| SequenceCursors.Forward | sources/sequence/SequenceCursor.ts:71-73 | `forward(n)` keeps the sequence and adds `n` to the index |
| SequenceCursors.Previous | sources/sequence/SequenceCursor.ts:78-80 | `previous` keeps the sequence and subtracts one from the index |
| SequenceCursors.Backward | sources/sequence/SequenceCursor.ts:85-87 | `backward(n)` keeps the sequence and subtracts `n` from the index |
| SequenceCursors.At | sources/sequence/SequenceCursor.ts:99-101 | `at(i)` keeps the sequence and sets the index to `i` |
| SequenceCursors.MovesInvert | sources/sequence/SequenceCursor.ts:64-87 | moving back undoes moving forward, by one or by any count |
| SequenceCursors.MovesCompose | sources/sequence/SequenceCursor.ts:71-101 | forward moves add up, and a jump lands where a move by the difference lands |
| SequenceCursors.WalkFromStart | sources/sequence/SequenceCursor.ts:64-66 | walking with `next` from the start visits every element, and is inside until it reaches the end |
| SequenceCursors.Copy | sources/sequence/SequenceCursor.ts:106-109 | after `copy`, the cursor equals the one it copied |
| SequenceCursors.Wrap | sources/sequence/SequenceCursor.ts:128-131 | `wrap` points the cursor at the given index of the other sequence |
| SequenceCursors.Clone | sources/sequence/SequenceCursor.ts:114-116 | a clone equals its source |
| SequenceCursors.Equals | sources/sequence/SequenceCursor.ts:136-148 | `equals` holds exactly for another cursor over the very same sequence at the same index |
| SequenceCursors.EqualsEquivalence | sources/sequence/SequenceCursor.ts:136-148 | among cursors, `equals` is reflexive, symmetric and transitive |
| TypedArrays.UintKindUpTo | sources/native/TypedArray.ts:165-173 | the unsigned kind is 8 bits up to `0xff`, 16 bits up to `0xffff`, and 32 bits beyond; it holds the maximum and is the narrowest unsigned kind that does |
| TypedArrays.IntKindUpTo | sources/native/TypedArray.ts:104-112 | the signed kind is 8 bits up to `0x7f`, 16 bits up to `0x7fff`, and 32 bits beyond; it is the narrowest signed kind whose greatest value reaches the maximum |
| TypedArrays.KindsMonotone | sources/native/TypedArray.ts:165-173 | a greater maximum never gets a narrower kind, signed or not |
| TypedArrays.CreateUintArrayUpTo | sources/native/TypedArray.ts:165-173 | the array is zeroed, has the requested capacity, is the narrowest unsigned kind that holds the maximum, and keeps every value from 0 to a maximum up to `0xffffffff` |
| TypedArrays.CreateIntArrayUpTo | sources/native/TypedArray.ts:104-112 | the array is zeroed, has the requested capacity, is the narrowest signed kind whose greatest value reaches the maximum, and keeps every value from -128 to a maximum up to `0x7fffffff` |
| TypedArrays.UintBeyondRange | sources/native/TypedArray.ts:165-173 | past `0xffffffff` the unsigned array is still 32 bits wide, and the maximum wraps around when written |
| TypedArrays.Allocate | sources/native/TypedArray.ts:121-145 | `new Uint8Array(capacity)` and its siblings give an array of the requested kind and length holding only zeros |
| TypedArrays.Stored | sources/native/TypedArray.ts:165-173 | the value a typed array of the chosen kind stores for `v` lies in the kind's range, differs from `v` by a multiple of the kind's modulus, and is `v` itself when `v` is in range |
| TypedArrays.Write | sources/native/TypedArray.ts:165-173 | writing to one position of a typed array keeps its kind and length, stores a value in the kind's range unchanged, and leaves every other position alone |
| FactoryAllocators.Create | sources/allocator/FactoryAllocator.ts:43-52 | the constructor fills the pool so that size and capacity are the requested capacity, each slot holding one factory product in order |
| FactoryAllocators.Allocate | sources/allocator/FactoryAllocator.ts:57-65 | `allocate` pops the last pooled instance when the pool is not empty; otherwise it returns the factory's next instance and the size stays 0 |
| FactoryAllocators.Free | sources/allocator/FactoryAllocator.ts:77-80 | `free` pushes the instance on the pool, and the capacity grows when the pool was full |
| FactoryAllocators.AllocateThenFree | sources/allocator/FactoryAllocator.ts:57-80 | freeing what was just allocated restores the pool, and allocating what was just freed returns it |
| FactoryAllocators.Clear | sources/allocator/FactoryAllocator.ts:85-93 | `clear` empties the pool and keeps the capacity |
| FactoryAllocators.SizeWithinCapacity | sources/allocator/FactoryAllocator.ts:26-35 | a pool never holds more instances than its capacity |

## Left out

- **Output.** The `print` lines of `generate.py` (lines 12 and 29) are output only. The model keeps the returned text.
- **Outside code.** Anything outside the classes listed above. The utility package's `gcd`, which `rotate` calls, is not part of this model; Euclid's algorithm (`Numbers.Gcd`) stands in for it.
- **Delegation.** Iterators, views, `values()`, `stringify`, `fit`, the `copy`/`clone`/`equals` of the packs and sets, and `search`. These delegate to other classes or only walk the elements.
- **Type characteristics.** Floating-point values, `NaN`, and fractional indices. Every index and count is an integer, and JavaScript's float precision past 2^53 is not modelled.
- **Bit set values.** The bit set's `values()` iterator, which uses the same `> 0` test as `has`.
- BitSets: an element is a natural number below 2^31. Negative elements, and what `>> 5` and `% 32` do with them, are not modelled.
- BitSets.Get: the scan is modelled on the pack's logical cells; cells read past the end of the buffer count as 0, as JavaScript's `undefined` does under bitwise operators.
- ArrayPacks.Rotate: a pack of size 0 is left as it is, where the source computes `offset % 0` (NaN) and reads nothing.
- CircularPacks: a buffer of capacity 0 is excluded (every `% capacity` is NaN there). The size setter and `fit` are not modelled. The wrapped pack is taken to be an `ArrayPack`, whose `get` and `set` throw outside the size; over a `BufferPack`, whose `get` and `set` never throw, the as-written insertions that throw here would run on.
- CircularPacks.GetAfterSet: proved about the corrected `set`. About `set` as written, `SetAsWritten` proves the read-back and the filled gap, but the other elements stay put only when the buffer does not grow or starts at slot 0.
- Heaps.Pop: the default `index = 0` is not a separate member; a caller passes 0, and the last clause of the contract covers that case.
- Heaps: the wrapped pack is taken to be an `ArrayPack`, as `Heaps.any` makes it, whose `get` and `swap` throw outside the size. The other heap factories (`Heaps.uint8` to `Heaps.float64`) wrap a `BufferPack`, and `Heaps.fromPack` takes whatever pack it is given. A `BufferPack`'s `get` and `swap` never throw, so over one the `Err` results of `Heaps.Remove`, `Heaps.RemoveAsWritten` and `Heaps.PopAsWritten` at or past the size, and at the last position, would be silent successes instead. The heap operations work on the pack's contents as a sequence; `compare`, `get`, `indexOf`, `has`, `reallocate` and `clear` of the `PackHeap` class delegate to the pack.
- SparseDenseSets: the capacity is the length of `sparse`. The `sparse` array is taken to be an `ArrayPack`, as `createAnyPackSparseDenseSet` makes it, so `indexOf`, `has`, `add` and `delete` throw for an element outside the capacity. The other factories (`createUint32PackSparseDenseSet`, `createUint16PackSparseDenseSet`, `createUint8PackSparseDenseSet` and `createPackSparseDenseSetUpTo`) use a `BufferPack`, whose `get` never throws and whose `set` grows the size; what those do outside the capacity is not modelled.
- IdentifierSets.Next: requires a free identifier. On a full set the source returns `undefined` and lets the size pass the capacity.
- IdentifierSets: `get`, `first`, `last`, `hasInSubsequence` and `indexOfInSubsequence` are not modelled.
- Bisection.Bisect: the default values of `offset` and `size` are not modelled. Reads outside the sequence are excluded because the range must lie inside it.
- Sorting.Quicksort: requires the range to lie inside the sequence; outside it the source's `sequence.get` throws (quicksort.ts lines 44, 51 and 55), and that error path is not modelled. The defaults of the comparator, `offset` and `size` are not modelled; the caller passes all three.
- Sorting.Quicksort: requires the range to end at or below 2^31, and Sorting.Partition requires `right < 2^31`. Beyond that, `(left + right) >>> 1` wraps around and the middle can fall outside the range.
- SequenceCursors: `get` delegates to the sequence, and `view` is not modelled. The sequence is an opaque handle, so `equals` compares handles, as `===` does.
- TypedArrays: a `NaN` or fractional maximum, a negative capacity (a RangeError in JavaScript), float arrays and `allocateSameTypedArray` are not modelled.
- ArrayPacks.Create: the capacity is a natural number, 32 by default. With a negative capacity, `createArrayPack`'s `while (result.length != capacity)` loop never returns, and that case is not modelled.
- BitSets.New: the capacity is a natural number, 32 by default. A negative capacity, which reaches `createUint32Pack` as `Math.ceil(capacity / 32)`, is not modelled.
- ArrayPacks.Resize: the new size is a natural number. Given a negative size, the source's size setter runs neither of its loops and stores the negative `_size`; that state is not modelled.
- ArrayPacks.Reallocate: the capacity is a natural number. Given a negative capacity, the source's `reallocate` reaches `elements.length = capacity`, which throws a RangeError; that error path is not modelled.
- CircularPacks.Reallocate: the capacity is a natural number. Given a negative capacity, the source's `reallocate` rotates the array, stores the negative capacity as `_size`, and then throws a RangeError in the wrapped pack's `reallocate`; that path is not modelled.
- CircularPacks.ReallocateAsWritten: the same negative-capacity path as for `CircularPacks.Reallocate` is excluded by the natural-number capacity.
- Negative capacities elsewhere: `IdentifierSets.Create` and `IdentifierSets.Reallocate` allocate `UnsignedIntegerBuffer.upTo(capacity - 1, capacity)`, a typed array whose negative length throws a RangeError (see the TypedArrays line). `SparseDenseSets.Create` and `SparseDenseSets.Reallocate` allocate their packs through `createArrayPack`, whose loop never returns for a negative capacity, or through a typed-array factory that throws. `FactoryAllocators.Create` calls `createArrayPack` (see the ArrayPacks.Create line). All of them take the capacity as a natural number.
- ArrayPacks: `defaultValue` is a factory of filling values; the model takes it to return the same value, `fill`, on every call.
- FactoryAllocators: `rollback` and the instances' own `clear()` are calls into code this model does not see. The factory is a parameter, a function of the number of instances made so far.

## Findings

| source | as written | input that shows it | evidently intended | confidence | as-written member | corrected member |
|---|---|---|---|---|---|---|
| sources/set/BitSet.ts:70-76 | `(cell & mask) > 0` with `mask = 1 << 31` | `has(31)` on `{31}` is false | `(cell & mask) !== 0` | high, not executed | BitSets.HasAsWrittenMissesSignBit | BitSets.HasIsMember |
| sources/set/BitSet.ts:81-99 | a fresh cell only for `size < cell`; at `cell == size` the stale bits of the buffer are or-ed in | `add(1)`, `clear()`, `add(2)` stores `{1, 2}` and counts 1 | `size <= cell` | medium, not executed | BitSets.AddAsWrittenResurrects | BitSets.AddContents |
| sources/set/BitSet.ts:104-121 | a word that becomes 0 is not stored, and the pack shrinks from its last cell whichever cell was emptied | deleting 0 from `{0, 32}` keeps 0 and loses 32; deleting 32 from `{32}` never returns | store the cleared word, then trim empty cells at the end | high, not executed | BitSets.DeleteAsWrittenLosesNeighbour | BitSets.DeleteContents |
| sources/set/BitSet.ts:126-205 | guard `index > size` and scan `skipped + cellElements < index`: a 1-based rank | `get(0)` is 0 on `{5}` | 0-based, as `Sequence.get` is | high, not executed | BitSets.GetAsWritten | BitSets.Get |
| sources/set/BitSet.ts:263-266 | `get(size - 1)` with the 1-based `get` | `max()` of `{1, 2}` is 1 | the greatest element | high, not executed | BitSets.MaxAsWritten | BitSets.Max |
| sources/circular/CircularPackAdapter.ts:123-135 | rotates by `-start - (capacity - size)` and never resets `_start` | cutting `[1, 2, 3]` to 2 keeps `[3, 1]`; growing `[1, 2]` held from slot 1 reads `[2, 0]` | rotate by `-(start + size - capacity)` and set the start to 0 | high, not executed | CircularPacks.ReallocateAsWrittenReordersCut | CircularPacks.Reallocate |
| sources/circular/CircularPackAdapter.ts:280-298 | `set` grows through `reallocate` as written, which keeps `_start` | `set(2, 3)` on `[1, 2]` held from slot 1 of two gives `[2, 0, 3]` | keep the elements and append, giving `[1, 2, 3]` | high, not executed | CircularPacks.SetAsWrittenKeepsStart | CircularPacks.Set |
| sources/circular/CircularPackAdapter.ts:317-337 | a negative index is not refused | `insert(-1, 30)` into `[10, 20]` held from slot 1 of three gives `[20, 10, 30]` | throw on a negative index, as the list contract demands | medium, not executed | CircularPacks.InsertAsWrittenAtNegative | CircularPacks.Insert |
| sources/circular/CircularPackAdapter.ts:317-337 | on a full buffer `shift()` runs and the index drops by one, so `insert(0)` continues with index -1 | `insert(0, 30)` into the full `[10, 20]` throws, or leaves `[20, 30]` when the start is slot 1 | insert, then drop the oldest element, so `insert(0)` on a full buffer leaves it as it is | high, not executed | CircularPacks.InsertAsWrittenThrowsAtFront | CircularPacks.Insert |
| sources/heap/PackHeap.ts:261-269 | the guard before `rearrange` compares `index` with the size taken before the deletion | `remove(1)` on a heap of two over an `ArrayPack` (`Heaps.any`) reads past the new size and throws | compare with the size after the deletion | high, not executed | Heaps.RemoveAsWritten | Heaps.Remove |
| sources/heap/PackHeap.ts:250-254 | `pop` calls the as-written `remove` | `pop(1)` on the heap `[2, 1]` over an `ArrayPack` (`Heaps.any`) throws | remove the element at any index inside the heap | high, not executed | Heaps.PopAsWritten | Heaps.Pop |
| sources/sequence/SequenceCursor.ts:57-59 | `index < 0` | `new SequenceCursor(sequence, 0).isStart()` is false; the cursor's tests expect true | `index <= 0` | medium, not executed | SequenceCursors.IsStartMissesFirst | SequenceCursors.IsStartAtFirst |

=== FILE: allocator.dfy ===
/**
 * `FactoryAllocator` (`sources/allocator/FactoryAllocator.ts`): a pool of
 * unused instances kept in an array pack whose filling value is `null`.
 * Allocation takes the last pooled instance, or asks the factory for a new
 * one when the pool is empty; freeing pushes an instance back.
 *
 * The factory is a parameter: `factory(k)` is the instance its `k`-th
 * call returns, and the allocator counts the calls it made. Clearing an
 * instance before it returns to the pool is the instance's own business
 * and is not modelled.
 */
module FactoryAllocators {
  import opened Outcomes
  import opened Sequences
  import opened ArrayPacks

  datatype Allocator<P> = Allocator(instances: Pack<Option<P>>, made: nat)

  /** The pool is a valid pack filled with `null`, and every pooled slot holds an instance. */
  predicate Valid<P>(a: Allocator<P>) {
    ArrayPacks.Valid(a.instances) && a.instances.fill == None
    && forall i :: 0 <= i < a.instances.size ==> a.instances.elements[i].Some?
  }

  /** The `size` getter: the number of pooled instances. */
  function Size<P>(a: Allocator<P>): nat {
    a.instances.size
  }

  /** The `capacity` getter: the capacity of the pool's pack. */
  function Capacity<P>(a: Allocator<P>): nat {
    ArrayPacks.Capacity(a.instances)
  }

  /** The pooled instances, in order. */
  function Pooled<P>(a: Allocator<P>): (r: seq<P>)
    requires Valid(a)
    ensures |r| == Size(a)
    ensures forall i :: 0 <= i < |r| ==> Contents(a.instances)[i] == Some(r[i])
  {
    seq(a.instances.size, i requires 0 <= i < a.instances.size => a.instances.elements[i].value)
  }

  /**
   * The constructor: a pack of `capacity` `null` slots, then one factory
   * call per slot pushed until the size reaches the capacity, 16 unless
   * told otherwise.
   */
  method Create<P>(factory: nat -> P, capacity: nat := 16) returns (r: Allocator<P>)
    ensures Valid(r) && Size(r) == capacity && Capacity(r) == capacity && r.made == capacity
    ensures forall k :: 0 <= k < capacity ==> Pooled(r)[k] == factory(k)
  {
    var instances := ArrayPacks.Create(None, capacity);
    var made := 0;
    while instances.size < |instances.elements|
      invariant ArrayPacks.Valid(instances) && instances.fill == None && |instances.elements| == capacity
      invariant made == instances.size
      invariant forall i :: 0 <= i < instances.size ==> instances.elements[i] == Some(factory(i))
      decreases capacity - instances.size
    {
      instances := Push(instances, Some(factory(made)));
      made := made + 1;
    }
    r := Allocator(instances, made);
  }

  /**
   * `allocate()`: the last pooled instance, popped; on an empty pool, the
   * factory's next instance.
   */
  function Allocate<P>(a: Allocator<P>, factory: nat -> P): (r: (P, Allocator<P>))
    requires Valid(a)
    ensures Valid(r.1) && Capacity(r.1) == Capacity(a)
    ensures Size(a) > 0 ==> (r.1.made == a.made && Pooled(r.1) + [r.0] == Pooled(a))
    ensures Size(a) == 0 ==> (r.1.made == a.made + 1 && r.0 == factory(a.made) && Size(r.1) == 0)
  {
    if a.instances.size > 0 then
      var popped := Pop(a.instances).value;
      var r := Allocator(popped.1, a.made);
      assert Contents(popped.1) == Contents(a.instances)[..Size(a) - 1];
      assert Pooled(r) + [popped.0.value] == Pooled(a);
      (popped.0.value, r)
    else
      (factory(a.made), Allocator(a.instances, a.made + 1))
  }

  /** `free(instance)`: the instance is pushed back on the pool, which grows when full. */
  function Free<P>(a: Allocator<P>, instance: P): (r: Allocator<P>)
    requires Valid(a)
    ensures Valid(r) && r.made == a.made
    ensures Pooled(r) == Pooled(a) + [instance]
    ensures Capacity(r) == Max(Capacity(a), Size(a) + 1)
  {
    var r := Allocator(Push(a.instances, Some(instance)), a.made);
    assert forall i :: 0 <= i < Size(r) ==> r.instances.elements[i] == (Contents(a.instances) + [Some(instance)])[i];
    assert Pooled(r) == Pooled(a) + [instance];
    r
  }

  /** Freeing what was just allocated restores the pool; allocating what was just freed returns it. */
  lemma AllocateThenFree<P>(a: Allocator<P>, factory: nat -> P, instance: P)
    requires Valid(a)
    ensures Size(a) > 0 ==> var (p, b) := Allocate(a, factory); Pooled(Free(b, p)) == Pooled(a)
    ensures Allocate(Free(a, instance), factory).0 == instance
    ensures Pooled(Allocate(Free(a, instance), factory).1) == Pooled(a)
  {
    var b := Free(a, instance);
    var q := Allocate(b, factory);
    assert Pooled(q.1) + [q.0] == Pooled(a) + [instance];
    assert (Pooled(q.1) + [q.0])[..Size(a)] == Pooled(q.1);
  }

  /**
   * `clear()`: every pooled slot is set to `null`, then the pack is
   * cleared; the capacity stays.
   */
  function Clear<P>(a: Allocator<P>): (r: Allocator<P>)
    requires Valid(a)
    ensures Valid(r) && Size(r) == 0 && Capacity(r) == Capacity(a) && r.made == a.made
    ensures forall i :: 0 <= i < Size(a) ==> r.instances.elements[i] == None
  {
    var elements := seq(a.instances.size, _ => None) + a.instances.elements[a.instances.size..];
    Allocator(ArrayPacks.Clear(Pack(elements, a.instances.size, None)), a.made)
  }

  /** A pool never holds more instances than its capacity. */
  lemma SizeWithinCapacity<P>(a: Allocator<P>)
    requires Valid(a)
    ensures Size(a) <= Capacity(a)
  {
  }
}

=== FILE: arraypack.dfy ===
/**
 * `ArrayPack` of `sources/pack/ArrayPack.ts`: a JavaScript array used as a
 * growable buffer. The first `size` slots hold the pack; the slots after
 * them keep whatever was last written there until an operation writes
 * them again. `defaultValue` is a factory of filling values; the model
 * takes it to return the same value, `fill`, on every call.
 */
module ArrayPacks {
  import opened Outcomes
  import opened Sequences
  import opened Numbers

  datatype Pack<T> = Pack(elements: seq<T>, size: nat, fill: T)

  /** The size never exceeds the array: every operation below keeps this. */
  predicate Valid<T>(p: Pack<T>) {
    p.size <= |p.elements|
  }

  /** What the pack holds, in order. */
  function Contents<T>(p: Pack<T>): seq<T>
    requires Valid(p)
  {
    p.elements[..p.size]
  }

  /** The `capacity` getter: the length of the wrapped array. */
  function Capacity<T>(p: Pack<T>): nat {
    |p.elements|
  }

  /** `createArrayPack(defaultValue, capacity = 32)`: `capacity` filling values and size 0. */
  function Create<T>(fill: T, capacity: nat := 32): (r: Pack<T>)
    ensures Valid(r) && Contents(r) == [] && Capacity(r) == capacity
  {
    Pack(seq(capacity, _ => fill), 0, fill)
  }

  // ---------------------------------------------------------------------
  // size and capacity

  /**
   * The `size` setter: slots between the old size and the new one are
   * filled, inside the array by assignment and past its end by `push`.
   */
  function Resize<T>(p: Pack<T>, newSize: nat): (r: Pack<T>)
    ensures Valid(r) && r.size == newSize && Capacity(r) == Max(Capacity(p), newSize)
    ensures Valid(p) ==> (Contents(r) ==
      if newSize <= p.size then Contents(p)[..newSize] else Contents(p) + seq(newSize - p.size, _ => p.fill))
  {
    var until := Min(newSize, |p.elements|);
    var filled := seq(|p.elements|, i requires 0 <= i < |p.elements| =>
      if p.size <= i < until then p.fill else p.elements[i]);
    Pack(filled + seq(Max(newSize - |p.elements|, 0), _ => p.fill), newSize, p.fill)
  }

  /** Growing the size and shrinking it back leaves the pack as it was. */
  lemma ResizeBack<T>(p: Pack<T>, newSize: nat)
    requires Valid(p) && p.size <= newSize
    ensures Contents(Resize(Resize(p, newSize), p.size)) == Contents(p)
  {
    var grown := Resize(p, newSize);
    assert Contents(grown)[..p.size] == Contents(p);
  }

  /**
   * `reallocate(capacity)`: the array is padded with filling values up to
   * `capacity`, or cut down to it, in which case the size is cut too.
   */
  function Reallocate<T>(p: Pack<T>, capacity: nat): (r: Pack<T>)
    ensures Capacity(r) == capacity
    ensures r.size == if Capacity(p) > capacity then Min(p.size, capacity) else p.size
    ensures Valid(p) ==> Valid(r) && Contents(r) == Contents(p)[..Min(p.size, capacity)]
  {
    var grown := if |p.elements| < capacity then p.elements + seq(capacity - |p.elements|, _ => p.fill) else p.elements;
    if |grown| > capacity then Pack(grown[..capacity], Min(p.size, capacity), p.fill)
    else Pack(grown, p.size, p.fill)
  }

  // ---------------------------------------------------------------------
  // get, swap, set

  /** `get(index)`: the element at `index`, and an error outside `[0, size)`. */
  function Get<T>(p: Pack<T>, index: int): (r: Result<T>)
    requires Valid(p)
    ensures r.Ok? <==> 0 <= index < p.size
    ensures r.Ok? ==> r.value == Contents(p)[index]
    ensures r.Err? ==> r.failure == IllegalSequenceIndex
  {
    if index < 0 || index >= p.size then Err(IllegalSequenceIndex) else Ok(p.elements[index])
  }

  /** `swap(first, second)`: exchanges two elements, and throws for an index outside `[0, size)`. */
  function Swap<T>(p: Pack<T>, first: int, second: int): (r: Result<Pack<T>>)
    requires Valid(p)
    ensures r.Ok? <==> 0 <= first < p.size && 0 <= second < p.size
    ensures r.Err? ==> r.failure == IllegalSequenceIndex
    ensures r.Ok? ==> Valid(r.value) && Capacity(r.value) == Capacity(p) && r.value.size == p.size
    ensures r.Ok? ==> Contents(r.value)[first] == Contents(p)[second] && Contents(r.value)[second] == Contents(p)[first]
    ensures r.Ok? ==> forall i :: 0 <= i < p.size && i != first && i != second ==> Contents(r.value)[i] == Contents(p)[i]
  {
    if first < 0 || first >= p.size then Err(IllegalSequenceIndex)
    else if second < 0 || second >= p.size then Err(IllegalSequenceIndex)
    else
      var held := p.elements[first];
      Ok(p.(elements := p.elements[first := p.elements[second]][second := held]))
  }

  /** A swap keeps the elements of the pack, with their multiplicities. */
  lemma SwapPermutes<T>(p: Pack<T>, first: int, second: int)
    requires Valid(p) && Swap(p, first, second).Ok?
    ensures multiset(Contents(Swap(p, first, second).value)) == multiset(Contents(p))
  {
    var c := Contents(p);
    var d := Contents(Swap(p, first, second).value);
    assert d == c[first := c[second]][second := c[first]];
  }

  /** Swapping the same two indices twice restores the pack. */
  lemma SwapTwice<T>(p: Pack<T>, first: int, second: int)
    requires Valid(p) && Swap(p, first, second).Ok?
    ensures Swap(Swap(p, first, second).value, first, second) == Ok(p)
  {
    var q := Swap(Swap(p, first, second).value, first, second).value;
    assert q.elements == p.elements;
  }

  /**
   * `set(startOrEnd, endOrStart, value)`: the range, its bounds in either
   * order, is filled with `value`; the gap between the old size and the
   * range is filled with filling values; the size becomes the larger of the
   * old size and the upper bound. A negative bound throws.
   */
  function SetRange<T>(p: Pack<T>, startOrEnd: int, endOrStart: int, value: T): (r: Result<Pack<T>>)
    requires Valid(p)
    ensures r.Ok? <==> startOrEnd >= 0 && endOrStart >= 0
    ensures r.Err? ==> r.failure == NegativeSequenceIndex
    ensures r.Ok? ==> Valid(r.value) && r.value.size == Max(p.size, Upper(startOrEnd, endOrStart))
    ensures r.Ok? ==> Capacity(r.value) == Max(Capacity(p), Upper(startOrEnd, endOrStart))
    ensures r.Ok? ==> forall i :: 0 <= i < r.value.size ==> (Contents(r.value)[i] ==
      if Lower(startOrEnd, endOrStart) <= i < Upper(startOrEnd, endOrStart) then value
      else if i < p.size then Contents(p)[i] else p.fill)
  {
    if startOrEnd < 0 || endOrStart < 0 then Err(NegativeSequenceIndex)
    else
      var end: nat := Upper(startOrEnd, endOrStart);
      Ok(Pack(RangeWritten(p, Lower(startOrEnd, endOrStart), end, value), Max(p.size, end), p.fill))
  }

  /**
   * The array after `set` on `[start, end)`: the two assignment loops, then
   * the two `push` loops.
   */
  function RangeWritten<T>(p: Pack<T>, start: nat, end: nat, value: T): (r: seq<T>)
    requires start <= end
    ensures |r| == Max(|p.elements|, end)
    ensures forall i :: start <= i < end ==> r[i] == value
    ensures forall i :: p.size <= i < start ==> r[i] == p.fill
    ensures forall i :: 0 <= i < |p.elements| && !(start <= i < end) && !(p.size <= i < start) ==> r[i] == p.elements[i]
  {
    var length := |p.elements|;
    var written := seq(length, i requires 0 <= i < length =>
      if p.size <= i < Min(start, length) then p.fill
      else if start <= i < Min(end, length) then value
      else p.elements[i]);
    var padded := written + seq(Max(start - length, 0), _ => p.fill);
    var extended := padded + seq(Max(end - |padded|, 0), _ => value);
    assert forall i :: 0 <= i < length ==> (written[i] ==
      if p.size <= i < Min(start, length) then p.fill
      else if start <= i < Min(end, length) then value
      else p.elements[i]);
    assert forall i :: 0 <= i < length ==> extended[i] == written[i];
    assert forall i :: length <= i < |padded| ==> extended[i] == p.fill;
    assert forall i :: |padded| <= i < |extended| ==> extended[i] == value;
    extended
  }

  /**
   * `set(index, value)`: the range `[index, index + 1)`. Inside the pack
   * one element changes; past it the pack grows with filling values up to
   * `index` and ends with `value`.
   */
  function Set<T>(p: Pack<T>, index: int, value: T): (r: Result<Pack<T>>)
    requires Valid(p)
    ensures r.Ok? <==> index >= 0
    ensures r.Err? ==> r.failure == NegativeSequenceIndex
    ensures r.Ok? ==> (Valid(r.value) && Contents(r.value) ==
      if index < p.size then Contents(p)[index := value]
      else Contents(p) + seq(index - p.size, _ => p.fill) + [value])
  {
    var r := SetRange(p, index, index + 1, value);
    if r.Ok? then
      var c := Contents(r.value);
      assert c == if index < p.size then Contents(p)[index := value]
        else Contents(p) + seq(index - p.size, _ => p.fill) + [value];
      r
    else r
  }

  /** A value written by `set` is what `get` reads back; the other elements are untouched. */
  lemma GetAfterSet<T>(p: Pack<T>, index: nat, value: T, other: int)
    requires Valid(p)
    ensures Get(Set(p, index, value).value, index) == Ok(value)
    ensures 0 <= other < p.size && other != index ==> Get(Set(p, index, value).value, other) == Get(p, other)
  {
    var q := Set(p, index, value).value;
    if index >= p.size {
      assert Contents(q)[index] == value;
    }
  }

  // ---------------------------------------------------------------------
  // push, pop, clear

  /**
   * `push(value)`: `value` goes in the slot after the last element; a full
   * array grows by that one slot.
   */
  function Push<T>(p: Pack<T>, value: T): (r: Pack<T>)
    requires Valid(p)
    ensures Valid(r) && Contents(r) == Contents(p) + [value] && r.fill == p.fill
    ensures Capacity(r) == Max(Capacity(p), p.size + 1)
  {
    var elements := if p.size == |p.elements| then p.elements + [value] else p.elements[p.size := value];
    assert elements[..p.size + 1] == Contents(p) + [value];
    Pack(elements, p.size + 1, p.fill)
  }

  /**
   * `pop()`: the last element, removed; the slot keeps its value. An empty
   * pack throws.
   */
  function Pop<T>(p: Pack<T>): (r: Result<(T, Pack<T>)>)
    requires Valid(p)
    ensures r.Ok? <==> p.size > 0
    ensures r.Err? ==> r.failure == EmptyCollection
    ensures r.Ok? ==> (Valid(r.value.1) && Capacity(r.value.1) == Capacity(p) && r.value.1.fill == p.fill
                       && Contents(r.value.1) + [r.value.0] == Contents(p))
  {
    if p.size < 1 then
      Err(EmptyCollection)
    else
      assert Contents(p) == p.elements[..p.size - 1] + [p.elements[p.size - 1]];
      Ok((p.elements[p.size - 1], Pack(p.elements, p.size - 1, p.fill)))
  }

  /** Popping right after a push gives back the pushed value and the contents before it. */
  lemma PushThenPop<T>(p: Pack<T>, value: T)
    requires Valid(p)
    ensures Pop(Push(p, value)).Ok?
    ensures Pop(Push(p, value)).value.0 == value && Contents(Pop(Push(p, value)).value.1) == Contents(p)
  {
    var q := Pop(Push(p, value)).value;
    assert Contents(q.1) + [q.0] == Contents(p) + [value];
    assert (Contents(q.1) + [q.0])[..p.size] == Contents(q.1);
  }

  /** `clear()`: the size drops to 0; the array and its slots stay. */
  function Clear<T>(p: Pack<T>): (r: Pack<T>)
    ensures Valid(r) && Contents(r) == [] && Capacity(r) == Capacity(p) && r.fill == p.fill
  {
    Pack(p.elements, 0, p.fill)
  }

  // ---------------------------------------------------------------------
  // insert, delete, warp

  /**
   * `insert(index, value)`: below the size the tail moves one slot right
   * (the array grows by one when it was full) and `value` takes slot
   * `index`; at or past the size it is `set(index, value)`. A negative
   * index throws.
   */
  method Insert<T>(p: Pack<T>, index: int, value: T) returns (r: Result<Pack<T>>)
    requires Valid(p)
    ensures r.Ok? <==> index >= 0
    ensures r.Err? ==> r.failure == NegativeSequenceIndex
    ensures r.Ok? ==> (Valid(r.value) && Contents(r.value) ==
      if index < p.size then Contents(p)[..index] + [value] + Contents(p)[index..]
      else Contents(p) + seq(index - p.size, _ => p.fill) + [value])
  {
    if index < 0 {
      return Err(NegativeSequenceIndex);
    }
    if index >= p.size {
      return Set(p, index, value);
    }
    var elements := p.elements;
    var cursor := p.size;
    while cursor > index
      invariant index <= cursor <= p.size
      invariant |elements| == if cursor == p.size then |p.elements| else Max(|p.elements|, p.size + 1)
      invariant forall j :: 0 <= j < |elements| && !(cursor < j <= p.size) ==> elements[j] == p.elements[j]
      invariant forall j :: cursor < j <= p.size ==> j < |elements| && elements[j] == p.elements[j - 1]
    {
      elements := Store(elements, cursor, elements[cursor - 1]);
      cursor := cursor - 1;
    }
    elements := Store(elements, index, value);
    r := Ok(Pack(elements, p.size + 1, p.fill));
    assert Contents(r.value) == Contents(p)[..index] + [value] + Contents(p)[index..];
  }

  /**
   * `delete(startOrEnd, endOrStart = startOrEnd + 1)`: the elements after
   * the range move down over it and the size drops by its length. A range
   * reaching below 0 or past the size throws.
   */
  method Delete<T>(p: Pack<T>, startOrEnd: int, endOrStart: int := startOrEnd + 1) returns (r: Result<Pack<T>>)
    requires Valid(p)
    ensures r.Ok? <==> 0 <= Lower(startOrEnd, endOrStart) && Upper(startOrEnd, endOrStart) <= p.size
    ensures r.Err? ==> r.failure == IllegalSubsequence
    ensures r.Ok? ==> Valid(r.value) && Capacity(r.value) == Capacity(p)
    ensures r.Ok? ==> (Contents(r.value) ==
      Contents(p)[..Lower(startOrEnd, endOrStart)] + Contents(p)[Upper(startOrEnd, endOrStart)..])
  {
    var start, end := Lower(startOrEnd, endOrStart), Upper(startOrEnd, endOrStart);
    if start < 0 || start > p.size || end > p.size {
      return Err(IllegalSubsequence);
    }
    var elements := p.elements;
    var offset := end - start;
    var cursor := end;
    while cursor < p.size
      invariant end <= cursor <= p.size && |elements| == |p.elements|
      invariant forall j :: 0 <= j < |elements| && !(start <= j < cursor - offset) ==> elements[j] == p.elements[j]
      invariant forall j :: start <= j < cursor - offset ==> elements[j] == p.elements[j + offset]
    {
      elements := elements[cursor - offset := elements[cursor]];
      cursor := cursor + 1;
    }
    r := Ok(Pack(elements, p.size - offset, p.fill));
    ShiftedDown(Contents(p), start, end, elements[..p.size - offset], p.elements);
  }

  /** The slots below the new size after the loop of `delete` hold the pack without the range. */
  lemma ShiftedDown<T>(c: seq<T>, start: nat, end: nat, kept: seq<T>, before: seq<T>)
    requires start <= end <= |c| <= |before| && c == before[..|c|]
    requires |kept| == |c| - (end - start)
    requires forall j :: 0 <= j < start ==> kept[j] == before[j]
    requires forall j :: start <= j < |kept| ==> kept[j] == before[j + (end - start)]
    ensures kept == c[..start] + c[end..]
  {
    assert forall j :: 0 <= j < |kept| ==> kept[j] == (c[..start] + c[end..])[j];
  }

  /**
   * What `warp(startOrEnd, endOrStart)` leaves: the range is overwritten by
   * the last elements of the pack, taken from the end backwards, and the
   * size drops by the range's length. Only the tail elements that land
   * inside the new size survive, so the tail starts at the later of the
   * range's end and the new size.
   */
  function Warped<T>(c: seq<T>, start: nat, end: nat): seq<T>
    requires start <= end <= |c|
  {
    var tail := Max(end, |c| - (end - start));
    c[..start] + Reverse(c[tail..]) + c[end..Max(end, |c| - (end - start))]
  }

  /**
   * `warp(startOrEnd, endOrStart = startOrEnd + 1)`: removes a range by
   * moving the last elements of the pack into it, in reverse order, instead
   * of shifting the tail. A range reaching below 0 or past the size throws.
   */
  method Warp<T>(p: Pack<T>, startOrEnd: int, endOrStart: int := startOrEnd + 1) returns (r: Result<Pack<T>>)
    requires Valid(p)
    ensures r.Ok? <==> 0 <= Lower(startOrEnd, endOrStart) && Upper(startOrEnd, endOrStart) <= p.size
    ensures r.Err? ==> r.failure == IllegalSubsequence
    ensures r.Ok? ==> Valid(r.value) && Capacity(r.value) == Capacity(p)
    ensures r.Ok? ==> Contents(r.value) == Warped(Contents(p), Lower(startOrEnd, endOrStart), Upper(startOrEnd, endOrStart))
  {
    var start, end := Lower(startOrEnd, endOrStart), Upper(startOrEnd, endOrStart);
    if start < 0 || start > p.size || end > p.size {
      return Err(IllegalSubsequence);
    }
    var elements := p.elements;
    var toWarp := end - start;
    var index := 0;
    while index < toWarp
      invariant 0 <= index <= toWarp && |elements| == |p.elements|
      invariant forall j :: 0 <= j < |elements| && !(start <= j < start + index) ==> elements[j] == p.elements[j]
      invariant forall j :: start <= j < start + index && j < p.size - toWarp ==> elements[j] == p.elements[p.size - 1 - (j - start)]
    {
      elements := elements[start + index := elements[p.size - index - 1]];
      index := index + 1;
    }
    r := Ok(Pack(elements, p.size - toWarp, p.fill));
    WarpedAt(Contents(p), start, end, elements[..p.size - toWarp], p.elements);
  }

  /** The slots below the new size after the warp loop are what `Warped` describes. */
  lemma WarpedAt<T>(c: seq<T>, start: nat, end: nat, kept: seq<T>, before: seq<T>)
    requires start <= end <= |c| <= |before| && c == before[..|c|]
    requires |kept| == |c| - (end - start)
    requires forall j :: 0 <= j < |kept| && !(start <= j < end) ==> kept[j] == before[j]
    requires forall j :: start <= j < end && j < |kept| ==> kept[j] == before[|c| - 1 - (j - start)]
    ensures kept == Warped(c, start, end)
  {
    var w := Warped(c, start, end);
    var tail := Max(end, |c| - (end - start));
    var front, back, middle := c[..start], Reverse(c[tail..]), c[end..tail];
    assert w == front + back + middle;
    assert |w| == |kept|;
    forall j | 0 <= j < |kept|
      ensures kept[j] == w[j]
    {
      if j < start {
        assert w[j] == front[j];
      } else if j < start + (|c| - tail) {
        var k := j - start;
        assert w[j] == back[k];
        assert back[k] == c[tail..][|c| - tail - 1 - k] == c[|c| - 1 - k];
        assert kept[j] == before[|c| - 1 - k];
      } else {
        assert w[j] == middle[j - start - (|c| - tail)];
      }
    }
  }

  /** Warping removes exactly the elements of the range, with their multiplicities. */
  lemma WarpedRemovesRange<T>(c: seq<T>, start: nat, end: nat)
    requires start <= end <= |c|
    ensures multiset(Warped(c, start, end)) + multiset(c[start..end]) == multiset(c)
  {
    var tail := Max(end, |c| - (end - start));
    var before, middle, last := c[..start], c[end..tail], c[tail..];
    ReverseMultiset(last);
    CutInFour(c, start, end, tail);
    assert Warped(c, start, end) == before + Reverse(last) + middle;
  }

  /** Cutting a sequence at three points splits its multiset into four. */
  lemma CutInFour<T>(c: seq<T>, i: nat, j: nat, k: nat)
    requires i <= j <= k <= |c|
    ensures multiset(c) == multiset(c[..i]) + multiset(c[i..j]) + multiset(c[j..k]) + multiset(c[k..])
  {
    assert c[..i] + c[i..j] == c[..j];
    assert c[..j] + c[j..k] == c[..k];
    assert c[..k] + c[k..] == c;
  }

  // ---------------------------------------------------------------------
  // indexOf, concatArray

  /**
   * `indexOf(element, startOrEnd = 0, endOrStart = this.size)`: the first
   * index of the range holding `element`, -1 when none does; a range
   * reaching below 0 or past the size throws.
   */
  method IndexOf<T(==)>(p: Pack<T>, element: T, startOrEnd: int := 0, endOrStart: int := p.size) returns (r: Result<int>)
    requires Valid(p)
    ensures r.Ok? <==> 0 <= Lower(startOrEnd, endOrStart) && Upper(startOrEnd, endOrStart) <= p.size
    ensures r.Err? ==> r.failure == IllegalSubsequence
    ensures r.Ok? && r.value >= 0 ==> (Lower(startOrEnd, endOrStart) <= r.value < Upper(startOrEnd, endOrStart)
      && Contents(p)[r.value] == element
      && element !in Contents(p)[Lower(startOrEnd, endOrStart)..r.value])
    ensures r.Ok? && r.value < 0 ==> (r.value == -1
      && element !in Contents(p)[Lower(startOrEnd, endOrStart)..Upper(startOrEnd, endOrStart)])
  {
    var start, end := Lower(startOrEnd, endOrStart), Upper(startOrEnd, endOrStart);
    if start < 0 || start > p.size || end > p.size {
      return Err(IllegalSubsequence);
    }
    var index := start;
    while index < end
      invariant start <= index <= end
      invariant element !in Contents(p)[start..index]
    {
      if element == p.elements[index] {
        return Ok(index);
      }
      assert Contents(p)[start..index + 1] == Contents(p)[start..index] + [p.elements[index]];
      index := index + 1;
    }
    return Ok(-1);
  }

  /**
   * `concatArray(toConcat)`: the array's values are written after the
   * pack, over the free slots first and by `push` past the array's end.
   */
  function ConcatArray<T>(p: Pack<T>, toConcat: seq<T>): (r: Pack<T>)
    requires Valid(p)
    ensures Valid(r) && Contents(r) == Contents(p) + toConcat
    ensures Capacity(r) == Max(Capacity(p), p.size + |toConcat|)
  {
    var end := p.size + |toConcat|;
    var length := |p.elements|;
    var written := seq(length, i requires 0 <= i < length =>
      if p.size <= i < Min(end, length) then toConcat[i - p.size] else p.elements[i]);
    var extended := written + seq(Max(end - length, 0), k requires 0 <= k < Max(end - length, 0) => toConcat[length + k - p.size]);
    assert forall i :: 0 <= i < length ==> (written[i] ==
      if p.size <= i < Min(end, length) then toConcat[i - p.size] else p.elements[i]);
    assert forall i :: length <= i < |extended| ==> extended[i] == toConcat[i - p.size];
    assert forall i :: 0 <= i < end ==> extended[i] == (p.elements[..p.size] + toConcat)[i];
    assert extended[..end] == p.elements[..p.size] + toConcat;
    Pack(extended, end, p.fill)
  }

  // ---------------------------------------------------------------------
  // unique

  /** Some element of `kept` compares equal (0) to `x`. */
  predicate Matches<T>(cmp: (T, T) -> int, x: T, kept: seq<T>) {
    exists i :: 0 <= i < |kept| && cmp(x, kept[i]) == 0
  }

  /**
   * The elements `unique` keeps from `xs`, scanning left to right: an
   * element is kept when no element kept before it compares equal to it.
   */
  function UniqueOf<T>(cmp: (T, T) -> int, xs: seq<T>): seq<T> {
    if xs == [] then []
    else
      var kept := UniqueOf(cmp, xs[..|xs| - 1]);
      if Matches(cmp, xs[|xs| - 1], kept) then kept else kept + [xs[|xs| - 1]]
  }

  /** `picks` are increasing positions of `xs` at which `ys` reads its elements, in order. */
  ghost predicate Picks<T>(ys: seq<T>, xs: seq<T>, picks: seq<nat>) {
    |picks| == |ys|
    && (forall i :: 0 <= i < |picks| ==> picks[i] < |xs| && ys[i] == xs[picks[i]])
    && (forall i, j :: 0 <= i < j < |picks| ==> picks[i] < picks[j])
  }

  /** `ys` is `xs` with some elements left out, the others in their order. */
  ghost predicate Subsequence<T>(ys: seq<T>, xs: seq<T>) {
    exists picks: seq<nat> :: Picks(ys, xs, picks)
  }

  /** Positions picked from all but the last element of `xs` are positions of `xs`. */
  lemma PicksWiden<T>(ys: seq<T>, xs: seq<T>, picks: seq<nat>)
    requires xs != [] && Picks(ys, xs[..|xs| - 1], picks)
    ensures Picks(ys, xs, picks)
  {
    forall i | 0 <= i < |picks|
      ensures picks[i] < |xs| && ys[i] == xs[picks[i]]
    {
      assert xs[..|xs| - 1][picks[i]] == xs[picks[i]];
    }
  }

  /** Picking the last element of `xs` as well extends the picks by its position. */
  lemma PicksAppend<T>(ys: seq<T>, xs: seq<T>, picks: seq<nat>)
    requires xs != [] && Picks(ys, xs[..|xs| - 1], picks)
    ensures Picks(ys + [xs[|xs| - 1]], xs, picks + [|xs| - 1])
  {
    PicksWiden(ys, xs, picks);
    var more := picks + [|xs| - 1];
    var longer := ys + [xs[|xs| - 1]];
    forall i | 0 <= i < |more|
      ensures more[i] < |xs| && longer[i] == xs[more[i]]
    {
      if i < |picks| {
        assert more[i] == picks[i] && longer[i] == ys[i];
      }
    }
  }

  /** No element `unique` keeps compares equal to one kept before it. */
  lemma {:induction false} UniqueOfDistinct<T>(cmp: (T, T) -> int, xs: seq<T>)
    ensures forall i, j :: 0 <= i < j < |UniqueOf(cmp, xs)| ==> cmp(UniqueOf(cmp, xs)[j], UniqueOf(cmp, xs)[i]) != 0
  {
    if xs != [] {
      UniqueOfDistinct(cmp, xs[..|xs| - 1]);
    }
  }

  /** With a comparator that finds every element equal to itself, each element of the range has a kept representative. */
  lemma {:induction false} UniqueOfCovers<T>(cmp: (T, T) -> int, xs: seq<T>)
    requires forall x :: cmp(x, x) == 0
    ensures forall k :: 0 <= k < |xs| ==> Matches(cmp, xs[k], UniqueOf(cmp, xs))
  {
    if xs != [] {
      var init := xs[..|xs| - 1];
      var kept := UniqueOf(cmp, init);
      UniqueOfCovers(cmp, init);
      var u := UniqueOf(cmp, xs);
      forall k | 0 <= k < |xs|
        ensures Matches(cmp, xs[k], u)
      {
        if k < |init| {
          assert xs[k] == init[k];
          var i :| 0 <= i < |kept| && cmp(init[k], kept[i]) == 0;
          assert u[i] == kept[i];
        } else if !Matches(cmp, xs[k], kept) {
          assert u[|kept|] == xs[k];
        }
      }
    }
  }

  /** The kept elements are elements of the range, in their order. */
  lemma {:induction false} UniqueOfSubsequence<T>(cmp: (T, T) -> int, xs: seq<T>)
    ensures Subsequence(UniqueOf(cmp, xs), xs)
  {
    if xs == [] {
      var none: seq<nat> := [];
      assert Picks<T>([], [], none);
    } else {
      var init := xs[..|xs| - 1];
      var kept := UniqueOf(cmp, init);
      UniqueOfSubsequence(cmp, init);
      var picks: seq<nat> :| Picks(kept, init, picks);
      if Matches(cmp, xs[|xs| - 1], kept) {
        PicksWiden(kept, xs, picks);
        assert Picks(UniqueOf(cmp, xs), xs, picks);
      } else {
        PicksAppend(kept, xs, picks);
        assert Picks(UniqueOf(cmp, xs), xs, picks + [|xs| - 1]);
      }
    }
  }

  /**
   * `unique(comparator, startOrEnd, endOrStart)`: inside the range, keeps
   * each element that compares unequal to every element kept before it, in
   * their order, packs them at the start of the range and deletes the rest
   * of the range. A range reaching below 0 or past the size throws.
   */
  method Unique<T>(p: Pack<T>, cmp: (T, T) -> int, startOrEnd: int, endOrStart: int) returns (r: Result<Pack<T>>)
    requires Valid(p)
    ensures r.Ok? <==> 0 <= Lower(startOrEnd, endOrStart) && Upper(startOrEnd, endOrStart) <= p.size
    ensures r.Err? ==> r.failure == IllegalSubsequence
    ensures r.Ok? ==> Valid(r.value) && Capacity(r.value) == Capacity(p)
    ensures r.Ok? ==> (Contents(r.value) ==
      Contents(p)[..Lower(startOrEnd, endOrStart)]
      + UniqueOf(cmp, Contents(p)[Lower(startOrEnd, endOrStart)..Upper(startOrEnd, endOrStart)])
      + Contents(p)[Upper(startOrEnd, endOrStart)..])
  {
    var start, end := Lower(startOrEnd, endOrStart), Upper(startOrEnd, endOrStart);
    if start < 0 || start > p.size || end > p.size {
      return Err(IllegalSubsequence);
    }
    var elements, processed := Compact(p, cmp, start, end);
    r := Delete(Pack(elements, p.size, p.fill), processed, end);
    UniquePacked(elements[..p.size], Contents(p), start, processed, end, UniqueOf(cmp, Contents(p)[start..end]));
  }

  /**
   * The two loops of `unique`: every candidate of the range that compares
   * unequal to all elements kept so far is copied down to the next kept
   * slot. Slots outside the kept prefix of the range are untouched.
   */
  method Compact<T>(p: Pack<T>, cmp: (T, T) -> int, start: nat, end: nat) returns (elements: seq<T>, processed: nat)
    requires Valid(p) && start <= end <= p.size
    ensures start <= processed <= end && |elements| == |p.elements|
    ensures elements[start..processed] == UniqueOf(cmp, Contents(p)[start..end])
    ensures forall j :: 0 <= j < start ==> elements[j] == p.elements[j]
    ensures forall j :: processed <= j < |elements| ==> elements[j] == p.elements[j]
  {
    elements := p.elements;
    processed := start;
    var candidate := start;
    while candidate < end
      invariant start <= processed <= candidate <= end && |elements| == |p.elements|
      invariant elements[start..processed] == UniqueOf(cmp, Contents(p)[start..candidate])
      invariant forall j :: 0 <= j < start ==> elements[j] == p.elements[j]
      invariant forall j :: processed <= j < |elements| ==> elements[j] == p.elements[j]
    {
      var value := elements[candidate];
      var index := FirstMatch(cmp, value, elements, start, processed);
      KeptStep(cmp, Contents(p), start, candidate, elements, processed, index);
      if index == processed {
        elements := elements[processed := elements[candidate]];
        processed := processed + 1;
      }
      candidate := candidate + 1;
    }
  }

  /** The inner loop of `unique`: the first slot in `[start, processed)` whose element compares equal to `value`, or `processed`. */
  method FirstMatch<T>(cmp: (T, T) -> int, value: T, elements: seq<T>, start: nat, processed: nat) returns (index: nat)
    requires start <= processed <= |elements|
    ensures start <= index <= processed
    ensures index < processed ==> cmp(value, elements[index]) == 0
    ensures forall k :: start <= k < index ==> cmp(value, elements[k]) != 0
  {
    index := start;
    while index < processed && cmp(value, elements[index]) != 0
      invariant start <= index <= processed
      invariant forall k :: start <= k < index ==> cmp(value, elements[k]) != 0
    {
      index := index + 1;
    }
  }

  /** After the outer loop of `unique`: deleting the leftover slots of the range leaves the kept elements in its place. */
  lemma UniquePacked<T>(after: seq<T>, c: seq<T>, start: nat, processed: nat, end: nat, kept: seq<T>)
    requires start <= processed <= end <= |c| == |after|
    requires after[start..processed] == kept
    requires forall j :: 0 <= j < start ==> after[j] == c[j]
    requires forall j :: processed <= j < |after| ==> after[j] == c[j]
    ensures after[..processed] + after[end..] == c[..start] + kept + c[end..]
  {
    assert after[..processed] == c[..start] + kept;
    assert after[end..] == c[end..];
  }

  /** One step of the outer loop of `unique`: the candidate is kept exactly when the inner scan ran off the kept prefix. */
  lemma KeptStep<T>(cmp: (T, T) -> int, c: seq<T>, start: nat, candidate: nat, elements: seq<T>, processed: nat, index: nat)
    requires start <= processed <= candidate < |c| <= |elements| && elements[candidate] == c[candidate]
    requires elements[start..processed] == UniqueOf(cmp, c[start..candidate])
    requires start <= index <= processed && (index < processed ==> cmp(c[candidate], elements[index]) == 0)
    requires forall k :: start <= k < index ==> cmp(c[candidate], elements[k]) != 0
    ensures index == processed ==> elements[processed := c[candidate]][start..processed + 1] == UniqueOf(cmp, c[start..candidate + 1])
    ensures index < processed ==> elements[start..processed] == UniqueOf(cmp, c[start..candidate + 1])
  {
    assert c[start..candidate + 1][..candidate - start] == c[start..candidate];
    var kept := elements[start..processed];
    if index < processed {
      assert kept[index - start] == elements[index];
    } else {
      assert forall k :: 0 <= k < |kept| ==> kept[k] == elements[start + k];
      assert elements[processed := c[candidate]][start..processed + 1] == kept + [c[candidate]];
    }
  }

  // ---------------------------------------------------------------------
  // rotate

  /**
   * The pack rotated by `offset`: the element at `i` moves to
   * `(i + offset) mod n`, for an offset of either sign.
   */
  function Rotated<T>(c: seq<T>, offset: int): (r: seq<T>)
    ensures |r| == |c|
  {
    if |c| == 0 then c
    else seq(|c|, j requires 0 <= j < |c| => c[NonNegativeRemainder(j - offset, |c|)])
  }

  /** Every element lands `offset` slots further on, wrapping around the end. */
  lemma RotatedMoves<T>(c: seq<T>, offset: int, i: nat)
    requires i < |c|
    ensures Rotated(c, offset)[NonNegativeRemainder(i + offset, |c|)] == c[i]
  {
    var n := |c|;
    var j := NonNegativeRemainder(i + offset, n);
    NonNegativeRemainderIsModulo(i + offset, n);
    var q := (i + offset) / n;
    assert j - offset == (-q) * n + i;
    EuclideanUnique(j - offset, n, -q, i);
    NonNegativeRemainderIsModulo(j - offset, n);
  }

  /** Rotating back by the same offset restores the pack. */
  lemma RotatedBack<T>(c: seq<T>, offset: int)
    ensures Rotated(Rotated(c, offset), -offset) == c
  {
    if |c| > 0 {
      var n := |c|;
      forall i | 0 <= i < n
        ensures Rotated(Rotated(c, offset), -offset)[i] == c[i]
      {
        var j := NonNegativeRemainder(i + offset, n);
        assert Rotated(Rotated(c, offset), -offset)[i] == Rotated(c, offset)[j] by {
          assert i - -offset == i + offset;
        }
        RotatedMoves(c, offset, i);
      }
    }
  }

  /** The residue `rotate` works with: `offset % size`, lifted into `[0, size)`. */
  lemma SafeOffset(offset: int, n: nat, j: nat)
    requires 0 < n && j < n
    ensures NonNegativeRemainder(offset, n) < n
    ensures NonNegativeRemainder(j - offset, n) == Back(n, NonNegativeRemainder(offset, n), j)
  {
    var d := NonNegativeRemainder(offset, n);
    NonNegativeRemainderIsModulo(offset, n);
    NonNegativeRemainderIsModulo(j - offset, n);
    var m := OffsetShift(offset, n, d, j);
    ModShift(j + n - d, m, n);
  }

  /** Stepping back by the safe offset differs from stepping back by the offset by a multiple of `n`. */
  lemma OffsetShift(offset: int, n: nat, d: int, j: int) returns (m: int)
    requires 0 < n && 0 <= d < n && d == offset % n
    ensures j - offset == (j + n - d) + m * n
  {
    EuclideanUnique(d, n, 0, d);
    var k := SameResidue(d, offset, n);
    m := -k - 1;
    assert m * n == -(k * n) - n;
  }

  /**
   * `rotate(offset)`: the juggling rotation. For each of the `gcd(size,
   * safeOffset)` first slots, carries the element along the orbit of
   * `index = (index + safeOffset) % size` until the orbit closes. An empty
   * pack is left as it is.
   */
  method Rotate<T>(p: Pack<T>, offset: int) returns (r: Pack<T>)
    requires Valid(p)
    ensures Valid(r) && r.size == p.size && Capacity(r) == Capacity(p) && r.fill == p.fill
    ensures Contents(r) == Rotated(Contents(p), offset)
    ensures r.elements[p.size..] == p.elements[p.size..]
  {
    var n := p.size;
    if n == 0 {
      return p;
    }
    var d := NonNegativeRemainder(offset, n);
    var roots := Gcd(n, d);
    GcdBounds(n, d);
    var elements := p.elements;
    var start := 0;
    assert Ready(n, d, 0) == {};
    while start < roots
      invariant 0 <= start <= roots && |elements| == |p.elements|
      invariant forall j :: 0 <= j < |elements| && j in Ready(n, d, start) ==> elements[j] == p.elements[Back(n, d, j)]
      invariant forall j :: 0 <= j < |elements| && j !in Ready(n, d, start) ==> elements[j] == p.elements[j]
    {
      elements := Cycle(elements, p.elements, n, d, start);
      start := start + 1;
    }
    r := Pack(elements, n, p.fill);
    AllCyclesDone(p.elements, elements, offset, n, d);
  }

  /**
   * The slots the first `s` passes of the outer loop of `rotate` have
   * moved on: those whose residue modulo the gcd is below `s`.
   */
  function Ready(n: nat, d: nat, s: nat): set<nat> {
    set j: nat | j < n && j % Gcd(n, d) < s
  }

  /** After the last pass of `rotate`, every slot holds the element from one step back. */
  lemma AllCyclesDone<T>(original: seq<T>, elements: seq<T>, offset: int, n: nat, d: nat)
    requires 0 < n <= |original| == |elements| && d == NonNegativeRemainder(offset, n)
    requires forall j :: 0 <= j < |elements| && j in Ready(n, d, Gcd(n, d)) ==> elements[j] == original[Back(n, d, j)]
    requires forall j :: 0 <= j < |elements| && j !in Ready(n, d, Gcd(n, d)) ==> elements[j] == original[j]
    ensures elements[..n] == Rotated(original[..n], offset) && elements[n..] == original[n..]
  {
    GcdBounds(n, d);
    forall j | 0 <= j < n
      ensures elements[j] == Rotated(original[..n], offset)[j]
    {
      assert j in Ready(n, d, Gcd(n, d));
      SafeOffset(offset, n, j);
      assert Rotated(original[..n], offset)[j] == original[NonNegativeRemainder(j - offset, n)];
    }
  }

  /** The slots one cycle of the juggling rotation has written before step `t`. */
  function Visited(n: nat, d: nat, s: nat, t: nat): set<nat>
    requires n > 0
  {
    set u: nat | 1 <= u < t :: Orbit(n, d, s, u)
  }

  /**
   * One pass of the outer loop of `rotate`: the orbit of `s` is moved one
   * step on, so every slot of residue `s` modulo the gcd now holds the
   * element from one step back.
   */
  method Cycle<T>(elements: seq<T>, original: seq<T>, n: nat, d: nat, s: nat) returns (after: seq<T>)
    requires 0 < n <= |elements| == |original| && d < n && s < Gcd(n, d)
    requires forall j :: 0 <= j < |elements| && j in Ready(n, d, s) ==> elements[j] == original[Back(n, d, j)]
    requires forall j :: 0 <= j < |elements| && j !in Ready(n, d, s) ==> elements[j] == original[j]
    ensures |after| == |elements|
    ensures forall j :: 0 <= j < |after| && j in Ready(n, d, s + 1) ==> after[j] == original[Back(n, d, j)]
    ensures forall j :: 0 <= j < |after| && j !in Ready(n, d, s + 1) ==> after[j] == original[j]
  {
    var temporary;
    ghost var t;
    after, temporary, t := Carry(elements, original, n, d, s);
    CycleClosed(n, d, s, t);
    after := after[s := temporary];
  }

  /**
   * The inner loop of `rotate`: carries the element of slot `s` along its
   * orbit, each slot receiving the element from one step back, until the
   * orbit returns to `s` after `t` steps; returns the element that belongs
   * in `s`.
   */
  method Carry<T>(elements: seq<T>, original: seq<T>, n: nat, d: nat, s: nat) returns (after: seq<T>, temporary: T, ghost t: nat)
    requires 0 < n <= |elements| == |original| && d < n && s < Gcd(n, d)
    requires forall j :: 0 <= j < |elements| && j in Ready(n, d, s) ==> elements[j] == original[Back(n, d, j)]
    requires forall j :: 0 <= j < |elements| && j !in Ready(n, d, s) ==> elements[j] == original[j]
    ensures 1 <= t <= Period(n, d) && Orbit(n, d, s, t) == s && temporary == original[Orbit(n, d, s, t - 1)]
    ensures |after| == |elements| && Carried(after, original, n, d, Ready(n, d, s) + Visited(n, d, s, t))
  {
    CarryStart(elements, original, n, d, s);
    after, temporary, t := CarryFrom(elements, original, n, d, s, 1, elements[s], (s + d) % n);
    OrbitBack(n, d, s, t - 1);
  }

  /** Before the first round of the inner loop of `rotate`, the slot `s` holds its own element and nothing of its orbit is served. */
  lemma CarryStart<T>(elements: seq<T>, original: seq<T>, n: nat, d: nat, s: nat)
    requires 0 < n <= |elements| == |original| && d < n && s < Gcd(n, d)
    requires forall j :: 0 <= j < |elements| && j in Ready(n, d, s) ==> elements[j] == original[Back(n, d, j)]
    requires forall j :: 0 <= j < |elements| && j !in Ready(n, d, s) ==> elements[j] == original[j]
    ensures s < n && 1 <= Period(n, d) && (s + d) % n == Orbit(n, d, s, 1)
    ensures elements[s] == original[Orbit(n, d, s, 0)]
    ensures Carried(elements, original, n, d, Ready(n, d, s) + Visited(n, d, s, 1))
  {
    GcdBounds(n, d);
    EuclideanUnique(s, Gcd(n, d), 0, s);
    assert s !in Ready(n, d, s);
    EuclideanUnique(s, n, 0, s);
    assert Visited(n, d, s, 1) == {};
  }

  /**
   * The rounds of the inner loop of `rotate` from the `t`-th on: while the
   * orbit has not returned to `s`, the slot it reached, `index`, takes the
   * carried element and hands on the element it held.
   */
  method CarryFrom<T>(after: seq<T>, original: seq<T>, n: nat, d: nat, s: nat, t: nat, temporary: T, index: nat)
    returns (r: seq<T>, carried: T, ghost last: nat)
    requires 0 < n <= |after| == |original| && d < n && s < Gcd(n, d) && 1 <= t <= Period(n, d)
    requires index == Orbit(n, d, s, t) && temporary == original[Orbit(n, d, s, t - 1)]
    requires Carried(after, original, n, d, Ready(n, d, s) + Visited(n, d, s, t))
    ensures t <= last <= Period(n, d) && Orbit(n, d, s, last) == s && carried == original[Back(n, d, s)]
    ensures |r| == |after| && Carried(r, original, n, d, Ready(n, d, s) + Visited(n, d, s, last))
    decreases Period(n, d) - t
  {
    if index == s {
      OrbitBack(n, d, s, t - 1);
      return after, temporary, t;
    }
    CarryStep(after, original, n, d, s, t, temporary);
    r, carried, last := CarryFrom(after[index := temporary], original, n, d, s, t + 1, after[index], (index + d) % n);
  }

  /**
   * The invariant of the inner loop of `rotate` after `t` steps: the slots
   * already served hold the element from one step back, the others are
   * untouched.
   */
  ghost predicate Carried<T>(after: seq<T>, original: seq<T>, n: nat, d: nat, served: set<nat>)
    requires 0 < n <= |after| == |original| && d < n
  {
    (forall j :: 0 <= j < |after| && j in served ==> after[j] == original[Back(n, d, j)])
    && (forall j :: 0 <= j < |after| && j !in served ==> after[j] == original[j])
  }

  /** One round of the inner loop of `rotate`: the slot the orbit reached takes the carried element. */
  lemma CarryStep<T>(after: seq<T>, original: seq<T>, n: nat, d: nat, s: nat, t: nat, temporary: T)
    requires 0 < n <= |after| == |original| && d < n && s < Gcd(n, d) && 1 <= t <= Period(n, d)
    requires Orbit(n, d, s, t) != s && temporary == original[Orbit(n, d, s, t - 1)]
    requires Carried(after, original, n, d, Ready(n, d, s) + Visited(n, d, s, t))
    ensures t < Period(n, d) && (Orbit(n, d, s, t) + d) % n == Orbit(n, d, s, t + 1)
    ensures after[Orbit(n, d, s, t)] == original[Orbit(n, d, s, t)]
    ensures Carried(after[Orbit(n, d, s, t) := temporary], original, n, d, Ready(n, d, s) + Visited(n, d, s, t + 1))
  {
    CycleStep(n, d, s, t);
  }

  /** What one step of the inner loop of `rotate` needs about the orbit. */
  lemma CycleStep(n: nat, d: nat, s: nat, t: nat)
    requires 0 < n && d < n && s < Gcd(n, d) && 1 <= t <= Period(n, d)
    requires Orbit(n, d, s, t) != s
    ensures t < Period(n, d)
    ensures Orbit(n, d, s, t) !in Ready(n, d, s) + Visited(n, d, s, t)
    ensures Visited(n, d, s, t + 1) == Visited(n, d, s, t) + {Orbit(n, d, s, t)}
    ensures Back(n, d, Orbit(n, d, s, t)) == Orbit(n, d, s, t - 1)
    ensures (Orbit(n, d, s, t) + d) % n == Orbit(n, d, s, t + 1)
  {
    GcdBounds(n, d);
    OrbitReturns(n, d, s);
    EuclideanUnique(s, Gcd(n, d), 0, s);
    OrbitResidue(n, d, s, t);
    forall u: nat | 1 <= u < t
      ensures Orbit(n, d, s, u) != Orbit(n, d, s, t)
    {
      OrbitDistinct(n, d, s, u, t);
    }
    OrbitBack(n, d, s, t - 1);
  }

  /**
   * When the inner loop of `rotate` stops, the orbit has closed: `s` and
   * the visited slots are exactly the slots of residue `s`.
   */
  lemma CycleClosed(n: nat, d: nat, s: nat, t: nat)
    requires 0 < n && d < n && s < Gcd(n, d) && 1 <= t <= Period(n, d)
    requires Orbit(n, d, s, t) == s
    ensures Back(n, d, s) == Orbit(n, d, s, t - 1)
    ensures s !in Ready(n, d, s) + Visited(n, d, s, t) && s < n
    ensures Ready(n, d, s + 1) == Ready(n, d, s) + Visited(n, d, s, t) + {s}
  {
    GcdBounds(n, d);
    OrbitReturns(n, d, s);
    EuclideanUnique(s, Gcd(n, d), 0, s);
    if t < Period(n, d) {
      OrbitDistinct(n, d, s, 0, t);
    }
    OrbitBack(n, d, s, t - 1);
    forall u: nat | 1 <= u < t
      ensures Orbit(n, d, s, u) != s && Orbit(n, d, s, u) % Gcd(n, d) == s
    {
      OrbitDistinct(n, d, s, 0, u);
      OrbitResidue(n, d, s, u);
    }
    forall j | j in Ready(n, d, s + 1)
      ensures j in Ready(n, d, s) + Visited(n, d, s, t) + {s}
    {
      if j % Gcd(n, d) == s && j != s {
        var u := OrbitReaches(n, d, s, j);
        assert u != 0;
      }
    }
  }
}

=== FILE: bisect.dfy ===
/**
 * `bisect` and its namespace (`sources/algorithm/bisect.ts`): binary search
 * of a value in an ordered range `[offset, offset + size)` of a sequence.
 * The comparator compares the searched value with an element, positive
 * when the value comes after it. A hit returns the position of an equal
 * element; a miss returns `-(insertionIndex + 1)`, a negative number.
 */
module Bisection {
  import opened Comparators

  /**
   * `left + ((right - left) >>> 1)`: `>>>` reads its operand as an
   * unsigned 32-bit integer, so a span of 2^32 or more is first reduced
   * modulo 2^32. The cursor still lies in `[left, right)`.
   */
  function Midpoint(left: int, right: int): (r: int)
    requires left < right
    ensures left <= r < right
  {
    left + ((right - left) % 0x1_0000_0000) / 2
  }

  /**
   * The range `[low, high)` of `xs` is ordered around `value`: the elements
   * the value comes after precede the others, and the elements the value
   * comes before follow the others.
   */
  predicate Ordered<S, T>(cmp: (S, T) -> int, value: S, xs: seq<T>, low: int, high: int) {
    0 <= low <= high <= |xs|
    && forall i, j :: low <= i < j < high ==>
         (cmp(value, xs[j]) > 0 ==> cmp(value, xs[i]) > 0) && (cmp(value, xs[i]) < 0 ==> cmp(value, xs[j]) < 0)
  }

  /** A range sorted by a total preorder is ordered around any value. */
  lemma SortedOrdered<T(!new)>(cmp: (T, T) -> int, value: T, xs: seq<T>)
    requires Preorder(cmp) && Sorted(cmp, xs)
    ensures Ordered(cmp, value, xs, 0, |xs|)
  {
    forall i, j | 0 <= i < j < |xs|
      ensures cmp(value, xs[j]) > 0 ==> cmp(value, xs[i]) > 0
      ensures cmp(value, xs[i]) < 0 ==> cmp(value, xs[j]) < 0
    {
      assert cmp(xs[j], xs[i]) >= 0;
    }
  }

  /**
   * The `while (left !== right)` loop of `bisect`: the cursor halves
   * `[left, right)` until it meets an equal element or the range is empty.
   */
  function Search<S, T>(cmp: (S, T) -> int, value: S, xs: seq<T>, left: int, right: int): (r: int)
    requires Ordered(cmp, value, xs, left, right)
    ensures r >= 0 ==> left <= r < right && cmp(value, xs[r]) == 0
    ensures r < 0 ==> left <= -(r + 1) <= right
                      && (forall i :: left <= i < -(r + 1) ==> cmp(value, xs[i]) > 0)
                      && (forall i :: -(r + 1) <= i < right ==> cmp(value, xs[i]) < 0)
    decreases right - left
  {
    if left == right then
      -(left + 1)
    else
      var cursor := Midpoint(left, right);
      var comparison := cmp(value, xs[cursor]);
      if comparison == 0 then
        cursor
      else if comparison > 0 then
        Search(cmp, value, xs, cursor + 1, right)
      else
        Search(cmp, value, xs, left, cursor)
  }

  /**
   * `bisect(sequence, value, comparator, offset, size)`: the position of an
   * element equal to `value` in the range, or `-(p + 1)` where `p` is the
   * position that keeps the range ordered once `value` is inserted. An
   * empty or negative size gives -1.
   */
  function Bisect<S, T>(cmp: (S, T) -> int, value: S, xs: seq<T>, offset: int, size: int): (r: int)
    requires size > 0 ==> Ordered(cmp, value, xs, offset, offset + size)
    ensures size <= 0 ==> r == -1
    ensures r >= 0 ==> offset <= r < offset + size && cmp(value, xs[r]) == 0
    ensures r < 0 && size > 0 ==> offset <= -(r + 1) <= offset + size
                                  && (forall i :: offset <= i < -(r + 1) ==> cmp(value, xs[i]) > 0)
                                  && (forall i :: -(r + 1) <= i < offset + size ==> cmp(value, xs[i]) < 0)
  {
    if size > 0 then Search(cmp, value, xs, offset, offset + size) else -1
  }

  /** `bisect` finds an element exactly when the range holds one equal to `value`. */
  lemma BisectFinds<S, T>(cmp: (S, T) -> int, value: S, xs: seq<T>, offset: int, size: int)
    requires size > 0 ==> Ordered(cmp, value, xs, offset, offset + size)
    ensures Bisect(cmp, value, xs, offset, size) >= 0
            <==> exists i :: offset <= i < offset + size && 0 <= i < |xs| && cmp(value, xs[i]) == 0
  {
    var r := Bisect(cmp, value, xs, offset, size);
    if r < 0 && size > 0 {
      forall i | offset <= i < offset + size && 0 <= i < |xs|
        ensures cmp(value, xs[i]) != 0
      {
        if i < -(r + 1) {
          assert cmp(value, xs[i]) > 0;
        } else {
          assert cmp(value, xs[i]) < 0;
        }
      }
    }
  }

  /** Inserting `value` at a position between the elements before and after it keeps a sort. */
  lemma SortedInsert<T(!new)>(cmp: (T, T) -> int, xs: seq<T>, p: nat, value: T)
    requires Preorder(cmp) && Sorted(cmp, xs) && p <= |xs|
    requires forall i :: 0 <= i < p ==> cmp(xs[i], value) <= 0
    requires forall i :: p <= i < |xs| ==> cmp(value, xs[i]) <= 0
    ensures Sorted(cmp, xs[..p] + [value] + xs[p..])
  {
    var d := xs[..p] + [value] + xs[p..];
    forall i, j | 0 <= i < j < |d|
      ensures cmp(d[i], d[j]) <= 0
    {
      if j < p {
        assert d[i] == xs[i] && d[j] == xs[j];
      } else if j == p {
        assert d[i] == xs[i];
      } else if i < p {
        assert d[i] == xs[i] && d[j] == xs[j - 1];
        assert cmp(xs[i], value) <= 0 && cmp(value, xs[j - 1]) <= 0;
        assert cmp(xs[j - 1], value) >= 0 && cmp(value, xs[i]) >= 0;
      } else if i == p {
        assert d[j] == xs[j - 1];
      } else {
        assert d[i] == xs[i - 1] && d[j] == xs[j - 1];
      }
    }
  }

  /**
   * Over a sorted sequence, the position `bisect` reports, a hit or the
   * insertion index of a miss, is one where inserting `value` keeps the
   * sequence sorted.
   */
  lemma BisectInsertionKeepsSorted<T(!new)>(cmp: (T, T) -> int, xs: seq<T>, value: T)
    requires Preorder(cmp) && Sorted(cmp, xs)
    ensures Ordered(cmp, value, xs, 0, |xs|)
    ensures var r := Bisect(cmp, value, xs, 0, |xs|);
            var p := if r >= 0 then r else -(r + 1);
            0 <= p <= |xs| && Sorted(cmp, xs[..p] + [value] + xs[p..])
  {
    SortedOrdered(cmp, value, xs);
    var r := Bisect(cmp, value, xs, 0, |xs|);
    var p := if r >= 0 then r else -(r + 1);
    if r >= 0 {
      forall i | 0 <= i < p
        ensures cmp(xs[i], value) <= 0
      {
        assert cmp(xs[p], xs[i]) >= 0 && cmp(value, xs[p]) >= 0;
      }
      forall i | p <= i < |xs|
        ensures cmp(value, xs[i]) <= 0
      {
        assert cmp(xs[p], value) >= 0 && cmp(xs[i], xs[p]) >= 0;
      }
    }
    SortedInsert(cmp, xs, p, value);
  }

  /** The `while` loop of `bisect.first`: steps down over the equal elements before `index`. */
  function WalkDown<S, T>(cmp: (S, T) -> int, value: S, xs: seq<T>, index: nat): (r: nat)
    requires index < |xs| && cmp(value, xs[index]) == 0
    ensures r <= index && cmp(value, xs[r]) == 0 && (r == 0 || cmp(value, xs[r - 1]) != 0)
    ensures forall i :: r <= i <= index ==> cmp(value, xs[i]) == 0
    decreases index
  {
    if index > 0 && cmp(value, xs[index - 1]) == 0 then WalkDown(cmp, value, xs, index - 1) else index
  }

  /** The `while` loop of `bisect.last`: steps up over the equal elements after `index`. */
  function WalkUp<S, T>(cmp: (S, T) -> int, value: S, xs: seq<T>, index: nat): (r: nat)
    requires index < |xs| && cmp(value, xs[index]) == 0
    ensures index <= r < |xs| && cmp(value, xs[r]) == 0 && (r == |xs| - 1 || cmp(value, xs[r + 1]) != 0)
    ensures forall i :: index <= i <= r ==> cmp(value, xs[i]) == 0
    decreases |xs| - index
  {
    if index < |xs| - 1 && cmp(value, xs[index + 1]) == 0 then WalkUp(cmp, value, xs, index + 1) else index
  }

  /**
   * `bisect.first`: a miss as `bisect` reports it; a hit moved down to the
   * first element of its run of equal elements. The run may extend below
   * `offset`: the walk stops only at the start of the sequence.
   */
  function First<S, T>(cmp: (S, T) -> int, value: S, xs: seq<T>, offset: int, size: int): (r: int)
    requires size > 0 ==> Ordered(cmp, value, xs, offset, offset + size)
    ensures r < 0 <==> Bisect(cmp, value, xs, offset, size) < 0
    ensures r < 0 ==> r == Bisect(cmp, value, xs, offset, size)
    ensures r >= 0 ==> (r < |xs| && cmp(value, xs[r]) == 0 && (r == 0 || cmp(value, xs[r - 1]) != 0)
                        && r <= Bisect(cmp, value, xs, offset, size))
  {
    var result := Bisect(cmp, value, xs, offset, size);
    if result < 0 then result else WalkDown(cmp, value, xs, result)
  }

  /**
   * `bisect.last`: a miss as `bisect` reports it; a hit moved up to the
   * last element of its run of equal elements, which may extend past the
   * range up to the end of the sequence.
   */
  function Last<S, T>(cmp: (S, T) -> int, value: S, xs: seq<T>, offset: int, size: int): (r: int)
    requires size > 0 ==> Ordered(cmp, value, xs, offset, offset + size)
    ensures r < 0 <==> Bisect(cmp, value, xs, offset, size) < 0
    ensures r < 0 ==> r == Bisect(cmp, value, xs, offset, size)
    ensures r >= 0 ==> (Bisect(cmp, value, xs, offset, size) <= r < |xs| && cmp(value, xs[r]) == 0
                        && (r == |xs| - 1 || cmp(value, xs[r + 1]) != 0))
  {
    var result := Bisect(cmp, value, xs, offset, size);
    if result < 0 then result else WalkUp(cmp, value, xs, result)
  }

  /** Over a sequence ordered throughout, `bisect.first` finds the least equal element. */
  lemma FirstIsLeast<S, T>(cmp: (S, T) -> int, value: S, xs: seq<T>, offset: int, size: int)
    requires Ordered(cmp, value, xs, 0, |xs|) && 0 <= offset && offset + size <= |xs|
    ensures size > 0 ==> Ordered(cmp, value, xs, offset, offset + size)
    ensures var r := First(cmp, value, xs, offset, size);
            r >= 0 ==> forall i :: 0 <= i < r ==> cmp(value, xs[i]) > 0
  {
    var r := First(cmp, value, xs, offset, size);
    if r > 0 {
      assert cmp(value, xs[r - 1]) > 0 by {
        assert cmp(value, xs[r]) == 0;
      }
    }
  }

  /** Over a sequence ordered throughout, `bisect.last` finds the greatest equal element. */
  lemma LastIsGreatest<S, T>(cmp: (S, T) -> int, value: S, xs: seq<T>, offset: int, size: int)
    requires Ordered(cmp, value, xs, 0, |xs|) && 0 <= offset && offset + size <= |xs|
    ensures size > 0 ==> Ordered(cmp, value, xs, offset, offset + size)
    ensures var r := Last(cmp, value, xs, offset, size);
            r >= 0 ==> forall i :: r < i < |xs| ==> cmp(value, xs[i]) < 0
  {
    var r := Last(cmp, value, xs, offset, size);
    if 0 <= r < |xs| - 1 {
      assert cmp(value, xs[r + 1]) < 0 by {
        assert cmp(value, xs[r]) == 0;
      }
    }
  }

  /**
   * `bisect.invert`: `bisect` with the sign of every comparison reversed,
   * for a range ordered the other way round.
   */
  function Invert<S(!new), T(!new)>(cmp: (S, T) -> int, value: S, xs: seq<T>, offset: int, size: int): (r: int)
    requires size > 0 ==> Ordered(Negated(cmp), value, xs, offset, offset + size)
    ensures size <= 0 ==> r == -1
    ensures r >= 0 ==> offset <= r < offset + size && cmp(value, xs[r]) == 0
    ensures r < 0 && size > 0 ==> offset <= -(r + 1) <= offset + size
                                  && (forall i :: offset <= i < -(r + 1) ==> cmp(value, xs[i]) < 0)
                                  && (forall i :: -(r + 1) <= i < offset + size ==> cmp(value, xs[i]) > 0)
  {
    var r := Bisect(Negated(cmp), value, xs, offset, size);
    assert r >= 0 ==> Negated(cmp)(value, xs[r]) == 0;
    r
  }

  /** A range sorted in the comparator's reverse order is one `bisect.invert` can search. */
  lemma InvertOrdered<T(!new)>(cmp: (T, T) -> int, value: T, xs: seq<T>)
    requires Preorder(cmp) && Sorted(Negated(cmp), xs)
    ensures Ordered(Negated(cmp), value, xs, 0, |xs|)
  {
    NegatedPreorder(cmp);
    SortedOrdered(Negated(cmp), value, xs);
  }
}

=== FILE: bits.dfy ===
/**
 * 32-bit words as the bit set stores them (one `Uint32Array` cell), the SWAR
 * population count `countBits` of `sources/set/BitSet.ts`, and the reference
 * bit-by-bit counts that give it a meaning.
 *
 * Bits are peeled off one at a time (`Half`, a shift right by one), so no
 * bit-vector fact needs a symbolic shift amount. Each bit-vector fact lives in
 * a small lemma of its own; the inductive lemmas only see the named
 * operations (`Half`, `Low`, `And`, `Or`, `Not`) and combine those facts.
 */
module Bits {

  /** Width of a cell in bits. */
  const WordBits: nat := 32

  /** 2^n as an unbounded integer. */
  function Pow2(n: nat): (r: nat)
    ensures r >= 1
  {
    if n == 0 then 1 else 2 * Pow2(n - 1)
  }

  function Half(b: bv32): bv32 {
    b >> 1
  }

  /** Bit 0 of `b` is set. */
  predicate Low(b: bv32) {
    b & 1 == 1
  }

  function And(x: bv32, y: bv32): bv32 {
    x & y
  }

  function Or(x: bv32, y: bv32): bv32 {
    x | y
  }

  function Not(x: bv32): bv32 {
    !x
  }

  /** `b` shifted right `n` times by one position. */
  function ShrN(b: bv32, n: nat): bv32 {
    if n == 0 then b else ShrN(Half(b), n - 1)
  }

  /** Bit `i` of `b` is set (bit 0 is the least significant one). */
  predicate IsSet(b: bv32, i: nat) {
    Low(ShrN(b, i))
  }

  /** Number of set bits of `b` at the positions `0 .. n-1`. */
  function CountLow(b: bv32, n: nat): (r: nat)
    ensures r <= n
  {
    if n == 0 then 0 else (if Low(b) then 1 else 0) + CountLow(Half(b), n - 1)
  }

  /** The reference population count: the number of set bits of the word. */
  function Popcount(b: bv32): nat {
    CountLow(b, WordBits)
  }

  /** The word whose only set bit is bit `k`: JavaScript's `1 << k`. */
  function SingleBit(k: nat): bv32
    requires k < WordBits
  {
    if k == 0 then 1 else SingleBit(k - 1) << 1
  }

  /** The word whose low `m` bits are set and whose other bits are clear. */
  function LowMask(m: nat): bv32
    requires m <= WordBits
  {
    if m == 0 then 0 else (LowMask(m - 1) << 1) | 1
  }

  /**
   * Small unsigned values of a word as natural numbers: the low six bits,
   * which is all a count of at most 32 set bits occupies.
   */
  function Small(x: bv32): nat {
    (if x & 1 != 0 then 1 else 0) + (if x & 2 != 0 then 2 else 0)
    + (if x & 4 != 0 then 4 else 0) + (if x & 8 != 0 then 8 else 0)
    + (if x & 16 != 0 then 16 else 0) + (if x & 32 != 0 then 32 else 0)
  }

  /**
   * `countBits` of BitSet.ts: the SWAR ("SIMD within a register") count.
   * JavaScript evaluates it on signed 32-bit values and doubles, but each
   * right shift is masked with a constant whose top bit is clear, the byte
   * sums stay below 2^31, and the product (below 2^53, so exact) is brought
   * back to 32 bits by `>> 24`; the result is therefore the same as this
   * computation on the unsigned 32-bit pattern with the product taken modulo
   * 2^32.
   */
  function CountBits(bits: bv32): bv32 {
    SumBytes(SwarBytes(bits))
  }

  /** The first two SWAR steps: each byte ends up holding the count of its own 8 bits. */
  function SwarBytes(bits: bv32): bv32 {
    var pairs := bits - ((bits >> 1) & 0x5555_5555);
    var nibbles := (pairs & 0x3333_3333) + ((pairs >> 2) & 0x3333_3333);
    (nibbles + (nibbles >> 4)) & 0x0F0F_0F0F
  }

  /** The last SWAR step: multiply by 0x01010101 and keep the top byte. */
  function SumBytes(x: bv32): bv32 {
    (x * 0x0101_0101) >> 24
  }

  // Bit-vector reference counts, grouped the way the SWAR steps group bits.

  function PairCount(b: bv32): bv32 {
    (b & 1) + ((b >> 1) & 1)
  }

  function NibbleCount(b: bv32): bv32 {
    PairCount(b) + PairCount(b >> 2)
  }

  function ByteCount(b: bv32): bv32 {
    NibbleCount(b) + NibbleCount(b >> 4)
  }

  function Byte1Count(b: bv32): bv32 {
    ByteCount(b >> 8)
  }

  function Byte2Count(b: bv32): bv32 {
    ByteCount(b >> 16)
  }

  function Byte3Count(b: bv32): bv32 {
    ByteCount(b >> 24)
  }

  /** The four bytes of `x` are `c0 .. c3`, each a count of at most 8. */
  predicate ByteCounts(x: bv32, c0: bv32, c1: bv32, c2: bv32, c3: bv32) {
    && x & 0xff == c0 && (x >> 8) & 0xff == c1 && (x >> 16) & 0xff == c2 && x >> 24 == c3
    && c0 <= 8 && c1 <= 8 && c2 <= 8 && c3 <= 8
  }

  // ---------------------------------------------------------------------
  // Shifts and prefix counts

  lemma {:induction false} ShrNAdd(b: bv32, m: nat, n: nat)
    ensures ShrN(b, m + n) == ShrN(ShrN(b, m), n)
    decreases m
  {
    if m > 0 {
      ShrNAdd(Half(b), m - 1, n);
    }
  }

  /** Counting the low `m + n` bits splits at position `m`. */
  lemma {:induction false} CountLowSplit(b: bv32, m: nat, n: nat)
    ensures CountLow(b, m + n) == CountLow(b, m) + CountLow(ShrN(b, m), n)
    decreases m
  {
    if m > 0 {
      CountLowSplit(Half(b), m - 1, n);
    }
  }

  /** Counting one more position adds that position's bit. */
  lemma CountLowNext(b: bv32, n: nat)
    ensures CountLow(b, n + 1) == CountLow(b, n) + (if IsSet(b, n) then 1 else 0)
  {
    CountLowSplit(b, n, 1);
  }

  /** Prefix counts never decrease. */
  lemma CountLowMonotone(b: bv32, m: nat, n: nat)
    requires m <= n
    ensures CountLow(b, m) <= CountLow(b, n)
  {
    CountLowSplit(b, m, n - m);
  }

  lemma ZeroWord()
    ensures Half(0) == 0 && !Low(0)
  {
  }

  lemma {:induction false} CountLowZero(n: nat)
    ensures CountLow(0, n) == 0
  {
    if n > 0 {
      ZeroWord();
      CountLowZero(n - 1);
    }
  }

  lemma {:induction false} ShrNZero(n: nat)
    ensures ShrN(0, n) == 0
  {
    if n > 0 {
      ZeroWord();
      ShrNZero(n - 1);
    }
  }

  lemma HalfTwice(b: bv32)
    ensures Half(Half(b)) == b >> 2
  {
  }

  lemma Shr2Twice(b: bv32)
    ensures (b >> 2) >> 2 == b >> 4
  {
  }

  lemma Shr4Twice(b: bv32)
    ensures (b >> 4) >> 4 == b >> 8
  {
  }

  lemma Shr8Twice(b: bv32)
    ensures (b >> 8) >> 8 == b >> 16
  {
  }

  lemma Shr16Then8(b: bv32)
    ensures (b >> 16) >> 8 == b >> 24
  {
  }

  lemma Shr16Twice(b: bv32)
    ensures (b >> 16) >> 16 == 0
  {
  }

  lemma Shr2Then1(b: bv32)
    ensures Half(b >> 2) == b >> 3
  {
  }

  lemma Shr4Then3(b: bv32)
    ensures (b >> 4) >> 3 == b >> 7
  {
  }

  lemma Shr24Then7(b: bv32)
    ensures (b >> 24) >> 7 == b >> 31
  {
  }

  // The shift lemmas take their counts as parameters fixed by a precondition:
  // a literal count would let the solver unfold `ShrN` all the way down.

  lemma Shr2(b: bv32, one: nat)
    requires one == 1
    ensures ShrN(b, one + one) == b >> 2
  {
    assert ShrN(b, one + one) == ShrN(Half(b), one);
    assert ShrN(Half(b), one) == Half(Half(b));
    HalfTwice(b);
  }

  lemma Shr3(b: bv32, one: nat)
    requires one == 1
    ensures ShrN(b, one + one + one) == b >> 3
  {
    ShrNAdd(b, one + one, one);
    Shr2(b, one);
    Shr2Then1(b);
  }

  lemma Shr4(b: bv32, two: nat)
    requires two == 2
    ensures ShrN(b, two + two) == b >> 4
  {
    ShrNAdd(b, two, two);
    Shr2(b, 1);
    Shr2(b >> 2, 1);
    Shr2Twice(b);
  }

  lemma Shr7(b: bv32, four: nat, three: nat)
    requires four == 4 && three == 3
    ensures ShrN(b, four + three) == b >> 7
  {
    ShrNAdd(b, four, three);
    Shr4(b, 2);
    Shr3(b >> 4, 1);
    Shr4Then3(b);
  }

  lemma Shr8(b: bv32, four: nat)
    requires four == 4
    ensures ShrN(b, four + four) == b >> 8
  {
    ShrNAdd(b, four, four);
    Shr4(b, 2);
    Shr4(b >> 4, 2);
    Shr4Twice(b);
  }

  lemma Shr16(b: bv32, eight: nat)
    requires eight == 8
    ensures ShrN(b, eight + eight) == b >> 16
  {
    ShrNAdd(b, eight, eight);
    Shr8(b, 4);
    Shr8(b >> 8, 4);
    Shr8Twice(b);
  }

  lemma Shr24(b: bv32, eight: nat)
    requires eight == 8
    ensures ShrN(b, eight + eight + eight) == b >> 24
  {
    ShrNAdd(b, eight + eight, eight);
    Shr16(b, 8);
    Shr8(b >> 16, 4);
    Shr16Then8(b);
  }

  lemma Shr31(b: bv32, eight: nat, seven: nat)
    requires eight == 8 && seven == 7
    ensures ShrN(b, eight + eight + eight + seven) == b >> 31
  {
    ShrNAdd(b, eight + eight + eight, seven);
    Shr24(b, 8);
    Shr7(b >> 24, 4, 3);
    Shr24Then7(b);
  }

  lemma Shr32(b: bv32, sixteen: nat)
    requires sixteen == 16
    ensures ShrN(b, sixteen + sixteen) == 0
  {
    ShrNAdd(b, sixteen, sixteen);
    Shr16(b, 8);
    Shr16(b >> 16, 8);
    Shr16Twice(b);
  }

  lemma ShiftedOut(b: bv32, n: nat)
    requires n >= WordBits
    ensures ShrN(b, n) == 0
  {
    var k := n - WordBits;
    ShrNAdd(b, WordBits, k);
    Shr32(b, 16);
    ShrNZero(k);
  }

  // ---------------------------------------------------------------------
  // Single bits of words

  lemma TopBitShift(b: bv32)
    ensures Low(b >> 31) == (b & 0x8000_0000 != 0)
  {
  }

  /** Bit 31 is the sign bit of the JavaScript 32-bit integer. */
  lemma TopBit(b: bv32)
    ensures IsSet(b, 31) == (b & 0x8000_0000 != 0)
  {
    Shr31(b, 8, 7);
    TopBitShift(b);
  }

  /** Every bit at position 32 or above is clear. */
  lemma HighBit(b: bv32, j: nat)
    requires j >= WordBits
    ensures !IsSet(b, j)
  {
    ShiftedOut(b, j);
    ZeroWord();
  }

  lemma BitZero(j: nat)
    ensures !IsSet(0, j)
  {
    ShrNZero(j);
    ZeroWord();
  }

  lemma AndStep(x: bv32, y: bv32)
    ensures Low(And(x, y)) == (Low(x) && Low(y))
    ensures Half(And(x, y)) == And(Half(x), Half(y))
  {
  }

  lemma OrStep(x: bv32, y: bv32)
    ensures Low(Or(x, y)) == (Low(x) || Low(y))
    ensures Half(Or(x, y)) == Or(Half(x), Half(y))
  {
  }

  /** Bit `j` of a conjunction is the conjunction of the bits. */
  lemma {:induction false} BitAnd(x: bv32, y: bv32, j: nat)
    ensures IsSet(And(x, y), j) == (IsSet(x, j) && IsSet(y, j))
  {
    AndStep(x, y);
    if j > 0 {
      BitAnd(Half(x), Half(y), j - 1);
    }
  }

  /** Bit `j` of a disjunction is the disjunction of the bits. */
  lemma {:induction false} BitOr(x: bv32, y: bv32, j: nat)
    ensures IsSet(Or(x, y), j) == (IsSet(x, j) || IsSet(y, j))
  {
    OrStep(x, y);
    if j > 0 {
      BitOr(Half(x), Half(y), j - 1);
    }
  }

  lemma ComplementWords(x: bv32)
    ensures Or(x, Not(x)) == 0xFFFF_FFFF && And(x, Not(x)) == 0
  {
  }

  lemma AllOnes()
    ensures LowMask(32) == 0xFFFF_FFFF
  {
    assert LowMask(4) == 0xF;
    assert LowMask(8) == 0xFF;
    assert LowMask(12) == 0xFFF;
    assert LowMask(16) == 0xFFFF;
    assert LowMask(20) == 0xF_FFFF;
    assert LowMask(24) == 0xFF_FFFF;
    assert LowMask(28) == 0xFFF_FFFF;
  }

  /** Bit `j` of a complement is the complement of the bit, below position 32. */
  lemma BitNot(x: bv32, j: nat)
    requires j < WordBits
    ensures IsSet(Not(x), j) == !IsSet(x, j)
  {
    ComplementWords(x);
    BitOr(x, Not(x), j);
    BitAnd(x, Not(x), j);
    AllOnes();
    LowMaskBit(32, j);
    BitZero(j);
  }

  lemma ShiftInOne(l: bv32)
    requires l & 0x8000_0000 == 0
    ensures Low((l << 1) | 1) && Half((l << 1) | 1) == l
  {
  }

  lemma ShiftInZero(l: bv32)
    requires l & 0x8000_0000 == 0
    ensures !Low(l << 1) && Half(l << 1) == l
  {
  }

  /** The low mask of width `m` has exactly the bits below `m` set. */
  lemma {:induction false} LowMaskBit(m: nat, j: nat)
    requires m <= WordBits
    ensures IsSet(LowMask(m), j) == (j < m)
    decreases m
  {
    if m == 0 {
      BitZero(j);
    } else {
      var l := LowMask(m - 1);
      LowMaskBit(m - 1, 31);
      TopBit(l);
      ShiftInOne(l);
      if j > 0 {
        LowMaskBit(m - 1, j - 1);
      }
    }
  }

  lemma OneWord()
    ensures Low(1) && Half(1) == 0
  {
  }

  /** `1 << k` has exactly bit `k` set. */
  lemma {:induction false} SingleBitBit(k: nat, j: nat)
    requires k < WordBits
    ensures IsSet(SingleBit(k), j) == (j == k)
    decreases k
  {
    if k == 0 {
      OneWord();
      if j > 0 {
        BitZero(j - 1);
      }
    } else {
      var s := SingleBit(k - 1);
      SingleBitBit(k - 1, 31);
      TopBit(s);
      ShiftInZero(s);
      if j > 0 {
        SingleBitBit(k - 1, j - 1);
      }
    }
  }

  /** Counting the bits of `b` under the low mask of width `m` counts the bits of `b` below `m`. */
  lemma {:induction false} MaskedCountLow(b: bv32, m: nat, n: nat)
    requires m <= WordBits
    ensures CountLow(And(b, LowMask(m)), n) == CountLow(b, if m < n then m else n)
  {
    if n > 0 {
      MaskedCountLow(b, m, n - 1);
      CountLowNext(And(b, LowMask(m)), n - 1);
      BitAnd(b, LowMask(m), n - 1);
      LowMaskBit(m, n - 1);
      if n - 1 < m {
        CountLowNext(b, n - 1);
      }
    }
  }

  /** The population count of `b & LowMask(m)` is the number of set bits of `b` below `m`. */
  lemma MaskedPopcount(b: bv32, m: nat)
    requires m <= WordBits
    ensures Popcount(And(b, LowMask(m))) == CountLow(b, m)
  {
    MaskedCountLow(b, m, WordBits);
  }

  // ---------------------------------------------------------------------
  // The SWAR count equals the reference count

  lemma PairBound(b: bv32)
    ensures PairCount(b) <= 2
  {
  }

  lemma AddSmall(a: bv32, c: bv32, k: bv32)
    requires k <= 24 && a <= k && c <= 8
    ensures Small(a + c) == Small(a) + Small(c) && a + c <= k + 8
  {
  }

  lemma PairBits(b: bv32)
    ensures Small(PairCount(b)) == (if Low(b) then 1 else 0) + (if Low(Half(b)) then 1 else 0)
  {
  }

  lemma PairSmall(b: bv32, one: nat)
    requires one == 1
    ensures Small(PairCount(b)) == CountLow(b, one + one)
  {
    PairBits(b);
    assert CountLow(Half(b), one) == CountLow(Half(b), 1);
  }

  lemma NibbleSmall(b: bv32)
    ensures Small(NibbleCount(b)) == CountLow(b, 4) && NibbleCount(b) <= 4
  {
    PairBound(b);
    PairBound(b >> 2);
    AddSmall(PairCount(b), PairCount(b >> 2), 2);
    PairSmall(b, 1);
    PairSmall(b >> 2, 1);
    CountLowSplit(b, 2, 2);
    Shr2(b, 1);
  }

  lemma ByteSmall(b: bv32)
    ensures Small(ByteCount(b)) == CountLow(b, 8) && ByteCount(b) <= 8
  {
    NibbleSmall(b);
    NibbleSmall(b >> 4);
    AddSmall(NibbleCount(b), NibbleCount(b >> 4), 4);
    CountLowSplit(b, 4, 4);
    Shr4(b, 2);
  }

  lemma Byte1Small(b: bv32)
    ensures Small(Byte1Count(b)) == CountLow(ShrN(b, 8), 8)
  {
    ByteSmall(b >> 8);
    Shr8(b, 4);
  }

  lemma Byte2Small(b: bv32)
    ensures Small(Byte2Count(b)) == CountLow(ShrN(b, 16), 8)
  {
    ByteSmall(b >> 16);
    Shr16(b, 8);
  }

  lemma Byte3Small(b: bv32)
    ensures Small(Byte3Count(b)) == CountLow(ShrN(b, 24), 8)
  {
    ByteSmall(b >> 24);
    Shr24(b, 8);
  }

  lemma SwarByte0(b: bv32)
    ensures SwarBytes(b) & 0xff == ByteCount(b)
  {
  }

  lemma SwarByte1(b: bv32)
    ensures (SwarBytes(b) >> 8) & 0xff == Byte1Count(b)
  {
  }

  lemma SwarByte2(b: bv32)
    ensures (SwarBytes(b) >> 16) & 0xff == Byte2Count(b)
  {
  }

  lemma SwarByte3(b: bv32)
    ensures SwarBytes(b) >> 24 == Byte3Count(b)
  {
  }

  lemma ByteBounds(b: bv32)
    ensures ByteCount(b) <= 8 && Byte1Count(b) <= 8 && Byte2Count(b) <= 8 && Byte3Count(b) <= 8
  {
  }

  /** After the first two SWAR steps, byte k of the word counts the bits of byte k of the input. */
  lemma SwarStep(b: bv32)
    ensures ByteCounts(SwarBytes(b), ByteCount(b), Byte1Count(b), Byte2Count(b), Byte3Count(b))
  {
    SwarByte0(b);
    SwarByte1(b);
    SwarByte2(b);
    SwarByte3(b);
    ByteBounds(b);
  }

  /** The multiply-and-shift step adds the four byte counts, which cannot carry. */
  lemma SumStep(x: bv32, c0: bv32, c1: bv32, c2: bv32, c3: bv32)
    ensures ByteCounts(x, c0, c1, c2, c3) ==> SumBytes(x) == c0 + c1 + c2 + c3
  {
  }

  lemma CountBitsByBytes(b: bv32)
    ensures CountBits(b) == ByteCount(b) + Byte1Count(b) + Byte2Count(b) + Byte3Count(b)
  {
    SwarStep(b);
    SumStep(SwarBytes(b), ByteCount(b), Byte1Count(b), Byte2Count(b), Byte3Count(b));
  }

  lemma SumSmall3(c0: bv32, c1: bv32, c2: bv32)
    requires c0 <= 8 && c1 <= 8 && c2 <= 8
    ensures Small(c0 + c1 + c2) == Small(c0) + Small(c1) + Small(c2) && c0 + c1 + c2 <= 24
  {
    AddSmall(c0, c1, 8);
    AddSmall(c0 + c1, c2, 16);
  }

  lemma SumSmall(c0: bv32, c1: bv32, c2: bv32, c3: bv32)
    requires c0 <= 8 && c1 <= 8 && c2 <= 8 && c3 <= 8
    ensures Small(c0 + c1 + c2 + c3) == Small(c0) + Small(c1) + Small(c2) + Small(c3)
  {
    SumSmall3(c0, c1, c2);
    AddSmall(c0 + c1 + c2, c3, 24);
  }

  lemma CountLowQuarters(b: bv32, e: nat)
    ensures CountLow(b, e + e + e + e) == CountLow(b, e) + CountLow(ShrN(b, e), e) + CountLow(ShrN(b, e + e), e) + CountLow(ShrN(b, e + e + e), e)
  {
    var h := e + e;
    var b2 := ShrN(b, h);
    CountLowSplit(b, h, h);
    CountLowSplit(b, e, e);
    CountLowSplit(b2, e, e);
    ShrNAdd(b, h, e);
  }

  /** `countBits` returns the number of set bits of its argument. */
  lemma CountBitsIsPopcount(b: bv32)
    ensures Small(CountBits(b)) == Popcount(b)
  {
    CountBitsByBytes(b);
    ByteBounds(b);
    SumSmall(ByteCount(b), Byte1Count(b), Byte2Count(b), Byte3Count(b));
    ByteSmall(b);
    Byte1Small(b);
    Byte2Small(b);
    Byte3Small(b);
    CountLowQuarters(b, 8);
  }

  // ---------------------------------------------------------------------
  // Words are their bits

  lemma HalfLowSame(x: bv32, y: bv32)
    requires Half(x) == Half(y) && Low(x) == Low(y)
    ensures x == y
  {
  }

  lemma ShrOne(b: bv32, n: nat)
    ensures ShrN(b, n + 1) == Half(ShrN(b, n))
  {
    ShrNAdd(b, n, 1);
  }

  /** Words that agree on every bit from `n` up agree once shifted right by `n`. */
  lemma {:induction false} SameAbove(x: bv32, y: bv32, n: nat)
    requires n <= WordBits
    requires forall j :: n <= j < WordBits ==> IsSet(x, j) == IsSet(y, j)
    ensures ShrN(x, n) == ShrN(y, n)
    decreases WordBits - n
  {
    if n == WordBits {
      ShiftedOut(x, n);
      ShiftedOut(y, n);
    } else {
      SameAbove(x, y, n + 1);
      ShrOne(x, n);
      ShrOne(y, n);
      assert IsSet(x, n) == IsSet(y, n);
      HalfLowSame(ShrN(x, n), ShrN(y, n));
    }
  }

  /** Two words with the same 32 bits are the same word. */
  lemma Extensional(x: bv32, y: bv32)
    requires forall j :: 0 <= j < WordBits ==> IsSet(x, j) == IsSet(y, j)
    ensures x == y
  {
    SameAbove(x, y, 0);
  }

  /** `word & (1 << k)` is non-zero exactly when bit `k` of the word is set. */
  lemma SingleAnd(w: bv32, k: nat)
    requires k < WordBits
    ensures (And(w, SingleBit(k)) != 0) == IsSet(w, k)
  {
    var a := And(w, SingleBit(k));
    forall j | 0 <= j < WordBits
      ensures IsSet(a, j) == (IsSet(w, k) && j == k)
    {
      BitAnd(w, SingleBit(k), j);
      SingleBitBit(k, j);
    }
    BitZero(k);
    if !IsSet(w, k) {
      forall j | 0 <= j < WordBits
        ensures IsSet(a, j) == IsSet(0, j)
      {
        BitZero(j);
      }
      Extensional(a, 0);
    }
  }

  /**
   * JavaScript's `x > 0` on the 32-bit signed result of a bitwise operation:
   * the pattern is non-zero and its sign bit, bit 31, is clear.
   */
  predicate Positive(x: bv32) {
    x != 0 && x & 0x8000_0000 == 0
  }

  /** `(word & (1 << k)) > 0` holds when bit `k` is set, except for the sign bit. */
  lemma SingleAndPositive(w: bv32, k: nat)
    requires k < WordBits
    ensures Positive(And(w, SingleBit(k))) == (IsSet(w, k) && k != 31)
  {
    SingleAnd(w, k);
    TopBit(And(w, SingleBit(k)));
    BitAnd(w, SingleBit(k), 31);
    SingleBitBit(k, 31);
  }

  /** `word | (1 << k)` sets bit `k` and keeps the others. */
  lemma OrSingle(w: bv32, k: nat, j: nat)
    requires k < WordBits
    ensures IsSet(Or(w, SingleBit(k)), j) == (IsSet(w, j) || j == k)
  {
    BitOr(w, SingleBit(k), j);
    SingleBitBit(k, j);
  }

  /** `word & ~(1 << k)` clears bit `k` and keeps the others. */
  lemma ClearSingle(w: bv32, k: nat, j: nat)
    requires k < WordBits
    ensures IsSet(And(w, Not(SingleBit(k))), j) == (IsSet(w, j) && j != k)
  {
    BitAnd(w, Not(SingleBit(k)), j);
    if j < WordBits {
      BitNot(SingleBit(k), j);
      SingleBitBit(k, j);
    } else {
      HighBit(w, j);
    }
  }

  /** Setting one clear bit adds one to every count that reaches it. */
  lemma {:induction false} CountLowFlip(x: bv32, y: bv32, k: nat, n: nat)
    requires forall j :: j != k ==> IsSet(x, j) == IsSet(y, j)
    requires !IsSet(x, k) && IsSet(y, k)
    ensures CountLow(y, n) == CountLow(x, n) + (if k < n then 1 else 0)
  {
    if n > 0 {
      CountLowFlip(x, y, k, n - 1);
      CountLowNext(x, n - 1);
      CountLowNext(y, n - 1);
    }
  }

  /** Setting a clear bit adds one to the population; clearing a set bit removes one. */
  lemma PopcountFlip(x: bv32, y: bv32, k: nat)
    requires k < WordBits
    requires forall j :: j != k ==> IsSet(x, j) == IsSet(y, j)
    requires !IsSet(x, k) && IsSet(y, k)
    ensures Popcount(y) == Popcount(x) + 1
  {
    CountLowFlip(x, y, k, WordBits);
  }

  lemma PopcountZero()
    ensures Popcount(0) == 0
  {
    CountLowZero(WordBits);
  }

  /** A word with no set bit is zero, and the other way round. */
  lemma PopcountZeroWord(x: bv32)
    ensures Popcount(x) == 0 <==> x == 0
  {
    PopcountZero();
    if Popcount(x) == 0 {
      forall j | 0 <= j < WordBits
        ensures IsSet(x, j) == IsSet(0, j)
      {
        BitZero(j);
        CountLowMonotone(x, j + 1, WordBits);
        CountLowNext(x, j);
      }
      Extensional(x, 0);
    }
  }
}

=== FILE: bitset.dfy ===
/**
 * `BitSet` of `sources/set/BitSet.ts`: a set of non-negative integers kept
 * one bit per element in a pack of 32-bit cells (a `BufferPack` over a
 * `Uint32Array`). Element `e` lives in cell `e >> 5`, at bit `e % 32`.
 *
 * The state is the buffer, the pack size and the element count. The pack
 * size may be smaller than the buffer: cells past it are not part of the
 * set, but they keep whatever was last written there, because shrinking or
 * clearing the pack only lowers its size.
 *
 * The operations come in two versions where the code does not do what the
 * class promises: `...AsWritten` follows the code line by line, the plain
 * name is the corrected operation the rest of the model relies on.
 */
module BitSets {
  import opened Bits
  import opened Outcomes
  import opened Generator

  /**
   * The numbers a bit set can hold. On non-negative integers below 2^31,
   * JavaScript's `element >> 5` and `element % 32` are integer division and
   * remainder by 32.
   */
  type Element = e: nat | e < 0x8000_0000

  /**
   * `cells` is the `Uint32Array` (its length is the pack capacity), `used`
   * the pack size, `count` the field `_size`.
   */
  datatype BitSet = BitSet(cells: seq<bv32>, used: nat, count: int)

  /** A read of the buffer; past its end JavaScript yields `undefined`, which bitwise operators read as 0. */
  function Word(s: BitSet, c: nat): bv32 {
    if c < |s.cells| then s.cells[c] else 0
  }

  /** `e` is stored: its cell lies inside the pack and its bit is set. */
  predicate InSet(s: BitSet, e: nat) {
    e / 32 < s.used && IsSet(Word(s, e / 32), e % 32)
  }

  // ---------------------------------------------------------------------
  // The elements, in increasing order

  /** The positions `base + k`, `k < n`, of the set bits of `w`, in increasing order. */
  function CellElements(w: bv32, base: nat, n: nat): seq<nat> {
    if n == 0 then [] else CellElements(w, base, n - 1) + (if IsSet(w, n - 1) then [base + n - 1] else [])
  }

  /** The elements held by the first `n` cells, in increasing order. */
  function Elements(s: BitSet, n: nat): seq<nat> {
    if n == 0 then [] else Elements(s, n - 1) + CellElements(Word(s, n - 1), 32 * (n - 1), WordBits)
  }

  /** The elements of the set, in increasing order: the order `values()` yields them in. */
  function Contents(s: BitSet): seq<nat> {
    Elements(s, s.used)
  }

  /** Number of set bits in the first `n` cells. */
  function Population(s: BitSet, n: nat): nat {
    if n == 0 then 0 else Population(s, n - 1) + Popcount(Word(s, n - 1))
  }

  /**
   * The class invariant: the pack fits in its buffer and `_size` is the
   * number of set bits of the pack.
   */
  predicate Valid(s: BitSet) {
    s.used <= |s.cells| && s.count == Population(s, s.used)
  }

  predicate Increasing(xs: seq<nat>) {
    forall i, j :: 0 <= i < j < |xs| ==> xs[i] < xs[j]
  }

  lemma {:induction false} CellLength(w: bv32, base: nat, n: nat)
    ensures |CellElements(w, base, n)| == CountLow(w, n)
  {
    if n > 0 {
      CellLength(w, base, n - 1);
      CountLowNext(w, n - 1);
    }
  }

  lemma {:induction false} CellMember(w: bv32, base: nat, n: nat, x: nat)
    ensures x in CellElements(w, base, n) <==> base <= x < base + n && IsSet(w, x - base)
  {
    if n > 0 {
      CellMember(w, base, n - 1, x);
    }
  }

  lemma {:induction false} CellIncreasing(w: bv32, base: nat, n: nat)
    ensures Increasing(CellElements(w, base, n))
  {
    if n > 0 {
      CellIncreasing(w, base, n - 1);
      var xs := CellElements(w, base, n - 1);
      forall i | 0 <= i < |xs|
        ensures xs[i] < base + n - 1
      {
        CellMember(w, base, n - 1, xs[i]);
      }
    }
  }

  /** The set bits of the word `w` at the position `p` come after exactly `CountLow(w, p)` others. */
  lemma {:induction false} CellAt(w: bv32, base: nat, n: nat, p: nat)
    requires p < n && IsSet(w, p)
    ensures CountLow(w, p) < |CellElements(w, base, n)|
    ensures CellElements(w, base, n)[CountLow(w, p)] == base + p
  {
    CellLength(w, base, n - 1);
    CellLength(w, base, n);
    CountLowNext(w, n - 1);
    if p < n - 1 {
      CellAt(w, base, n - 1, p);
    }
  }

  lemma {:induction false} CellEmpty(base: nat, n: nat)
    ensures CellElements(0, base, n) == []
  {
    if n > 0 {
      BitZero(n - 1);
      CellEmpty(base, n - 1);
    }
  }

  lemma {:induction false} ElementsLength(s: BitSet, n: nat)
    ensures |Elements(s, n)| == Population(s, n)
  {
    if n > 0 {
      ElementsLength(s, n - 1);
      CellLength(Word(s, n - 1), 32 * (n - 1), WordBits);
    }
  }

  /** The elements of the first `n` cells are exactly the stored numbers below `32 * n`. */
  lemma {:induction false} ElementsMember(s: BitSet, n: nat, x: nat)
    ensures x in Elements(s, n) <==> x / 32 < n && IsSet(Word(s, x / 32), x % 32)
  {
    if n > 0 {
      ElementsMember(s, n - 1, x);
      CellMember(Word(s, n - 1), 32 * (n - 1), WordBits, x);
    }
  }

  lemma {:induction false} ElementsIncreasing(s: BitSet, n: nat)
    ensures Increasing(Elements(s, n))
  {
    if n > 0 {
      ElementsIncreasing(s, n - 1);
      var xs := Elements(s, n - 1);
      var ys := CellElements(Word(s, n - 1), 32 * (n - 1), WordBits);
      CellIncreasing(Word(s, n - 1), 32 * (n - 1), WordBits);
      forall i, j | 0 <= i < |xs| && 0 <= j < |ys|
        ensures xs[i] < ys[j]
      {
        ElementsMember(s, n - 1, xs[i]);
        CellMember(Word(s, n - 1), 32 * (n - 1), WordBits, ys[j]);
      }
      IncreasingAppend(xs, ys);
    }
  }

  lemma IncreasingAppend(xs: seq<nat>, ys: seq<nat>)
    requires Increasing(xs) && Increasing(ys)
    requires forall i, j :: 0 <= i < |xs| && 0 <= j < |ys| ==> xs[i] < ys[j]
    ensures Increasing(xs + ys)
  {
  }

  /** The elements of fewer cells are a prefix of the elements of more. */
  lemma {:induction false} ElementsPrefix(s: BitSet, m: nat, n: nat)
    requires m <= n
    ensures |Elements(s, m)| <= |Elements(s, n)| && Elements(s, n)[..|Elements(s, m)|] == Elements(s, m)
  {
    if m < n {
      ElementsPrefix(s, m, n - 1);
    }
  }

  /**
   * The set bit `p` of cell `c` is the element of rank
   * `Population(s, c) + CountLow(Word(s, c), p)`, counting from 0.
   */
  lemma ElementsAt(s: BitSet, c: nat, n: nat, p: nat) returns (i: nat)
    requires c < n && p < WordBits && IsSet(Word(s, c), p)
    ensures i == Population(s, c) + CountLow(Word(s, c), p)
    ensures i < |Elements(s, n)| && Elements(s, n)[i] == 32 * c + p
  {
    var w := Word(s, c);
    var before := Elements(s, c);
    var here := CellElements(w, 32 * c, WordBits);
    var k := CountLow(w, p);
    ElementsLength(s, c);
    CellAt(w, 32 * c, WordBits, p);
    AppendIndex(Elements(s, c + 1), before, here, k);
    ElementsPrefix(s, c + 1, n);
    i := |before| + k;
    PrefixIndex(Elements(s, c + 1), Elements(s, n), i);
  }

  lemma AppendIndex(zs: seq<nat>, xs: seq<nat>, ys: seq<nat>, k: nat)
    requires zs == xs + ys && k < |ys|
    ensures |xs| + k < |zs| && zs[|xs| + k] == ys[k]
  {
  }

  lemma PrefixIndex(xs: seq<nat>, ys: seq<nat>, k: nat)
    requires |xs| <= |ys| && ys[..|xs|] == xs && k < |xs|
    ensures ys[k] == xs[k]
  {
    assert ys[..|xs|][k] == ys[k];
  }

  /** A membership test against the ordered elements. */
  lemma ContentsHas(s: BitSet, x: nat)
    ensures x in Contents(s) <==> InSet(s, x)
  {
    ElementsMember(s, s.used, x);
  }

  lemma {:induction false} PopulationMonotone(s: BitSet, m: nat, n: nat)
    requires m <= n
    ensures Population(s, m) <= Population(s, n)
  {
    if m < n {
      PopulationMonotone(s, m, n - 1);
    }
  }

  /** Sets that agree on the first `n` cells have the same elements and population there. */
  lemma {:induction false} SamePrefix(s: BitSet, t: BitSet, n: nat)
    requires forall i :: 0 <= i < n ==> Word(s, i) == Word(t, i)
    ensures Population(s, n) == Population(t, n) && Elements(s, n) == Elements(t, n)
  {
    if n > 0 {
      SamePrefix(s, t, n - 1);
    }
  }

  /** Empty cells add nothing. */
  lemma {:induction false} EmptyCells(s: BitSet, m: nat, n: nat)
    requires m <= n
    requires forall i :: m <= i < n ==> Word(s, i) == 0
    ensures Population(s, n) == Population(s, m) && Elements(s, n) == Elements(s, m)
  {
    if m < n {
      EmptyCells(s, m, n - 1);
      PopcountZero();
      CellEmpty(32 * (n - 1), WordBits);
    }
  }

  /** Changing one cell changes the population by the difference of its populations. */
  lemma {:induction false} OneCellChanged(s: BitSet, t: BitSet, c: nat, n: nat)
    requires c < n
    requires forall i :: 0 <= i < n && i != c ==> Word(s, i) == Word(t, i)
    ensures Population(t, n) + Popcount(Word(s, c)) == Population(s, n) + Popcount(Word(t, c))
  {
    if c < n - 1 {
      OneCellChanged(s, t, c, n - 1);
    } else {
      SamePrefix(s, t, c);
    }
  }

  // ---------------------------------------------------------------------
  // The pack of cells

  /** The buffer grown to at least `n` cells, the new cells zero. */
  function Grow(cells: seq<bv32>, n: nat): (r: seq<bv32>)
    ensures |r| == if n > |cells| then n else |cells|
    ensures forall i :: 0 <= i < |r| ==> r[i] == if i < |cells| then cells[i] else 0
  {
    if n > |cells| then cells + seq(n - |cells|, _ => 0) else cells
  }

  /**
   * `Pack.set(c, v)` on the `BufferPack`: an index at or past the size first
   * raises the size to `c + 1`, which grows the buffer when needed and zeroes
   * the cells from the old size up to `c`; then `v` is stored (a typed array
   * ignores a store past its end).
   */
  function PackSet(s: BitSet, c: nat, v: bv32): (r: BitSet)
    ensures r.count == s.count
  {
    if c >= s.used then
      var grown := Grow(s.cells, c + 1);
      var cleared := seq(|grown|, i requires 0 <= i < |grown| => if s.used <= i <= c then 0 else grown[i]);
      BitSet(cleared[c := v], c + 1, s.count)
    else if c < |s.cells| then BitSet(s.cells[c := v], s.used, s.count)
    else s
  }

  /** What a store does to the cells: cell `c` holds `v`, the cells between the old size and `c` are zero. */
  lemma PackSetWord(s: BitSet, c: nat, v: bv32, i: nat)
    requires s.used <= |s.cells|
    ensures PackSet(s, c, v).used == if c >= s.used then c + 1 else s.used
    ensures PackSet(s, c, v).used <= |PackSet(s, c, v).cells|
    ensures Word(PackSet(s, c, v), i) == if i == c then v else if s.used <= i < c then 0 else Word(s, i)
  {
  }

  // ---------------------------------------------------------------------
  // Construction, capacity, clear

  /** `new BitSet(capacity = 32)`: `ceil(capacity / 32)` zero cells, all in the pack, and no element. */
  function New(capacity: nat := 32): BitSet {
    var n := (capacity + 31) / 32;
    BitSet(seq(n, _ => 0), n, 0)
  }

  /** The `capacity` getter: 32 elements per cell of the buffer. */
  function Capacity(s: BitSet): nat {
    32 * |s.cells|
  }

  /** A new set is empty and holds the requested capacity rounded up to a multiple of 32. */
  lemma NewEmpty(capacity: nat)
    ensures Valid(New(capacity)) && Contents(New(capacity)) == []
    ensures capacity <= Capacity(New(capacity)) < capacity + 32 && Capacity(New(capacity)) % 32 == 0
  {
    var s := New(capacity);
    EmptyCells(s, 0, s.used);
  }

  /** The capacities the tests expect: 8, 16 and 32 give 32; 48 and 64 give 64. */
  lemma CapacityExamples()
    ensures Capacity(New(8)) == 32 && Capacity(New(16)) == 32 && Capacity(New(32)) == 32
    ensures Capacity(New(48)) == 64 && Capacity(New(64)) == 64
  {
  }

  /** `new BitSet()` is an empty set of one cell, capacity 32. */
  lemma DefaultCapacity()
    ensures Valid(New()) && Contents(New()) == [] && Capacity(New()) == 32
  {
    NewEmpty(32);
  }

  /** `clear()`: the pack size and the count drop to zero; the buffer keeps its bits. */
  function Clear(s: BitSet): BitSet {
    BitSet(s.cells, 0, 0)
  }

  lemma ClearEmpties(s: BitSet)
    ensures Valid(Clear(s)) && Contents(Clear(s)) == [] && Capacity(Clear(s)) == Capacity(s)
  {
  }

  // ---------------------------------------------------------------------
  // has

  /** `has(e)` with the test `(cell & mask) !== 0`. */
  function Has(s: BitSet, e: Element): bool {
    e / 32 < s.used && And(Word(s, e / 32), SingleBit(e % 32)) != 0
  }

  lemma HasIsMember(s: BitSet, e: Element)
    ensures Has(s, e) <==> e in Contents(s)
  {
    ContentsHas(s, e);
    SingleAnd(Word(s, e / 32), e % 32);
  }

  /** `has(e)` as written: `(cell & mask) > 0` on JavaScript's signed 32-bit result. */
  function HasAsWritten(s: BitSet, e: Element): bool {
    e / 32 < s.used && Positive(And(Word(s, e / 32), SingleBit(e % 32)))
  }

  /** As written, `has` misses every stored element on bit 31 of its cell. */
  lemma HasAsWrittenMissesSignBit(s: BitSet, e: Element)
    ensures HasAsWritten(s, e) <==> e in Contents(s) && e % 32 != 31
  {
    ContentsHas(s, e);
    SingleAndPositive(Word(s, e / 32), e % 32);
  }

  // ---------------------------------------------------------------------
  // Single bits of a cell

  lemma SingleBitPopcount(k: nat)
    requires k < WordBits
    ensures Popcount(SingleBit(k)) == 1
  {
    forall j: nat | j != k
      ensures IsSet(0, j) == IsSet(SingleBit(k), j)
    {
      BitZero(j);
      SingleBitBit(k, j);
    }
    BitZero(k);
    SingleBitBit(k, k);
    PopcountFlip(0, SingleBit(k), k);
    PopcountZero();
  }

  lemma SetBitPopcount(w: bv32, k: nat)
    requires k < WordBits && !IsSet(w, k)
    ensures Popcount(Or(w, SingleBit(k))) == Popcount(w) + 1
  {
    forall j: nat | j != k
      ensures IsSet(w, j) == IsSet(Or(w, SingleBit(k)), j)
    {
      OrSingle(w, k, j);
    }
    OrSingle(w, k, k);
    PopcountFlip(w, Or(w, SingleBit(k)), k);
  }

  lemma ClearBitPopcount(w: bv32, k: nat)
    requires k < WordBits && IsSet(w, k)
    ensures Popcount(w) == Popcount(And(w, Not(SingleBit(k)))) + 1
  {
    var cleared := And(w, Not(SingleBit(k)));
    forall j: nat | j != k
      ensures IsSet(cleared, j) == IsSet(w, j)
    {
      ClearSingle(w, k, j);
    }
    ClearSingle(w, k, k);
    PopcountFlip(cleared, w, k);
  }

  /** The word that `Add` stores, and the bits it holds. */
  lemma StoredBits(w: bv32, newCell: bool, k: nat, j: nat)
    requires k < WordBits
    ensures IsSet(if newCell then SingleBit(k) else Or(w, SingleBit(k)), j) == ((!newCell && IsSet(w, j)) || j == k)
  {
    SingleBitBit(k, j);
    OrSingle(w, k, j);
  }

  // ---------------------------------------------------------------------
  // add

  /**
   * `add(e)` with the comparison `elements.size <= cell`: an element not yet
   * present is counted, and stored either in a cell of the pack (`cell | mask`)
   * or, past the pack, in a fresh cell holding only `mask`.
   */
  function Add(s: BitSet, e: Element): BitSet {
    var c := e / 32;
    var m := SingleBit(e % 32);
    if c >= s.used || And(Word(s, c), m) == 0 then
      var counted := s.(count := s.count + 1);
      if s.used <= c then PackSet(counted, c, m) else PackSet(counted, c, Or(Word(counted, c), m))
    else s
  }

  /**
   * `add(e)` as written: the fresh-cell branch is taken only for
   * `elements.size < cell`, so for `cell == size` the stale bits of the
   * buffer at `cell` are or-ed into the stored word.
   */
  function AddAsWritten(s: BitSet, e: Element): BitSet {
    var c := e / 32;
    var m := SingleBit(e % 32);
    if c >= s.used || And(Word(s, c), m) == 0 then
      var counted := s.(count := s.count + 1);
      if s.used < c then PackSet(counted, c, m) else PackSet(counted, c, Or(Word(counted, c), m))
    else s
  }

  /** The cells after `Add`. */
  lemma AddWords(s: BitSet, e: Element, i: nat)
    requires s.used <= |s.cells| && !InSet(s, e)
    ensures Add(s, e).used == if e / 32 < s.used then s.used else e / 32 + 1
    ensures Add(s, e).used <= |Add(s, e).cells|
    ensures Word(Add(s, e), i) ==
      if i == e / 32 then (if s.used <= i then SingleBit(e % 32) else Or(Word(s, i), SingleBit(e % 32)))
      else if s.used <= i < e / 32 then 0 else Word(s, i)
  {
    SingleAnd(Word(s, e / 32), e % 32);
    var counted := s.(count := s.count + 1);
    assert Word(counted, e / 32) == Word(s, e / 32);
    if s.used <= e / 32 {
      PackSetWord(counted, e / 32, SingleBit(e % 32), i);
    } else {
      PackSetWord(counted, e / 32, Or(Word(s, e / 32), SingleBit(e % 32)), i);
    }
  }

  /** After `Add(s, e)` the set holds `e` and exactly the elements it held before. */
  lemma AddMembers(s: BitSet, e: Element, x: nat)
    requires s.used <= |s.cells|
    ensures InSet(Add(s, e), x) <==> InSet(s, x) || x == e
  {
    SingleAnd(Word(s, e / 32), e % 32);
    if !InSet(s, e) {
      var t := Add(s, e);
      AddWords(s, e, x / 32);
      StoredBits(Word(s, x / 32), s.used <= x / 32, e % 32, x % 32);
      if s.used <= x / 32 < e / 32 {
        BitZero(x % 32);
      }
    }
  }

  /** `Add` keeps the count right: one more exactly when `e` was missing. */
  lemma AddCounts(s: BitSet, e: Element)
    requires Valid(s)
    ensures Valid(Add(s, e))
    ensures Add(s, e).count == s.count + (if InSet(s, e) then 0 else 1)
  {
    SingleAnd(Word(s, e / 32), e % 32);
    if !InSet(s, e) {
      var t := Add(s, e);
      var c := e / 32;
      forall i: nat
        ensures Word(t, i) == if i == c then (if s.used <= i then SingleBit(e % 32) else Or(Word(s, i), SingleBit(e % 32)))
          else if s.used <= i < c then 0 else Word(s, i)
      {
        AddWords(s, e, i);
      }
      if s.used <= c {
        SamePrefix(s, t, s.used);
        EmptyCells(t, s.used, c);
        SingleBitPopcount(e % 32);
      } else {
        OneCellChanged(s, t, c, s.used);
        SetBitPopcount(Word(s, c), e % 32);
      }
    }
  }

  /** The contract of `add`: the contents gain `e`, nothing else changes, and the count follows. */
  lemma AddContents(s: BitSet, e: Element)
    requires Valid(s)
    ensures Valid(Add(s, e))
    ensures forall x :: x in Contents(Add(s, e)) <==> x in Contents(s) || x == e
    ensures Add(s, e).count == s.count + (if e in Contents(s) then 0 else 1)
  {
    AddCounts(s, e);
    ContentsHas(s, e);
    forall x
      ensures x in Contents(Add(s, e)) <==> x in Contents(s) || x == e
    {
      ContentsHas(s, x);
      ContentsHas(Add(s, e), x);
      AddMembers(s, e, x);
    }
  }

  // ---------------------------------------------------------------------
  // delete

  /** Drops the empty cells at the end of the pack. */
  function Trim(s: BitSet): (r: BitSet)
    ensures r.cells == s.cells && r.count == s.count && r.used <= s.used
    ensures forall i :: r.used <= i < s.used ==> Word(s, i) == 0
    ensures r.used == 0 || Word(r, r.used - 1) != 0
    decreases s.used
  {
    if s.used > 0 && Word(s, s.used - 1) == 0 then
      var shorter := s.(used := s.used - 1);
      assert forall i :: Word(shorter, i) == Word(s, i);
      Trim(shorter)
    else s
  }

  /**
   * `delete(e)` with the cleared word written back: a present element is
   * uncounted and its bit cleared; a cell left empty lets the pack shrink
   * past every empty cell at its end.
   */
  function Delete(s: BitSet, e: Element): BitSet {
    var c := e / 32;
    var m := SingleBit(e % 32);
    if c < s.used && And(Word(s, c), m) != 0 then
      var next := And(Word(s, c), Not(m));
      var cleared := PackSet(s.(count := s.count - 1), c, next);
      if next == 0 then Trim(cleared) else cleared
    else s
  }

  /**
   * The `do { size -= 1 } while (last === 0)` loop of `delete` on a pack of
   * `size` cells: the size it stops at, or `None` when it never stops (once
   * the size reaches 0, `last` keeps reading cell 0).
   */
  function Shrink(cells: seq<bv32>, size: nat): (r: Option<nat>)
    requires 1 <= size <= |cells|
    ensures r.None? <==> cells[0] == 0 && forall i :: 0 <= i < size - 1 ==> cells[i] == 0
    ensures r.Some? ==> r.value < size && forall i :: r.value <= i < size - 1 ==> cells[i] == 0
    ensures r.Some? && r.value > 0 ==> cells[r.value - 1] != 0
    decreases size
  {
    var next := size - 1;
    if next == 0 then
      if cells[0] == 0 then None else Some(0)
    else if cells[next - 1] == 0 then Shrink(cells, next)
    else Some(next)
  }

  /**
   * `delete(e)` as written: the test `(cell & mask) > 0` ignores bit 31; a
   * cleared word that is not 0 is stored back, but a word that becomes 0 is
   * not stored, and the pack shrinks from its last cell whichever cell was
   * emptied. `None` stands for the loop that never ends.
   */
  function DeleteAsWritten(s: BitSet, e: Element): Option<BitSet>
    requires s.used <= |s.cells|
  {
    var c := e / 32;
    var m := SingleBit(e % 32);
    if c < s.used && Positive(And(Word(s, c), m)) then
      var next := And(Word(s, c), Not(m));
      if next == 0 then
        match Shrink(s.cells, s.used)
        case None => None
        case Some(size) => Some(BitSet(s.cells, size, s.count - 1))
      else Some(PackSet(s.(count := s.count - 1), c, next))
    else Some(s)
  }

  /**
   * Away from bit 31, and unless the cleared word becomes 0, `delete` as
   * written does what the corrected `Delete` does.
   */
  lemma DeleteAsWrittenAgrees(s: BitSet, e: Element)
    requires s.used <= |s.cells| && e % 32 != 31
    requires InSet(s, e) ==> And(Word(s, e / 32), Not(SingleBit(e % 32))) != 0
    ensures DeleteAsWritten(s, e) == Some(Delete(s, e))
  {
    SingleAnd(Word(s, e / 32), e % 32);
    SingleAndPositive(Word(s, e / 32), e % 32);
  }

  /** Trimming changes neither the elements nor their number. */
  lemma TrimKeeps(s: BitSet)
    requires Valid(s)
    ensures Valid(Trim(s)) && Contents(Trim(s)) == Contents(s)
  {
    var t := Trim(s);
    EmptyCells(s, t.used, s.used);
    SamePrefix(s, t, t.used);
  }

  /** The cells after `Delete` of a present element, before trimming. */
  lemma DeleteWords(s: BitSet, e: Element, i: nat)
    requires s.used <= |s.cells| && InSet(s, e)
    ensures PackSet(s.(count := s.count - 1), e / 32, And(Word(s, e / 32), Not(SingleBit(e % 32)))).used == s.used
    ensures Word(PackSet(s.(count := s.count - 1), e / 32, And(Word(s, e / 32), Not(SingleBit(e % 32)))), i) ==
      if i == e / 32 then And(Word(s, i), Not(SingleBit(e % 32))) else Word(s, i)
  {
    PackSetWord(s.(count := s.count - 1), e / 32, And(Word(s, e / 32), Not(SingleBit(e % 32))), i);
  }

  /** After `Delete(s, e)` the set holds exactly the elements it held before, except `e`. */
  lemma DeleteMembers(s: BitSet, e: Element, x: nat)
    requires Valid(s)
    ensures InSet(Delete(s, e), x) <==> InSet(s, x) && x != e
  {
    SingleAnd(Word(s, e / 32), e % 32);
    if InSet(s, e) {
      var cleared := PackSet(s.(count := s.count - 1), e / 32, And(Word(s, e / 32), Not(SingleBit(e % 32))));
      DeleteWords(s, e, x / 32);
      ClearSingle(Word(s, x / 32), e % 32, x % 32);
      var t := Trim(cleared);
      if t.used <= x / 32 < cleared.used {
        BitZero(x % 32);
      }
    }
  }

  /** `Delete` keeps the count right: one less exactly when `e` was present. */
  lemma DeleteCounts(s: BitSet, e: Element)
    requires Valid(s)
    ensures Valid(Delete(s, e))
    ensures Delete(s, e).count == s.count - (if InSet(s, e) then 1 else 0)
  {
    SingleAnd(Word(s, e / 32), e % 32);
    if InSet(s, e) {
      var c := e / 32;
      var cleared := PackSet(s.(count := s.count - 1), c, And(Word(s, c), Not(SingleBit(e % 32))));
      forall i: nat
        ensures Word(cleared, i) == if i == c then And(Word(s, i), Not(SingleBit(e % 32))) else Word(s, i)
      {
        DeleteWords(s, e, i);
      }
      OneCellChanged(s, cleared, c, s.used);
      ClearBitPopcount(Word(s, c), e % 32);
      TrimKeeps(cleared);
    }
  }

  /** The contract of `delete`: the contents lose `e`, nothing else changes, and the count follows. */
  lemma DeleteContents(s: BitSet, e: Element)
    requires Valid(s)
    ensures Valid(Delete(s, e))
    ensures forall x :: x in Contents(Delete(s, e)) <==> x in Contents(s) && x != e
    ensures Delete(s, e).count == s.count - (if e in Contents(s) then 1 else 0)
  {
    DeleteCounts(s, e);
    ContentsHas(s, e);
    forall x
      ensures x in Contents(Delete(s, e)) <==> x in Contents(s) && x != e
    {
      ContentsHas(s, x);
      ContentsHas(Delete(s, e), x);
      DeleteMembers(s, e, x);
    }
  }

  // ---------------------------------------------------------------------
  // get

  /** The decision tree pasted into `get`, branch for branch. */
  const GetTree: Tree :=
    Test(16,
      Test(24,
        Test(28, Test(30, Test(31, Leaf(31), Leaf(30)), Test(29, Leaf(29), Leaf(28))),
                 Test(26, Test(27, Leaf(27), Leaf(26)), Test(25, Leaf(25), Leaf(24)))),
        Test(20, Test(22, Test(23, Leaf(23), Leaf(22)), Test(21, Leaf(21), Leaf(20))),
                 Test(18, Test(19, Leaf(19), Leaf(18)), Test(17, Leaf(17), Leaf(16))))),
      Test(8,
        Test(12, Test(14, Test(15, Leaf(15), Leaf(14)), Test(13, Leaf(13), Leaf(12))),
                 Test(10, Test(11, Leaf(11), Leaf(10)), Test(9, Leaf(9), Leaf(8)))),
        Test(4, Test(6, Test(7, Leaf(7), Leaf(6)), Test(5, Leaf(5), Leaf(4))),
                Test(2, Test(3, Leaf(3), Leaf(2)), Test(1, Leaf(1), Leaf(0))))))

  /** The pasted tree is the one the generator builds for offset 0 and size 32. */
  lemma GetTreeGenerated()
    ensures Build(0, 32) == Ok(GetTree)
  {
  }

  /** Each test of the pasted tree splits its bit range as the selection proof needs. */
  lemma GetTreeSplits()
    ensures Emittable(GetTree) && Splits(GetTree, 0, WordBits)
  {
    GetTreeGenerated();
    BuildSplits(0, 32);
  }

  /**
   * The pasted tree run on one cell: the position of the bit of rank `rest`
   * (counting from 1); 0 for a rank below 1 and 31 for a rank past the last
   * set bit.
   */
  function RankedBit(bits: bv32, rest: int): (p: nat)
    ensures p < WordBits
    ensures 1 <= rest <= Popcount(bits) ==> IsSet(bits, p) && CountLow(bits, p) == rest - 1
    ensures rest <= 0 ==> p == 0
    ensures rest > Popcount(bits) ==> p == WordBits - 1
  {
    GetTreeSplits();
    if rest <= 0 then
      TreeLowest(GetTree, bits, rest);
      Eval(GetTree, bits, rest).value
    else if rest <= Popcount(bits) then
      TreeSelect(GetTree, bits, rest);
      Eval(GetTree, bits, rest).value
    else
      TreeHighest(GetTree, bits, rest);
      Eval(GetTree, bits, rest).value
  }

  /** The element of rank `k` lies in the cell where the prefix counts pass `k`. */
  lemma RankInCell(s: BitSet, cell: nat, k: nat, p: nat)
    requires Valid(s) && cell <= s.used && k < s.count
    requires Population(s, cell) <= k
    requires p < WordBits && IsSet(Word(s, cell), p) && CountLow(Word(s, cell), p) == k - Population(s, cell)
    ensures k < |Contents(s)| && Contents(s)[k] == 32 * cell + p
  {
    CellBelowUsed(s, cell, k);
    var i := ElementsAt(s, cell, s.used, p);
    assert i == k;
  }

  /** A rank below the size falls in a cell before `_used`. */
  lemma CellBelowUsed(s: BitSet, cell: nat, k: nat)
    requires Valid(s) && cell <= s.used && k < s.count && Population(s, cell) <= k
    ensures cell < s.used
  {
  }

  /**
   * The scan of `get`: walk the cells while the elements counted so far,
   * with those of the current cell, stay below `target`. It stops at the
   * cell where the running count reaches `target`.
   */
  method Scan(s: BitSet, target: int) returns (cell: nat, skipped: nat)
    requires Valid(s) && target <= s.count
    ensures cell <= s.used && skipped == Population(s, cell)
    ensures target <= skipped + Popcount(Word(s, cell))
    ensures cell > 0 ==> skipped < target
  {
    skipped := 0;
    cell := 0;
    var cellElements := Small(CountBits(Word(s, cell)));
    CountBitsIsPopcount(Word(s, cell));
    while skipped + cellElements < target
      invariant cell <= s.used
      invariant skipped == Population(s, cell)
      invariant cellElements == Popcount(Word(s, cell))
      invariant cell > 0 ==> skipped < target
      decreases s.used - cell
    {
      PopulationMonotone(s, cell + 1, s.used);
      cell := cell + 1;
      skipped := skipped + cellElements;
      cellElements := Small(CountBits(Word(s, cell)));
      CountBitsIsPopcount(Word(s, cell));
    }
  }

  /**
   * `get(index)` read as 0-based, as `Sequence.get` is meant: the guard is
   * `index >= size`, the scan runs while `skipped + cellElements <= index`,
   * and `rest` counts the wanted element itself (the `// + 1?` of the code).
   * The result is the element at `index` in increasing order, and 0 for an
   * index past the end or below 0 (the tree then answers bit 0 of cell 0).
   */
  method Get(s: BitSet, index: int) returns (r: nat)
    requires Valid(s)
    ensures 0 <= index < s.count ==> index < |Contents(s)| && r == Contents(s)[index]
    ensures !(0 <= index < s.count) ==> r == 0
  {
    if index >= s.count {
      return 0;
    }
    var cell, skipped := Scan(s, index + 1);
    var p := RankedBit(Word(s, cell), index - skipped + 1);
    r := cell * 32 + p;
    if 0 <= index {
      RankInCell(s, cell, index, p);
    }
  }

  /**
   * `get(index)` as written: the guard `index > size` and the scan
   * `skipped + cellElements < index` make the rank 1-based, so `get(k)`
   * answers the element at position `k - 1`, and `get(0)` is always 0.
   */
  method GetAsWritten(s: BitSet, index: int) returns (r: nat)
    requires Valid(s)
    ensures 1 <= index <= s.count ==> index - 1 < |Contents(s)| && r == Contents(s)[index - 1]
    ensures !(1 <= index <= s.count) ==> r == 0
  {
    if index > s.count {
      return 0;
    }
    var cell, skipped := Scan(s, index);
    var p := RankedBit(Word(s, cell), index - skipped);
    r := cell * 32 + p;
    if 0 < index {
      RankInCell(s, cell, index - 1, p);
    }
  }

  // ---------------------------------------------------------------------
  // min and max

  /** The first element of the increasing contents is the least. */
  lemma FirstIsLeast(s: BitSet)
    requires Valid(s) && s.count > 0
    ensures |Contents(s)| == s.count
    ensures forall x :: x in Contents(s) ==> Contents(s)[0] <= x
  {
    ElementsLength(s, s.used);
    ElementsIncreasing(s, s.used);
  }

  /** The last element of the increasing contents is the greatest. */
  lemma LastIsGreatest(s: BitSet)
    requires Valid(s) && s.count > 0
    ensures |Contents(s)| == s.count
    ensures forall x :: x in Contents(s) ==> x <= Contents(s)[s.count - 1]
  {
    ElementsLength(s, s.used);
    ElementsIncreasing(s, s.used);
  }

  /** `min` as `get(0)` with the 0-based `get`: the least element, 0 for an empty set. */
  method Min(s: BitSet) returns (r: nat)
    requires Valid(s)
    ensures s.count > 0 ==> r in Contents(s) && forall x :: x in Contents(s) ==> r <= x
    ensures s.count <= 0 ==> r == 0
  {
    r := Get(s, 0);
    if s.count > 0 {
      FirstIsLeast(s);
    }
  }

  /** `max` as `get(size - 1)` with the 0-based `get`: the greatest element, 0 for an empty set. */
  method Max(s: BitSet) returns (r: nat)
    requires Valid(s)
    ensures s.count > 0 ==> r in Contents(s) && forall x :: x in Contents(s) ==> x <= r
    ensures s.count <= 0 ==> r == 0
  {
    r := Get(s, s.count - 1);
    if s.count > 0 {
      LastIsGreatest(s);
    }
  }

  /** `min` as written: the 1-based `get(0)` is 0 whatever the set holds. */
  method MinAsWritten(s: BitSet) returns (r: nat)
    requires Valid(s)
    ensures r == 0
  {
    r := GetAsWritten(s, 0);
  }

  /**
   * `max` as written: the 1-based `get(size - 1)` answers the second
   * greatest element, strictly below the greatest, and 0 for a set of one.
   */
  method MaxAsWritten(s: BitSet) returns (r: nat)
    requires Valid(s)
    ensures s.count >= 2 ==> |Contents(s)| == s.count && r == Contents(s)[s.count - 2] && r < Contents(s)[s.count - 1]
    ensures s.count < 2 ==> r == 0
  {
    r := GetAsWritten(s, s.count - 1);
    if s.count >= 2 {
      ElementsLength(s, s.used);
      ElementsIncreasing(s, s.used);
    }
  }

  // ---------------------------------------------------------------------
  // Inputs on which the code as written and the corrected model part

  /** The words the examples below store, bit by bit. */
  lemma ExampleWords()
    ensures SingleBit(0) == 1 && SingleBit(1) == 2 && SingleBit(2) == 4 && Or(2, 4) == 6
    ensures Popcount(1) == 1 && Popcount(6) == 2
    ensures forall j: nat :: IsSet(1, j) <==> j == 0
    ensures forall j: nat :: IsSet(6, j) <==> j == 1 || j == 2
  {
    assert SingleBit(0) == 1 && SingleBit(1) == 2 && SingleBit(2) == 4;
    SingleBitPopcount(0);
    SingleBitBit(1, 2);
    SetBitPopcount(SingleBit(1), 2);
    forall j: nat
      ensures (IsSet(1, j) <==> j == 0) && (IsSet(6, j) <==> j == 1 || j == 2)
    {
      SingleBitBit(0, j);
      SingleBitBit(1, j);
      OrSingle(SingleBit(1), 2, j);
    }
  }

  /** `{31}`: the element is stored, yet `has(31)` answers false. */
  lemma HasAsWrittenCounterexample()
    ensures 31 in Contents(Add(New(32), 31)) && !HasAsWritten(Add(New(32), 31), 31)
  {
    NewEmpty(32);
    AddContents(New(32), 31);
    HasAsWrittenMissesSignBit(Add(New(32), 31), 31);
  }

  /** `{0, 32}`: deleting 0 as written keeps 0 and loses 32; the corrected delete keeps just 32. */
  lemma DeleteAsWrittenLosesNeighbour()
    ensures Valid(BitSet([1, 1], 2, 2)) && forall x :: x in Contents(BitSet([1, 1], 2, 2)) <==> x == 0 || x == 32
    ensures DeleteAsWritten(BitSet([1, 1], 2, 2), 0) == Some(BitSet([1, 1], 1, 1))
    ensures 0 in Contents(BitSet([1, 1], 1, 1)) && 32 !in Contents(BitSet([1, 1], 1, 1))
    ensures forall x :: x in Contents(Delete(BitSet([1, 1], 2, 2), 0)) <==> x == 32
  {
    ExampleWords();
    var s := BitSet([1, 1], 2, 2);
    assert Population(s, 2) == 2;
    forall x
      ensures x in Contents(s) <==> x == 0 || x == 32
    {
      ContentsHas(s, x);
    }
    ContentsHas(BitSet([1, 1], 1, 1), 0);
    ContentsHas(BitSet([1, 1], 1, 1), 32);
    DeleteContents(s, 0);
  }

  /** `{32}`: deleting 32 as written empties cell 1, and the shrinking loop never stops at cell 0. */
  lemma DeleteAsWrittenHangs()
    ensures Valid(BitSet([0, 1], 2, 1)) && forall x: nat :: x in Contents(BitSet([0, 1], 2, 1)) <==> x == 32
    ensures DeleteAsWritten(BitSet([0, 1], 2, 1), 32) == None
  {
    ExampleWords();
    var s := BitSet([0, 1], 2, 1);
    PopcountZero();
    assert Population(s, 2) == 1;
    forall x: nat
      ensures x in Contents(s) <==> x == 32
    {
      ContentsHas(s, x);
      BitZero(x % 32);
    }
  }

  /**
   * After `add(1)` and `clear()`, the buffer still holds bit 1: `add(2)` as
   * written reads it back and stores `{1, 2}` while counting one element;
   * the corrected add stores `{2}`.
   */
  lemma AddAsWrittenResurrects()
    ensures Clear(Add(New(32), 1)) == BitSet([2], 0, 0)
    ensures AddAsWritten(BitSet([2], 0, 0), 2) == BitSet([6], 1, 1)
    ensures !Valid(BitSet([6], 1, 1)) && forall x :: x in Contents(BitSet([6], 1, 1)) <==> x == 1 || x == 2
    ensures forall x :: x in Contents(Add(BitSet([2], 0, 0), 2)) <==> x == 2
  {
    ExampleWords();
    assert New(32).cells == [0];
    assert Add(New(32), 1).cells == [2];
    assert Population(BitSet([6], 1, 1), 1) == 2;
    forall x
      ensures x in Contents(BitSet([6], 1, 1)) <==> x == 1 || x == 2
    {
      ContentsHas(BitSet([6], 1, 1), x);
    }
    ContentsHas(BitSet([2], 0, 0), 2);
    AddContents(BitSet([2], 0, 0), 2);
    forall x
      ensures x !in Contents(BitSet([2], 0, 0))
    {
      ContentsHas(BitSet([2], 0, 0), x);
    }
  }
}

=== FILE: circular.dfy ===
/**
 * `CircularPackAdapter` of `sources/circular/CircularPackAdapter.ts`: a
 * circular buffer over a pack. The constructor sets the pack's size to its
 * capacity and every later operation keeps it there, so the pack is a
 * fixed row of `slots`. Position `i` of the buffer lives in slot
 * `(start + i) % capacity`; once the buffer is full, adding at one end
 * drops an element at the other. The wrapped pack is an `ArrayPack`, whose
 * `get` and `set` throw outside its size.
 */
module CircularPacks {
  import opened Outcomes
  import opened Sequences
  import opened Numbers
  import ArrayPacks

  datatype Circular<T> = Circular(slots: seq<T>, start: nat, size: nat, fill: T)

  /** At least one slot and no more elements than slots: the buffer can be read. */
  predicate Sized<T>(b: Circular<T>) {
    0 < |b.slots| && b.size <= |b.slots|
  }

  /** Readable, with the start inside the slots: every operation below keeps this. */
  predicate Valid<T>(b: Circular<T>) {
    Sized(b) && b.start < |b.slots|
  }

  /** The `capacity` getter: the capacity of the wrapped pack. */
  function Capacity<T>(b: Circular<T>): nat {
    |b.slots|
  }

  /** The slot of position `i`: `(start + i) % capacity`. */
  function Slot<T>(b: Circular<T>, i: nat): (r: nat)
    requires 0 < |b.slots|
    ensures r < |b.slots|
  {
    (b.start + i) % |b.slots|
  }

  /** What position `i` reads from its slot, whether or not it holds an element. */
  function At<T>(b: Circular<T>, i: nat): T
    requires 0 < |b.slots|
  {
    b.slots[Slot(b, i)]
  }

  /** The first `n` positions, read from their slots. */
  function View<T>(b: Circular<T>, n: nat): (r: seq<T>)
    requires 0 < |b.slots|
    ensures |r| == n && forall i :: 0 <= i < n ==> r[i] == At(b, i)
  {
    seq(n, i requires 0 <= i < n => At(b, i))
  }

  /** What the buffer holds, oldest first: what `values()` yields. */
  function Contents<T>(b: Circular<T>): seq<T>
    requires Sized(b)
  {
    View(b, b.size)
  }

  /** Distinct positions below the capacity live in distinct slots. */
  lemma SlotsDistinct<T>(b: Circular<T>, i: nat, j: nat)
    requires 0 < |b.slots| && i < |b.slots| && j < |b.slots| && i != j
    ensures Slot(b, i) != Slot(b, j)
  {
    if Slot(b, i) == Slot(b, j) {
      if i < j {
        var k := SameResidue(b.start + i, b.start + j, |b.slots|);
        MultipleAtLeastOrZero(k, |b.slots|, j - i);
      } else {
        var k := SameResidue(b.start + j, b.start + i, |b.slots|);
        MultipleAtLeastOrZero(k, |b.slots|, i - j);
      }
    }
  }

  /** Position `capacity + i` wraps round to the slot of position `i`. */
  lemma SlotWraps<T>(b: Circular<T>, i: nat)
    requires 0 < |b.slots|
    ensures Slot(b, |b.slots| + i) == Slot(b, i)
  {
    ModShift(b.start + i, 1, |b.slots|);
  }

  /** Moving the start `k` slots on turns position `i` into position `k + i`. */
  lemma SlotAdvanced<T>(b: Circular<T>, k: nat, i: nat)
    requires 0 < |b.slots|
    ensures Slot(b.(start := (b.start + k) % |b.slots|), i) == Slot(b, k + i)
  {
    ModAddMod(b.start + k, i, |b.slots|);
  }

  /**
   * `elements.set((start + k) % capacity, value)` for a position `k` below
   * the capacity: position `k` reads `value`, every other position is
   * untouched.
   */
  function Write<T>(b: Circular<T>, k: nat, value: T): (r: Circular<T>)
    requires 0 < |b.slots| && k < |b.slots|
    ensures |r.slots| == |b.slots| && r.start == b.start && r.size == b.size && r.fill == b.fill
    ensures At(r, k) == value
    ensures forall i :: 0 <= i < |b.slots| && i != k ==> At(r, i) == At(b, i)
  {
    SlotsDistinctFrom(b, k);
    b.(slots := b.slots[Slot(b, k) := value])
  }

  lemma SlotsDistinctFrom<T>(b: Circular<T>, k: nat)
    requires 0 < |b.slots| && k < |b.slots|
    ensures forall i :: 0 <= i < |b.slots| && i != k ==> Slot(b, i) != Slot(b, k)
  {
    forall i | 0 <= i < |b.slots| && i != k
      ensures Slot(b, i) != Slot(b, k)
    {
      SlotsDistinct(b, i, k);
    }
  }

  /** Growing the size by one adds the next position to the elements. */
  lemma Grown<T>(b: Circular<T>, value: T)
    requires Sized(b) && b.size < |b.slots| && b.slots[Slot(b, b.size)] == value
    ensures Contents(b.(size := b.size + 1)) == Contents(b) + [value]
  {
  }

  /** A write below the size changes that one element; a write at or past it leaves the elements alone. */
  lemma WrittenContents<T>(b: Circular<T>, k: nat, value: T)
    requires Sized(b) && k < |b.slots|
    ensures Sized(Write(b, k, value))
    ensures Contents(Write(b, k, value)) == if k < b.size then Contents(b)[k := value] else Contents(b)
  {
  }

  // ---------------------------------------------------------------------
  // get, push, unshift, clear

  /** `get(index)`: the element at `index`, and an error outside `[0, size)`. */
  function Get<T>(b: Circular<T>, index: int): (r: Result<T>)
    requires Valid(b)
    ensures r.Ok? <==> 0 <= index < b.size
    ensures r.Err? ==> r.failure == IllegalSequenceIndex
    ensures r.Ok? ==> r.value == Contents(b)[index]
  {
    if index < 0 || index >= b.size then Err(IllegalSequenceIndex)
    else Ok(b.slots[(b.start + index) % |b.slots|])
  }

  /**
   * `push(value)`: appends `value`. On a full buffer the value overwrites
   * the oldest element and the start moves on, so the size never exceeds
   * the capacity.
   */
  function Push<T>(b: Circular<T>, value: T): (r: Circular<T>)
    requires Valid(b)
    ensures Valid(r) && Capacity(r) == Capacity(b) && r.size == Min(b.size + 1, Capacity(b))
    ensures Contents(r) == if b.size < Capacity(b) then Contents(b) + [value] else Contents(b)[1..] + [value]
  {
    var n := |b.slots|;
    if b.size < n then
      var w := Write(b, b.size, value);
      WrittenContents(b, b.size, value);
      Grown(w, value);
      w.(size := b.size + 1)
    else
      var written := b.(slots := b.slots[b.start := value]);
      var r := written.(start := (b.start + 1) % n);
      assert Contents(r) == Contents(b)[1..] + [value] by {
        EuclideanUnique(b.start, n, 0, b.start);
        SlotsDistinctFrom(b, 0);
        forall i | 0 <= i < n
          ensures Contents(r)[i] == (Contents(b)[1..] + [value])[i]
        {
          SlotAdvanced(written, 1, i);
          if i == n - 1 {
            SlotWraps(b, 0);
          }
        }
      }
      r
  }

  /**
   * `unshift(value)`: prepends `value` by moving the start one slot back.
   * On a full buffer the value overwrites the newest element.
   */
  function Unshift<T>(b: Circular<T>, value: T): (r: Circular<T>)
    requires Valid(b)
    ensures Valid(r) && Capacity(r) == Capacity(b) && r.size == Min(b.size + 1, Capacity(b))
    ensures Contents(r) == [value] + if b.size < Capacity(b) then Contents(b) else Contents(b)[..b.size - 1]
  {
    var n := |b.slots|;
    var start := if b.start - 1 < 0 then b.start - 1 + n else b.start - 1;
    var written := b.(slots := b.slots[start := value], start := start);
    var r := if b.size < n then written.(size := b.size + 1) else written;
    Prepended(b, value, start, r.size);
    r
  }

  /** Writing `value` one slot before the start and moving the start there puts `value` in front. */
  lemma Prepended<T>(b: Circular<T>, value: T, start: nat, size: nat)
    requires Valid(b) && start == (if b.start == 0 then |b.slots| - 1 else b.start - 1)
    requires 0 < size <= b.size + 1 && size <= |b.slots|
    ensures Contents(b.(slots := b.slots[start := value], start := start, size := size)) == [value] + Contents(b)[..size - 1]
  {
    var n := |b.slots|;
    var r := b.(slots := b.slots[start := value], start := start, size := size);
    var back := b.(start := start);
    assert start == Slot(b, n - 1) by {
      if b.start == 0 {
        EuclideanUnique(n - 1, n, 0, n - 1);
      } else {
        EuclideanUnique(b.start - 1 + n, n, 1, b.start - 1);
      }
    }
    EuclideanUnique(start, n, 0, start);
    SlotsDistinctFrom(b, n - 1);
    forall i | 1 <= i < size
      ensures Contents(r)[i] == Contents(b)[i - 1]
    {
      assert Slot(back, i) == Slot(b, i - 1) by {
        if b.start == 0 {
          assert back.start + i == n + (i - 1);
          SlotWraps(b, i - 1);
        }
      }
    }
  }

  /** `clear()`: the buffer is emptied and its start reset; the slots keep their capacity. */
  function Clear<T>(b: Circular<T>): (r: Circular<T>)
    requires Valid(b)
    ensures Valid(r) && Contents(r) == [] && Capacity(r) == Capacity(b) && r.start == 0
  {
    b.(start := 0, size := 0)
  }

  // ---------------------------------------------------------------------
  // delete, pop, shift

  /**
   * `delete(startOrEnd, endOrStart = startOrEnd + 1)`: the elements after
   * the range move down over it, one `set(cursor - offset, get(cursor))`
   * at a time, and the size drops by the range's length. The start does not
   * move. A range reaching below 0 or past the size throws.
   */
  function Delete<T>(b: Circular<T>, startOrEnd: int, endOrStart: int := startOrEnd + 1): (r: Result<Circular<T>>)
    requires Valid(b)
    ensures r.Ok? <==> 0 <= Lower(startOrEnd, endOrStart) && Upper(startOrEnd, endOrStart) <= b.size
    ensures r.Err? ==> r.failure == IllegalSubsequence
    ensures r.Ok? ==> Valid(r.value) && Capacity(r.value) == Capacity(b) && r.value.start == b.start
    ensures r.Ok? ==> (Contents(r.value) ==
      Contents(b)[..Lower(startOrEnd, endOrStart)] + Contents(b)[Upper(startOrEnd, endOrStart)..])
  {
    var start, end := Lower(startOrEnd, endOrStart), Upper(startOrEnd, endOrStart);
    if start < 0 || start > b.size || end > b.size then Err(IllegalSubsequence)
    else
      var moved := MoveDown(b, end, end - start);
      MovedDown(b, moved, start, end);
      Ok(moved.(size := b.size - (end - start)))
  }

  /** After the loop of `delete`, the first `size - (end - start)` positions hold the buffer without the range. */
  lemma MovedDown<T>(b: Circular<T>, moved: Circular<T>, start: nat, end: nat)
    requires Valid(b) && Valid(moved) && start <= end <= b.size == moved.size
    requires forall i :: 0 <= i < start ==> Contents(moved)[i] == Contents(b)[i]
    requires forall i :: start <= i < b.size - (end - start) ==> Contents(moved)[i] == Contents(b)[i + (end - start)]
    ensures Contents(moved.(size := b.size - (end - start))) == Contents(b)[..start] + Contents(b)[end..]
  {
    var r := moved.(size := b.size - (end - start));
    assert forall i :: 0 <= i < r.size ==> Contents(r)[i] == Contents(moved)[i];
  }

  /**
   * The loop of `delete` from `cursor` on: the element at each position
   * from `cursor` up to the size is copied `offset` positions down. Within
   * the buffer, the single-index `set` it calls is a plain write.
   */
  function MoveDown<T>(b: Circular<T>, cursor: nat, offset: nat): (r: Circular<T>)
    requires Valid(b) && offset <= cursor <= b.size
    ensures Valid(r) && |r.slots| == |b.slots| && r.start == b.start && r.size == b.size && r.fill == b.fill
    ensures forall i :: 0 <= i < cursor - offset ==> Contents(r)[i] == Contents(b)[i]
    ensures forall i :: cursor - offset <= i < b.size - offset ==> Contents(r)[i] == Contents(b)[i + offset]
    decreases b.size - cursor
  {
    if cursor >= b.size then b
    else
      var moved := Write(b, cursor - offset, b.slots[Slot(b, cursor)]);
      WrittenContents(b, cursor - offset, b.slots[Slot(b, cursor)]);
      MoveDown(moved, cursor + 1, offset)
  }

  /**
   * `pop()`: the last element and the buffer without it; an empty buffer
   * throws.
   */
  function Pop<T>(b: Circular<T>): (r: Result<(T, Circular<T>)>)
    requires Valid(b)
    ensures r.Ok? <==> b.size >= 1
    ensures r.Err? ==> r.failure == EmptyCollection
    ensures r.Ok? ==> (r.value.0 == Contents(b)[b.size - 1] && Valid(r.value.1)
      && Capacity(r.value.1) == Capacity(b) && Contents(r.value.1) == Contents(b)[..b.size - 1])
  {
    if b.size < 1 then Err(EmptyCollection)
    else
      var last := b.size - 1;
      var result := Get(b, last);
      var rest := Delete(b, last, last + 1);
      Ok((result.value, rest.value))
  }

  /**
   * `shift()`: the first element and the buffer without it; an empty
   * buffer throws. The remaining elements move down one position.
   */
  function Shift<T>(b: Circular<T>): (r: Result<(T, Circular<T>)>)
    requires Valid(b)
    ensures r.Ok? <==> b.size >= 1
    ensures r.Err? ==> r.failure == EmptyCollection
    ensures r.Ok? ==> (r.value.0 == Contents(b)[0] && Valid(r.value.1) && r.value.1.start == b.start
      && Capacity(r.value.1) == Capacity(b) && Contents(r.value.1) == Contents(b)[1..])
  {
    if b.size < 1 then Err(EmptyCollection)
    else
      var result := Get(b, 0);
      var rest := Delete(b, 0, 1);
      Ok((result.value, rest.value))
  }

  // ---------------------------------------------------------------------
  // reallocate

  /**
   * The slots after the wrapped pack's `rotate(offset)`, `reallocate(capacity)`
   * and `size = capacity`: the rotated slots, cut or padded with the fill
   * value to the new capacity.
   */
  function Realigned<T>(b: Circular<T>, capacity: nat, offset: int): (slots: seq<T>)
    requires Valid(b)
    ensures |slots| == capacity
    ensures forall i :: 0 <= i < Min(|b.slots|, capacity) ==> slots[i] == ArrayPacks.Rotated(b.slots, offset)[i]
    ensures forall i :: |b.slots| <= i < capacity ==> slots[i] == b.fill
  {
    var pack := ArrayPacks.Pack(ArrayPacks.Rotated(b.slots, offset), |b.slots|, b.fill);
    ArrayPacks.Contents(ArrayPacks.Resize(ArrayPacks.Reallocate(pack, capacity), capacity))
  }

  /**
   * The rotation that brings the most recent `min(size, capacity)` elements
   * to the front of the slots: the first kept element, at `start + (size -
   * capacity)` when the buffer is cut, moves to slot 0.
   */
  function FrontOffset<T>(b: Circular<T>, capacity: nat): int {
    if b.size > capacity then -(b.start as int) - (b.size as int - capacity) else -(b.start as int)
  }

  /** The rotation `reallocate` needs brings the kept elements, in order, to the front of the slots. */
  lemma RotatedToFront<T>(b: Circular<T>, capacity: nat)
    requires Valid(b)
    ensures forall i :: 0 <= i < Min(b.size, capacity) ==>
      ArrayPacks.Rotated(b.slots, FrontOffset(b, capacity))[i] == Contents(b)[b.size - Min(b.size, capacity) + i]
  {
    var offset := FrontOffset(b, capacity);
    forall i | 0 <= i < Min(b.size, capacity)
      ensures ArrayPacks.Rotated(b.slots, offset)[i] == Contents(b)[b.size - Min(b.size, capacity) + i]
    {
      var drop := b.size - Min(b.size, capacity);
      assert i - offset == b.start + (drop + i);
      NonNegativeRemainderIsModulo(i - offset, |b.slots|);
      assert ArrayPacks.Rotated(b.slots, offset)[i] == b.slots[NonNegativeRemainder(i - offset, |b.slots|)];
    }
  }

  /**
   * `reallocate(capacity)`, corrected: the buffer keeps its most recent
   * `min(size, capacity)` elements, in order, from slot 0, and the start is
   * reset to 0.
   */
  function Reallocate<T>(b: Circular<T>, capacity: nat): (r: Circular<T>)
    requires Valid(b) && capacity > 0
    ensures Valid(r) && Capacity(r) == capacity && r.size == Min(b.size, capacity) && r.fill == b.fill
    ensures Contents(r) == Contents(b)[b.size - r.size..]
  {
    var r := Circular(Realigned(b, capacity, FrontOffset(b, capacity)), 0, Min(b.size, capacity), b.fill);
    RotatedToFront(b, capacity);
    FromSlotZero(r);
    r
  }

  /** A buffer whose start is 0 holds its elements in slot order. */
  lemma FromSlotZero<T>(b: Circular<T>)
    requires Sized(b) && b.start == 0
    ensures Contents(b) == b.slots[..b.size]
  {
    forall i | 0 <= i < b.size
      ensures Slot(b, i) == i
    {
      EuclideanUnique(i, |b.slots|, 0, i);
    }
  }

  /**
   * The rotation `reallocate` applies as written, `-_start - (capacity -
   * _size)` when the buffer is cut: the sign of the dropped count is
   * reversed.
   */
  function WrittenOffset<T>(b: Circular<T>, capacity: nat): int {
    if b.size > capacity then -(b.start as int) - (capacity as int - b.size) else -(b.start as int)
  }

  /**
   * `reallocate(capacity)` as written: the wrapped pack is rotated by
   * `WrittenOffset` and `_start` keeps its old value.
   */
  function ReallocateAsWritten<T>(b: Circular<T>, capacity: nat): (r: Circular<T>)
    requires Valid(b) && capacity > 0
    ensures Sized(r) && Capacity(r) == capacity && r.size == Min(b.size, capacity) && r.start == b.start
    ensures b.start == 0 && b.size <= capacity ==> r == Reallocate(b, capacity)
  {
    Circular(Realigned(b, capacity, WrittenOffset(b, capacity)), b.start, Min(b.size, capacity), b.fill)
  }

  /**
   * Cutting `[1, 2, 3]` to two elements keeps `[3, 1]` as written, where the
   * most recent two are `[2, 3]`.
   */
  lemma ReallocateAsWrittenReordersCut()
    ensures Contents(Circular([1, 2, 3], 0, 3, 0)) == [1, 2, 3]
    ensures Contents(ReallocateAsWritten(Circular([1, 2, 3], 0, 3, 0), 2)) == [3, 1]
    ensures Contents(Reallocate(Circular([1, 2, 3], 0, 3, 0), 2)) == [2, 3]
  {
    var b := Circular([1, 2, 3], 0, 3, 0);
    FromSlotZero(b);
    assert b.slots[..3] == [1, 2, 3];
    assert NonNegativeRemainder(-1, 3) == 2 && NonNegativeRemainder(0, 3) == 0;
    assert ArrayPacks.Rotated(b.slots, 1)[0] == 3 && ArrayPacks.Rotated(b.slots, 1)[1] == 1;
    var r := ReallocateAsWritten(b, 2);
    assert r.slots == [3, 1];
    FromSlotZero(r);
  }

  /**
   * Growing the buffer whose slots are `[2, 1]` from slot 1, holding `[1,
   * 2]`, leaves `[2, 0]` as written: the start still points at slot 1.
   */
  lemma ReallocateAsWrittenKeepsStart()
    ensures Contents(Circular([2, 1], 1, 2, 0)) == [1, 2]
    ensures Contents(ReallocateAsWritten(Circular([2, 1], 1, 2, 0), 3)) == [2, 0]
    ensures Contents(Reallocate(Circular([2, 1], 1, 2, 0), 3)) == [1, 2]
  {
    var b := Circular([2, 1], 1, 2, 0);
    assert NonNegativeRemainder(1, 2) == 1 && NonNegativeRemainder(2, 2) == 0;
    assert ArrayPacks.Rotated(b.slots, -1)[0] == 1 && ArrayPacks.Rotated(b.slots, -1)[1] == 2;
    var r := ReallocateAsWritten(b, 3);
    assert r.slots == [1, 2, 0];
    assert Slot(r, 0) == 1 && Slot(r, 1) == 2;
  }

  // ---------------------------------------------------------------------
  // set

  /**
   * `elements.set((start + k) % capacity, value)` for every position `k` in
   * `[low, high)`: those positions read `value`, the others are untouched.
   */
  function Fill<T>(b: Circular<T>, low: nat, high: nat, value: T): (r: Circular<T>)
    requires 0 < |b.slots| && high <= |b.slots|
    ensures |r.slots| == |b.slots| && r.start == b.start && r.size == b.size && r.fill == b.fill
    ensures forall i :: low <= i < high ==> At(r, i) == value
    ensures forall i :: 0 <= i < |b.slots| && !(low <= i < high) ==> At(r, i) == At(b, i)
    decreases high - low
  {
    if low >= high then b
    else Fill(Write(b, low, value), low + 1, high, value)
  }

  /** `if (end > capacity) this.reallocate(end)`: a buffer too small for `end` grows to exactly `end` slots. */
  function Grow<T>(b: Circular<T>, end: nat): (r: Circular<T>)
    requires Valid(b)
    ensures Valid(r) && Capacity(r) == Max(Capacity(b), end) && r.size == b.size && r.fill == b.fill
    ensures Contents(r) == Contents(b)
  {
    if end > |b.slots| then Reallocate(b, end) else b
  }

  /**
   * `set(startOrEnd, endOrStart, value)`: the buffer grows when the range
   * ends past its capacity; the gap between the size and the range takes
   * the filling value, the range takes `value`, and the size becomes the
   * larger of the size and the upper bound. A negative bound throws.
   */
  function SetRange<T>(b: Circular<T>, startOrEnd: int, endOrStart: int, value: T): (r: Result<Circular<T>>)
    requires Valid(b)
    ensures r.Ok? <==> startOrEnd >= 0 && endOrStart >= 0
    ensures r.Err? ==> r.failure == NegativeSequenceIndex
    ensures r.Ok? ==> Valid(r.value) && r.value.size == Max(b.size, Upper(startOrEnd, endOrStart))
    ensures r.Ok? ==> Capacity(r.value) == Max(Capacity(b), Upper(startOrEnd, endOrStart))
    ensures r.Ok? ==> forall i :: 0 <= i < r.value.size ==> (Contents(r.value)[i] ==
      if Lower(startOrEnd, endOrStart) <= i < Upper(startOrEnd, endOrStart) then value
      else if i < b.size then Contents(b)[i] else b.fill)
  {
    if startOrEnd < 0 || endOrStart < 0 then Err(NegativeSequenceIndex)
    else
      var start: nat, end: nat := Lower(startOrEnd, endOrStart), Upper(startOrEnd, endOrStart);
      var grown := Grow(b, end);
      var written := Fill(Fill(grown, b.size, start, b.fill), start, end, value);
      FilledContents(b, grown, written, start, end, value);
      Ok(written.(size := Max(b.size, end)))
  }

  /** The two loops of `set` leave the elements `SetRange` promises. */
  lemma FilledContents<T>(b: Circular<T>, grown: Circular<T>, written: Circular<T>, start: nat, end: nat, value: T)
    requires Valid(b) && Valid(grown) && start <= end <= |grown.slots|
    requires grown.size == b.size && grown.fill == b.fill && Contents(grown) == Contents(b)
    requires written == Fill(Fill(grown, b.size, start, b.fill), start, end, value)
    ensures Valid(written.(size := Max(b.size, end)))
    ensures forall i :: 0 <= i < Max(b.size, end) ==> (Contents(written.(size := Max(b.size, end)))[i] ==
      if start <= i < end then value else if i < b.size then Contents(b)[i] else b.fill)
  {
    var n := |grown.slots|;
    var r := written.(size := Max(b.size, end));
    forall i | 0 <= i < Max(b.size, end)
      ensures Contents(r)[i] == if start <= i < end then value else if i < b.size then Contents(b)[i] else b.fill
    {
      assert Contents(r)[i] == At(written, i);
      if i < b.size {
        assert Contents(grown)[i] == At(grown, i);
      }
    }
  }

  /**
   * `set(index, value)`: the range `[index, index + 1)`. Below the size one
   * element changes; at or past it the buffer grows with filling values up
   * to `index` and ends with `value`.
   */
  function Set<T>(b: Circular<T>, index: int, value: T): (r: Result<Circular<T>>)
    requires Valid(b)
    ensures r.Ok? <==> index >= 0
    ensures r.Err? ==> r.failure == NegativeSequenceIndex
    ensures r.Ok? ==> Valid(r.value) && Capacity(r.value) == Max(Capacity(b), index + 1)
    ensures r.Ok? ==> (Contents(r.value) ==
      if index < b.size then Contents(b)[index := value]
      else Contents(b) + seq(index - b.size, _ => b.fill) + [value])
  {
    var r := SetRange(b, index, index + 1, value);
    if r.Ok? then
      assert Contents(r.value) == if index < b.size then Contents(b)[index := value]
        else Contents(b) + seq(index - b.size, _ => b.fill) + [value];
      r
    else r
  }

  /** A value written by `set` is what `get` reads back; the other elements are untouched. */
  lemma GetAfterSet<T>(b: Circular<T>, index: nat, value: T, other: int)
    requires Valid(b)
    ensures Get(Set(b, index, value).value, index) == Ok(value)
    ensures 0 <= other < b.size && other != index ==> Get(Set(b, index, value).value, other) == Get(b, other)
  {
    var q := Set(b, index, value).value;
    if index >= b.size {
      assert Contents(q)[index] == value;
    }
  }

  /**
   * `if (end > capacity) this.reallocate(end)` as `set` is written: the
   * growth goes through `reallocate` as written, so `_start` is kept.
   */
  function GrowAsWritten<T>(b: Circular<T>, end: nat): (r: Circular<T>)
    requires Valid(b)
    ensures Valid(r) && Capacity(r) == Max(Capacity(b), end) && r.size == b.size && r.fill == b.fill
    ensures r.start == b.start
    ensures end <= Capacity(b) || b.start == 0 ==> r == Grow(b, end)
  {
    if end > |b.slots| then ReallocateAsWritten(b, end) else b
  }

  /**
   * `set(startOrEnd, endOrStart, value)` as written, over `reallocate` as
   * written. The range and the gap before it are written as `SetRange`
   * writes them; the elements kept from before agree with `SetRange` only
   * when the buffer does not grow or starts at slot 0.
   */
  function SetRangeAsWritten<T>(b: Circular<T>, startOrEnd: int, endOrStart: int, value: T): (r: Result<Circular<T>>)
    requires Valid(b)
    ensures r.Ok? <==> startOrEnd >= 0 && endOrStart >= 0
    ensures r.Err? ==> r.failure == NegativeSequenceIndex
    ensures r.Ok? ==> Valid(r.value) && r.value.size == Max(b.size, Upper(startOrEnd, endOrStart))
    ensures r.Ok? ==> Capacity(r.value) == Max(Capacity(b), Upper(startOrEnd, endOrStart))
    ensures r.Ok? ==> forall i :: Lower(startOrEnd, endOrStart) <= i < Upper(startOrEnd, endOrStart) ==>
      i < r.value.size && Contents(r.value)[i] == value
    ensures r.Ok? ==> forall i :: b.size <= i < Lower(startOrEnd, endOrStart) ==>
      i < r.value.size && Contents(r.value)[i] == b.fill
    ensures Upper(startOrEnd, endOrStart) <= Capacity(b) || b.start == 0 ==>
      r == SetRange(b, startOrEnd, endOrStart, value)
  {
    if startOrEnd < 0 || endOrStart < 0 then Err(NegativeSequenceIndex)
    else
      var start: nat, end: nat := Lower(startOrEnd, endOrStart), Upper(startOrEnd, endOrStart);
      var grown := GrowAsWritten(b, end);
      var written := Fill(Fill(grown, b.size, start, b.fill), start, end, value);
      FilledRange(b, grown, written, start, end, value);
      Ok(written.(size := Max(b.size, end)))
  }

  /** The two loops of `set` write the range and the gap before it, whatever the growth did. */
  lemma FilledRange<T>(b: Circular<T>, grown: Circular<T>, written: Circular<T>, start: nat, end: nat, value: T)
    requires Valid(b) && Valid(grown) && start <= end <= |grown.slots| && grown.size == b.size
    requires written == Fill(Fill(grown, b.size, start, b.fill), start, end, value)
    ensures Valid(written.(size := Max(b.size, end)))
    ensures forall i :: start <= i < end ==> Contents(written.(size := Max(b.size, end)))[i] == value
    ensures forall i :: b.size <= i < start ==> Contents(written.(size := Max(b.size, end)))[i] == b.fill
  {
    var r := written.(size := Max(b.size, end));
    assert forall i :: 0 <= i < r.size ==> Contents(r)[i] == At(written, i);
  }

  /**
   * `set(index, value)` as written: the value is read back at `index` and
   * the gap before it holds filling values, but growing a buffer whose
   * start is not slot 0 scrambles the elements it held.
   */
  function SetAsWritten<T>(b: Circular<T>, index: int, value: T): (r: Result<Circular<T>>)
    requires Valid(b)
    ensures r.Ok? <==> index >= 0
    ensures r.Err? ==> r.failure == NegativeSequenceIndex
    ensures r.Ok? ==> Valid(r.value) && Capacity(r.value) == Max(Capacity(b), index + 1)
    ensures r.Ok? ==> r.value.size == Max(b.size, index + 1) && Get(r.value, index) == Ok(value)
    ensures r.Ok? ==> forall i :: b.size <= i < index ==> Get(r.value, i) == Ok(b.fill)
    ensures index < Capacity(b) || b.start == 0 ==> r == Set(b, index, value)
  {
    SetRangeAsWritten(b, index, index + 1, value)
  }

  /**
   * Setting position 2 of the buffer whose slots are `[2, 1]` from slot 1,
   * holding `[1, 2]`, leaves `[2, 0, 3]` as written; the corrected `set`
   * leaves `[1, 2, 3]`.
   */
  lemma SetAsWrittenKeepsStart()
    ensures Contents(Circular([2, 1], 1, 2, 0)) == [1, 2]
    ensures SetAsWritten(Circular([2, 1], 1, 2, 0), 2, 3).Ok?
    ensures Contents(SetAsWritten(Circular([2, 1], 1, 2, 0), 2, 3).value) == [2, 0, 3]
    ensures Contents(Set(Circular([2, 1], 1, 2, 0), 2, 3).value) == [1, 2, 3]
  {
    var b := Circular([2, 1], 1, 2, 0);
    ReallocateAsWrittenKeepsStart();
    var grown := ReallocateAsWritten(b, 3);
    assert grown.slots == [1, 2, 0] by {
      assert NonNegativeRemainder(1, 2) == 1 && NonNegativeRemainder(2, 2) == 0;
      assert ArrayPacks.Rotated(b.slots, -1)[0] == 1 && ArrayPacks.Rotated(b.slots, -1)[1] == 2;
    }
    assert GrowAsWritten(b, 3) == grown;
    assert Slot(grown, 2) == 0;
    var w := Write(grown, 2, 3);
    assert w.slots == [3, 2, 0];
    assert Fill(grown, 2, 2, 0) == grown;
    assert Fill(w, 3, 3, 3) == w;
    assert Fill(grown, 2, 3, 3) == w;
    var r := Circular([3, 2, 0], 1, 3, 0);
    assert r == w.(size := 3);
    assert SetRangeAsWritten(b, 2, 3, 3) == Ok(r);
    assert Slot(r, 0) == 1 && Slot(r, 1) == 2 && Slot(r, 2) == 0;
  }

  // ---------------------------------------------------------------------
  // insert

  /**
   * The loop of `insert`: for `cursor` from `top - 1` down to `index`, the
   * element at `cursor` is copied one position up, so positions `index + 1`
   * to `top` take what was one below them.
   */
  function MoveUp<T>(b: Circular<T>, index: nat, top: nat): (r: Circular<T>)
    requires 0 < |b.slots| && index <= top < |b.slots|
    ensures |r.slots| == |b.slots| && r.start == b.start && r.size == b.size && r.fill == b.fill
    ensures forall i :: index < i <= top ==> At(r, i) == At(b, i - 1)
    ensures forall i :: 0 <= i < |b.slots| && !(index < i <= top) ==> At(r, i) == At(b, i)
    decreases top
  {
    if top <= index then b
    else MoveUp(Write(b, top, At(b, top - 1)), index, top - 1)
  }

  /** Insertion below the size into a buffer with room: the tail moves up and `value` takes its place. */
  function InsertBelow<T>(b: Circular<T>, index: nat, value: T): (r: Circular<T>)
    requires Valid(b) && index < b.size < |b.slots|
    ensures Valid(r) && Capacity(r) == Capacity(b) && r.start == b.start && r.fill == b.fill
    ensures Contents(r) == Contents(b)[..index] + [value] + Contents(b)[index..]
  {
    var w := Write(MoveUp(b, index, b.size), index, value);
    InsertedContents(b, w, index, value);
    w.(size := b.size + 1)
  }

  /** Positions reading as the insertion, with the size grown by one, hold the insertion. */
  lemma InsertedContents<T>(b: Circular<T>, w: Circular<T>, index: nat, value: T)
    requires Valid(b) && index < b.size < |b.slots| && |w.slots| == |b.slots| && w.start == b.start
    requires At(w, index) == value
    requires forall i :: 0 <= i < index ==> At(w, i) == At(b, i)
    requires forall i :: index < i <= b.size ==> At(w, i) == At(b, i - 1)
    ensures Contents(w.(size := b.size + 1)) == Contents(b)[..index] + [value] + Contents(b)[index..]
  {
    var r := w.(size := b.size + 1);
    var c, d := Contents(b), Contents(r);
    forall i | 0 <= i < b.size + 1
      ensures d[i] == At(w, i)
    {
      assert Slot(r, i) == Slot(w, i);
    }
    InsertedAt(c, index, value, d);
  }

  /**
   * `insert(index, value)`, corrected: at or past the size it is the
   * corrected `set(index, value)`; below it the tail moves one position up
   * and `value` takes position `index`. On a full buffer the value is
   * inserted and then the oldest element is dropped, so inserting at 0
   * into a full buffer leaves it as it is. A negative index throws, as the
   * list contract demands.
   */
  function Insert<T>(b: Circular<T>, index: int, value: T): (r: Result<Circular<T>>)
    requires Valid(b)
    ensures r.Ok? <==> index >= 0
    ensures r.Err? ==> r.failure == NegativeSequenceIndex
    ensures index >= b.size ==> r == Set(b, index, value)
    ensures r.Ok? && index < b.size ==> Valid(r.value) && Capacity(r.value) == Capacity(b)
    ensures r.Ok? && index < b.size < Capacity(b) ==>
      Contents(r.value) == Contents(b)[..index] + [value] + Contents(b)[index..]
    ensures r.Ok? && index < b.size == Capacity(b) ==>
      Contents(r.value) == (Contents(b)[..index] + [value] + Contents(b)[index..])[1..]
  {
    if index < 0 then Err(NegativeSequenceIndex)
    else if index >= b.size then Set(b, index, value)
    else if b.size < |b.slots| then Ok(InsertBelow(b, index, value))
    else if index == 0 then
      assert (Contents(b)[..0] + [value] + Contents(b)[0..])[1..] == Contents(b);
      Ok(b)
    else
      var shifted := Shift(b).value.1;
      InsertedThenDropped(Contents(b), index, value);
      Ok(InsertBelow(shifted, index - 1, value))
  }

  /**
   * The loop of `insert` as written, on the wrapped pack's slots: `cursor`
   * runs down to `index`, which may be negative, and each step is
   * `elements.set((cursor + 1 + start) % capacity, elements.get((cursor +
   * start) % capacity))` with JavaScript's `%`, so a negative slot makes
   * the pack's `get` or `set` throw.
   */
  function MoveUpAsWritten<T>(slots: seq<T>, start: nat, cursor: int, index: int): (r: Result<seq<T>>)
    requires 0 < |slots|
    ensures r.Ok? ==> |r.value| == |slots|
    ensures index + start >= 0 ==> r.Ok?
    decreases cursor - index + 1
  {
    if cursor < index then Ok(slots)
    else
      var source := Remainder(cursor + start, |slots|);
      var target := Remainder(cursor + 1 + start, |slots|);
      if source < 0 then Err(IllegalSequenceIndex)
      else if target < 0 then Err(NegativeSequenceIndex)
      else MoveUpAsWritten(slots[target := slots[source]], start, cursor - 1, index)
  }

  /** From a non-negative index the loop as written is `MoveUp`. */
  lemma {:induction false} MoveUpAgrees<T>(b: Circular<T>, index: nat, top: nat)
    requires Valid(b) && index <= top < |b.slots|
    ensures MoveUpAsWritten(b.slots, b.start, top - 1, index) == Ok(MoveUp(b, index, top).slots)
    decreases top
  {
    if top > index {
      var n := |b.slots|;
      assert Remainder(top - 1 + b.start, n) == Slot(b, top - 1);
      assert Remainder(top - 1 + 1 + b.start, n) == Slot(b, top);
      var w := Write(b, top, At(b, top - 1));
      assert w.slots == b.slots[Slot(b, top) := b.slots[Slot(b, top - 1)]];
      MoveUpAgrees(w, index, top - 1);
    }
  }

  /**
   * `insert(index, value)` as written. At or past the size it is `set` as
   * written. On a full buffer `shift()` runs and the index drops by one, so
   * an insertion at 0 continues with index -1: the loop then reads slot
   * `(start - 1) % capacity`, which throws when the start is 0, and
   * otherwise writes `value` over the last position. A negative index is
   * not refused: the loop runs while the slots it computes stay
   * non-negative, and succeeds when `index + start` does.
   */
  function InsertAsWritten<T>(b: Circular<T>, index: int, value: T): (r: Result<Circular<T>>)
    requires Valid(b)
    ensures 0 <= index && !(b.size == Capacity(b) && index == 0) && (index < Capacity(b) || b.start == 0) ==>
      r == Insert(b, index, value)
    ensures index < 0 && (if b.size == Capacity(b) then index - 1 else index) + b.start >= 0 ==>
      r.Ok? && Valid(r.value) && r.value.size == (if b.size == Capacity(b) then b.size else b.size + 1)
  {
    if index >= b.size then SetAsWritten(b, index, value)
    else
      var shifted := if b.size == |b.slots| then Shift(b).value.1 else b;
      var at := if b.size == |b.slots| then index - 1 else index;
      InsertAgrees(b, index, value, shifted, at);
      InsertStepsAgree(b, index, shifted, at);
      InsertBelowWrites(shifted, at, value);
      var moved := MoveUpAsWritten(shifted.slots, shifted.start, shifted.size - 1, at);
      if moved.Err? then Err(moved.failure)
      else
        var slot := Remainder(at + shifted.start, |shifted.slots|);
        if slot < 0 then Err(NegativeSequenceIndex)
        else Ok(shifted.(slots := moved.value[slot := value], size := shifted.size + 1))
  }

  /** The corrected insertion below the size, slot by slot: the loop's slots, then `value` in the slot of `index`. */
  lemma InsertBelowWrites<T>(b: Circular<T>, index: int, value: T)
    ensures Valid(b) && 0 <= index < b.size < |b.slots| ==>
      InsertBelow(b, index, value) == b.(slots := MoveUp(b, index, b.size).slots[Slot(b, index) := value], size := b.size + 1)
  {
  }

  /** Where the index stays non-negative, the corrected insertion makes room the same way. */
  lemma InsertAgrees<T>(b: Circular<T>, index: int, value: T, shifted: Circular<T>, at: int)
    requires Valid(b) && index < b.size
    requires shifted == if b.size == |b.slots| then Shift(b).value.1 else b
    requires at == if b.size == |b.slots| then index - 1 else index
    ensures 0 <= index && !(b.size == Capacity(b) && index == 0) ==>
      Insert(b, index, value) == Ok(InsertBelow(shifted, at, value))
  {
  }

  /** ... and its loop and final write touch the slots `MoveUp` and `Write` touch. */
  lemma InsertStepsAgree<T>(b: Circular<T>, index: int, shifted: Circular<T>, at: int)
    requires Valid(b) && index < b.size
    requires shifted == if b.size == |b.slots| then Shift(b).value.1 else b
    requires at == if b.size == |b.slots| then index - 1 else index
    ensures 0 <= index && !(b.size == Capacity(b) && index == 0) ==>
      MoveUpAsWritten(shifted.slots, shifted.start, shifted.size - 1, at) == Ok(MoveUp(shifted, at, shifted.size).slots)
      && Remainder(at + shifted.start, |shifted.slots|) == Slot(shifted, at)
  {
    if 0 <= index && !(b.size == Capacity(b) && index == 0) {
      assert Valid(shifted) && 0 <= at < shifted.size < |shifted.slots|;
      MoveUpAgrees(shifted, at, shifted.size);
    }
  }

  /**
   * Inserting at 0 into the full buffer `[10, 20]` whose start is slot 0
   * throws as written, where the corrected insertion keeps the buffer.
   */
  lemma InsertAsWrittenThrowsAtFront()
    ensures InsertAsWritten(Circular([10, 20], 0, 2, 0), 0, 30) == Err(IllegalSequenceIndex)
    ensures Insert(Circular([10, 20], 0, 2, 0), 0, 30) == Ok(Circular([10, 20], 0, 2, 0))
  {
    var b := Circular([10, 20], 0, 2, 0);
    assert Slot(b, 0) == 0 && Slot(b, 1) == 1;
    assert Write(b, 0, 20) == Circular([20, 20], 0, 2, 0);
    assert MoveDown(b, 1, 1) == Circular([20, 20], 0, 2, 0);
    assert Shift(b).value.1 == Circular([20, 20], 0, 1, 0);
    assert Remainder(-1, 2) == -1 && Remainder(0, 2) == 0 && Remainder(1, 2) == 1;
    assert MoveUpAsWritten([20, 20], 0, -1, -1) == Err(IllegalSequenceIndex);
    assert MoveUpAsWritten([20, 20], 0, 0, -1) == Err(IllegalSequenceIndex);
  }

  /**
   * The same insertion into `[10, 20]` kept from slot 1 succeeds as written
   * but leaves `[20, 30]`: the value lands last and 10 is lost.
   */
  lemma InsertAsWrittenOverwritesLast()
    ensures Contents(Circular([20, 10], 1, 2, 0)) == [10, 20]
    ensures InsertAsWritten(Circular([20, 10], 1, 2, 0), 0, 30).Ok?
    ensures Contents(InsertAsWritten(Circular([20, 10], 1, 2, 0), 0, 30).value) == [20, 30]
  {
    var b := Circular([20, 10], 1, 2, 0);
    assert Slot(b, 0) == 1 && Slot(b, 1) == 0;
    assert Write(b, 0, 20) == Circular([20, 20], 1, 2, 0);
    assert MoveDown(b, 1, 1) == Circular([20, 20], 1, 2, 0);
    assert Shift(b).value.1 == Circular([20, 20], 1, 1, 0);
    assert Remainder(0, 2) == 0 && Remainder(1, 2) == 1 && Remainder(2, 2) == 0;
    assert [20, 20][1 := 20] == [20, 20] && [20, 20][0 := 20] == [20, 20];
    assert MoveUpAsWritten([20, 20], 1, -2, -1) == Ok([20, 20]);
    assert MoveUpAsWritten([20, 20], 1, -1, -1) == Ok([20, 20]);
    assert MoveUpAsWritten([20, 20], 1, 0, -1) == Ok([20, 20]);
    var r := Circular([30, 20], 1, 2, 0);
    assert [20, 20][0 := 30] == [30, 20];
    assert InsertAsWritten(b, 0, 30) == Ok(r);
    assert Slot(r, 0) == 1 && Slot(r, 1) == 0;
  }

  /**
   * Inserting at -1 into `[10, 20]` kept from slot 1 of three succeeds as
   * written and leaves `[20, 10, 30]`; the corrected insertion refuses the
   * negative index.
   */
  lemma InsertAsWrittenAtNegative()
    ensures Contents(Circular([0, 10, 20], 1, 2, 0)) == [10, 20]
    ensures InsertAsWritten(Circular([0, 10, 20], 1, 2, 0), -1, 30) == Ok(Circular([30, 20, 10], 1, 3, 0))
    ensures Contents(Circular([30, 20, 10], 1, 3, 0)) == [20, 10, 30]
    ensures Insert(Circular([0, 10, 20], 1, 2, 0), -1, 30) == Err(NegativeSequenceIndex)
  {
    var b := Circular([0, 10, 20], 1, 2, 0);
    assert Slot(b, 0) == 1 && Slot(b, 1) == 2;
    assert Remainder(2, 3) == 2 && Remainder(3, 3) == 0 && Remainder(1, 3) == 1 && Remainder(0, 3) == 0;
    assert [0, 10, 20][0 := 20] == [20, 10, 20] && [20, 10, 20][2 := 10] == [20, 10, 10];
    assert [20, 10, 10][1 := 20] == [20, 20, 10] && [20, 20, 10][0 := 30] == [30, 20, 10];
    assert MoveUpAsWritten([20, 20, 10], 1, -2, -1) == Ok([20, 20, 10]);
    assert MoveUpAsWritten([20, 10, 10], 1, -1, -1) == Ok([20, 20, 10]);
    assert MoveUpAsWritten([20, 10, 20], 1, 0, -1) == Ok([20, 20, 10]);
    assert MoveUpAsWritten([0, 10, 20], 1, 1, -1) == Ok([20, 20, 10]);
    var r := Circular([30, 20, 10], 1, 3, 0);
    assert Slot(r, 0) == 1 && Slot(r, 1) == 2 && Slot(r, 2) == 0;
  }

  // ---------------------------------------------------------------------
  // how the operations undo one another

  /** A value pushed into a buffer with room is the one `pop` returns, and the buffer is back as it was. */
  lemma PushThenPop<T>(b: Circular<T>, value: T)
    requires Valid(b) && b.size < Capacity(b)
    ensures Pop(Push(b, value)).Ok? && Pop(Push(b, value)).value.0 == value
    ensures Contents(Pop(Push(b, value)).value.1) == Contents(b)
  {
    assert (Contents(b) + [value])[..b.size] == Contents(b);
  }

  /** A value unshifted into a buffer with room is the one `shift` returns, and the elements are back. */
  lemma UnshiftThenShift<T>(b: Circular<T>, value: T)
    requires Valid(b) && b.size < Capacity(b)
    ensures Shift(Unshift(b, value)).Ok? && Shift(Unshift(b, value)).value.0 == value
    ensures Contents(Shift(Unshift(b, value)).value.1) == Contents(b)
  {
    assert ([value] + Contents(b))[1..] == Contents(b);
  }

  /** Deleting the position just inserted below the size, with room to spare, gives the elements back. */
  lemma InsertThenDelete<T>(b: Circular<T>, index: nat, value: T)
    requires Valid(b) && index < b.size < Capacity(b)
    ensures Delete(Insert(b, index, value).value, index, index + 1).Ok?
    ensures Contents(Delete(Insert(b, index, value).value, index, index + 1).value) == Contents(b)
  {
    var c := Contents(b);
    var inserted := c[..index] + [value] + c[index..];
    assert inserted[..index] == c[..index] && inserted[index + 1..] == c[index..];
    assert c[..index] + c[index..] == c;
  }

  /** The two bounds of `delete` may come in either order. */
  lemma DeleteSymmetric<T>(b: Circular<T>, startOrEnd: int, endOrStart: int)
    requires Valid(b)
    ensures Delete(b, startOrEnd, endOrStart) == Delete(b, endOrStart, startOrEnd)
  {
    BoundsSymmetric(startOrEnd, endOrStart);
  }

  /** After `clear()`, pushing builds the buffer from nothing. */
  lemma ClearThenPush<T>(b: Circular<T>, value: T)
    requires Valid(b)
    ensures Contents(Push(Clear(b), value)) == [value]
  {
  }

  /** `reallocate` to a capacity at least the size keeps every element, in order. */
  lemma ReallocateKeepsAll<T>(b: Circular<T>, capacity: nat)
    requires Valid(b) && b.size <= capacity && capacity > 0
    ensures Contents(Reallocate(b, capacity)) == Contents(b)
  {
  }
}

=== FILE: comparators.dfy ===
/**
 * Comparators as the library uses them: a function of two values whose sign
 * orders them, negative when the first comes before the second.
 */
module Comparators {

  /**
   * The comparator orders its values as a total preorder: swapping the
   * arguments flips the sign, and "not before" is transitive.
   */
  ghost predicate Preorder<T(!new)>(cmp: (T, T) -> int) {
    (forall a: T, b: T :: cmp(a, b) < 0 <==> cmp(b, a) > 0)
    && (forall a: T, b: T, c: T :: cmp(a, b) >= 0 && cmp(b, c) >= 0 ==> cmp(a, c) >= 0)
  }

  /** Every value compares equal to itself. */
  lemma Reflexive<T(!new)>(cmp: (T, T) -> int, a: T)
    requires Preorder(cmp)
    ensures cmp(a, a) == 0
  {
  }

  /** The comparator with its sign reversed: the same values, in the opposite order. */
  function Negated<S(!new), T(!new)>(cmp: (S, T) -> int): (r: (S, T) -> int)
    ensures forall a, b :: r(a, b) == -cmp(a, b)
  {
    (a, b) => -cmp(a, b)
  }

  /** Reversing the order keeps it a total preorder. */
  lemma NegatedPreorder<T(!new)>(cmp: (T, T) -> int)
    requires Preorder(cmp)
    ensures Preorder(Negated(cmp))
  {
    var n := Negated(cmp);
    forall a: T, b: T, c: T | n(a, b) >= 0 && n(b, c) >= 0
      ensures n(a, c) >= 0
    {
      assert cmp(b, a) >= 0 && cmp(c, b) >= 0;
    }
  }

  /** No element comes after a later one: the order a sort establishes. */
  ghost predicate Sorted<T(!new)>(cmp: (T, T) -> int, xs: seq<T>) {
    forall i, j :: 0 <= i < j < |xs| ==> cmp(xs[i], xs[j]) <= 0
  }
}

=== FILE: cursor.dfy ===
/**
 * `SequenceCursor` (`sources/sequence/SequenceCursor.ts`): a position in a
 * sequence. The cursor holds the sequence by reference and an index that
 * any movement may take before the first element or past the last; the
 * queries compare the index with the sequence's current size.
 *
 * A sequence is modelled by its identity, the reference `===` compares,
 * and the queries take its size as an argument. The index is an integer.
 */
module SequenceCursors {

  /** The identity of a sequence object. */
  type Handle = nat

  datatype Cursor = Cursor(sequence: Handle, index: int)

  /** The constructor: the index defaults to 0, the first element. */
  function Create(sequence: Handle, index: int := 0): (r: Cursor)
    ensures r.sequence == sequence && r.index == index
  {
    Cursor(sequence, index)
  }

  /** `isInside()`: the index is below the size and above -1. */
  function IsInside(c: Cursor, size: nat): (r: bool)
    ensures r <==> 0 <= c.index < size
  {
    c.index < size && c.index > -1
  }

  /** `isEnd()`: the index is at the size or past it. */
  function IsEnd(c: Cursor, size: nat): bool {
    c.index >= size
  }

  /** `isStart()` as written: the index is below 0, before the first element. */
  function IsStartAsWritten(c: Cursor): bool {
    c.index < 0
  }

  /**
   * `isStart()` as its contract states it: the cursor points at the first
   * element or before it, the mirror of `isEnd()`.
   */
  function IsStart(c: Cursor): bool {
    c.index <= 0
  }

  /**
   * As written, `isStart`, `isInside` and `isEnd` split every index into
   * three disjoint regions: before the sequence, over an element, and past
   * the last one.
   */
  lemma RegionsAsWritten(c: Cursor, size: nat)
    ensures IsStartAsWritten(c) || IsInside(c, size) || IsEnd(c, size)
    ensures !(IsStartAsWritten(c) && IsInside(c, size))
    ensures !(IsInside(c, size) && IsEnd(c, size))
    ensures !(IsStartAsWritten(c) && IsEnd(c, size))
  {
  }

  /**
   * As written, a cursor at index 0 of a sequence of 15 elements is not at
   * the start, where the cursor's own tests expect it to be.
   */
  lemma IsStartMissesFirst(sequence: Handle)
    ensures !IsStartAsWritten(Create(sequence, 0))
    ensures IsInside(Create(sequence, 0), 15)
  {
  }

  /**
   * The corrected `isStart` agrees with the tests: at index 0 and before,
   * it holds; at 1, 5 and 8 it does not. `isStart` and `isEnd` meet only
   * on an empty sequence, and a cursor at the start of a nonempty
   * sequence is over its first element or before it.
   */
  lemma IsStartAtFirst(c: Cursor, size: nat)
    ensures IsStart(Create(c.sequence, 0)) && IsStart(Create(c.sequence, -5))
    ensures !IsStart(Create(c.sequence, 1)) && !IsStart(Create(c.sequence, 5)) && !IsStart(Create(c.sequence, 8))
    ensures (IsStart(c) && IsEnd(c, size)) <==> (size == 0 && c.index == 0)
    ensures IsStart(c) && size > 0 ==> (IsInside(c, size) <==> c.index == 0)
    ensures IsStartAsWritten(c) ==> IsStart(c)
  {
  }

  /** `next()`: one element forward. */
  function Next(c: Cursor): (r: Cursor)
    ensures r.sequence == c.sequence && r.index == c.index + 1
  {
    Cursor(c.sequence, c.index + 1)
  }

  /** `forward(count)`: `count` elements forward. */
  function Forward(c: Cursor, count: int): (r: Cursor)
    ensures r.sequence == c.sequence && r.index - c.index == count
  {
    Cursor(c.sequence, c.index + count)
  }

  /** `previous()`: one element back. */
  function Previous(c: Cursor): (r: Cursor)
    ensures r.sequence == c.sequence && r.index == c.index - 1
  {
    Cursor(c.sequence, c.index - 1)
  }

  /** `backward(count)`: `count` elements back. */
  function Backward(c: Cursor, count: int): (r: Cursor)
    ensures r.sequence == c.sequence && c.index - r.index == count
  {
    Cursor(c.sequence, c.index - count)
  }

  /** `at(index)`: jumps to `index`. */
  function At(c: Cursor, index: int): (r: Cursor)
    ensures r.sequence == c.sequence && r.index == index
  {
    Cursor(c.sequence, index)
  }

  /** Moving back undoes moving forward, by one element or by any count. */
  lemma MovesInvert(c: Cursor, count: int)
    ensures Previous(Next(c)) == c && Next(Previous(c)) == c
    ensures Backward(Forward(c, count), count) == c && Forward(Backward(c, count), count) == c
    ensures Forward(c, 1) == Next(c) && Backward(c, 1) == Previous(c)
    ensures Backward(c, count) == Forward(c, -count)
  {
  }

  /** Forward moves add up, and a jump lands where a move by the difference does. */
  lemma MovesCompose(c: Cursor, a: int, b: int, index: int)
    ensures Forward(Forward(c, a), b) == Forward(c, a + b)
    ensures At(c, index) == Forward(c, index - c.index)
  {
  }

  /**
   * Walking from the start of a sequence with `next()` visits every
   * element before the cursor reaches the end: after `k` steps the cursor
   * is inside exactly when `k` is below the size.
   */
  lemma {:induction false} WalkFromStart(c: Cursor, size: nat, k: nat)
    requires c.index == 0
    ensures IsInside(NextTimes(c, k), size) <==> k < size
    ensures IsEnd(NextTimes(c, k), size) <==> k >= size
  {
    NextTimesIndex(c, k);
  }

  /** `k` calls of `next()`. */
  function NextTimes(c: Cursor, k: nat): Cursor {
    if k == 0 then c else Next(NextTimes(c, k - 1))
  }

  /** `k` calls of `next()` move the index by `k`. */
  lemma {:induction false} NextTimesIndex(c: Cursor, k: nat)
    ensures NextTimes(c, k) == Forward(c, k)
  {
    if k > 0 {
      NextTimesIndex(c, k - 1);
    }
  }

  /** `copy(toCopy)`: takes the other cursor's sequence and index. */
  function Copy(c: Cursor, toCopy: Cursor): (r: Cursor)
    ensures Equals(r, Some(toCopy))
  {
    Cursor(toCopy.sequence, toCopy.index)
  }

  /** `wrap(sequence, index)`: points at `index` of another sequence. */
  function Wrap(c: Cursor, sequence: Handle, index: int): (r: Cursor)
    ensures r == Create(sequence, index)
  {
    Cursor(sequence, index)
  }

  /** `clone()`: a new cursor over the same sequence at the same index. */
  function Clone(c: Cursor): (r: Cursor)
    ensures Equals(c, Some(r)) && Equals(r, Some(c))
  {
    Create(c.sequence, c.index)
  }

  /** What `equals` may be given: `null` or `undefined`, a cursor, or any other value. */
  datatype Other = Nothing | Some(cursor: Cursor) | Foreign

  /**
   * `equals(other)`: another cursor over the very same sequence at the
   * same index; `null`, `undefined` and values that are no cursors are
   * never equal.
   */
  function Equals(c: Cursor, other: Other): (r: bool)
    ensures r <==> other.Some? && other.cursor == c
  {
    match other
    case Nothing => false
    case Some(cursor) => cursor.sequence == c.sequence && cursor.index == c.index
    case Foreign => false
  }

  /** Among cursors, `equals` is reflexive, symmetric and transitive. */
  lemma EqualsEquivalence(a: Cursor, b: Cursor, c: Cursor)
    ensures Equals(a, Some(a))
    ensures Equals(a, Some(b)) ==> Equals(b, Some(a))
    ensures Equals(a, Some(b)) && Equals(b, Some(c)) ==> Equals(a, Some(c))
  {
  }
}

=== FILE: generator.dfy ===
/**
 * The code generator `generate.py`. `test(offset, size, depth)` halves the
 * bit range `[offset, offset + size)` and emits a nested decision on
 * `countBits(bits & mask) < rest`, where `mask` keeps the bits below the
 * middle of the range; the output for `(0, 32)` is the body of
 * `BitSet.get` after its cell scan.
 *
 * `Build` gives the decision tree, `Emit` the text exactly as the script
 * assembles it, and `Render` the text of a tree; `EmitRendersBuild` ties the
 * three together. `Eval` runs a tree the way the emitted TypeScript runs.
 */
module Generator {
  import opened Bits
  import opened Outcomes
  import opened Text

  /** A node of the emitted decision tree. */
  datatype Tree =
    | Invalid                                  // the text `ERROR`, emitted for a size below 1
    | Leaf(position: nat)                      // `cell * 32 + position`
    | Test(width: nat, above: Tree, below: Tree)
      // `countBits(bits & mask) < rest ? above : below`, `mask` keeping the low `width` bits

  /** Python's `x >> k` on a non-negative integer: `k` halvings, and a ValueError for k < 0. */
  function ShiftRight(x: nat, k: int): (r: Result<nat>)
    ensures r.Err? <==> k < 0
    ensures r.Ok? ==> r.value <= x
  {
    if k < 0 then Err(NegativeShiftCount) else Ok(Halvings(x, k))
  }

  /** `x` halved `k` times, rounding down each time. */
  function Halvings(x: nat, k: nat): (r: nat)
    ensures r <= x
    ensures x < Pow2(k) ==> r == 0
  {
    if k == 0 then x else Halvings(x / 2, k - 1)
  }

  /** The tree `test(offset, size)` describes. */
  function Build(offset: nat, size: int): (r: Result<Tree>)
    ensures r.Ok? <==> size < 2 || offset + size <= 33
    ensures r.Ok? ==> Emittable(r.value)
    ensures r.Ok? ==> (r.value.Leaf? <==> size == 1) && (r.value.Test? <==> size >= 2)
    decreases size
  {
    if size < 1 then Ok(Invalid)
    else if size == 1 then Ok(Leaf(offset))
    else
      var mid := size / 2;
      if 32 - offset - mid < 0 then Err(NegativeShiftCount)
      else
        match Build(offset + mid, size - mid)
        case Err(f) => Err(f)
        case Ok(above) =>
          match Build(offset, size - mid)
          case Err(f) => Err(f)
          case Ok(below) => Ok(Test(offset + mid, above, below))
  }

  /** Every mask of the tree fits in a 32-bit word. */
  predicate Emittable(t: Tree) {
    match t
    case Invalid => true
    case Leaf(_) => true
    case Test(w, a, b) => w <= WordBits && Emittable(a) && Emittable(b)
  }

  /** The leaf positions from top to bottom of the emitted text. */
  function Leaves(t: Tree): seq<nat> {
    match t
    case Invalid => []
    case Leaf(p) => [p]
    case Test(_, a, b) => Leaves(a) + Leaves(b)
  }

  /**
   * A piece of emitted text: characters the script writes literally, or a
   * number it formats with `hex` or `str`. The text itself is `Flatten` of
   * the pieces; keeping the numbers as pieces lets proofs about the shape of
   * the text ignore how numbers are spelled.
   */
  datatype Piece = Chars(chars: string) | HexNumber(n: nat) | DecimalNumber(n: nat)

  type Output = seq<Piece>

  /** The characters of the emitted text. */
  function Flatten(out: Output): string {
    if |out| == 0 then ""
    else
      var last := match out[|out| - 1]
        case Chars(c) => c
        case HexNumber(n) => Hex(n)
        case DecimalNumber(n) => Decimal(n);
      Flatten(out[..|out| - 1]) + last
  }

  /** The text `test(offset, size, depth)` returns, assembled as the script assembles it. */
  function Emit(offset: nat, size: int, depth: nat): Result<Output>
    decreases size
  {
    if size < 1 then Ok(ErrorText(depth))
    else if size == 1 then Ok(LeafText(depth, offset))
    else
      var mid := size / 2;
      match ShiftRight(0xFFFF_FFFF, 32 - offset - mid)
      case Err(f) => Err(f)
      case Ok(mask) =>
        var inner := if size == 2 then 0 else depth + 1;
        match Emit(offset + mid, size - mid, inner)
        case Err(f) => Err(f)
        case Ok(above) =>
          match Emit(offset, size - mid, inner)
          case Err(f) => Err(f)
          case Ok(below) =>
            if size == 2 then Ok(TernaryText(depth, mask, above, below))
            else Ok(IfElseText(depth, mask, above, below))
  }

  function ErrorText(depth: nat): Output {
    [Chars(Padding(depth) + "ERROR")]
  }

  function LeafText(depth: nat, position: nat): Output {
    [Chars(Padding(depth) + "cell * 32 + "), DecimalNumber(position)]
  }

  /** The one-line test emitted for a range of two bits. */
  function TernaryText(depth: nat, mask: nat, above: Output, below: Output): Output {
    [Chars(Padding(depth) + "return countBits(bits & "), HexNumber(mask), Chars(") < rest ? ")]
    + above + [Chars(" : ")] + below
  }

  /** The if/else emitted for a range of more than two bits; lines end with CR LF. */
  function IfElseText(depth: nat, mask: nat, above: Output, below: Output): Output {
    [Chars(Padding(depth) + "if (countBits(bits & "), HexNumber(mask), Chars(") < rest) {\r\n")]
    + above + [Chars("\r\n" + Padding(depth) + "} else {\r\n")]
    + below + [Chars("\r\n" + Padding(depth) + "}")]
  }

  /** The text of a tree: a ternary when both branches are leaves, an if/else one level deeper otherwise. */
  function Render(t: Tree, depth: nat): Output {
    match t
    case Invalid => ErrorText(depth)
    case Leaf(p) => LeafText(depth, p)
    case Test(w, a, b) =>
      if a.Leaf? && b.Leaf? then TernaryText(depth, Pow2(w) - 1, Render(a, 0), Render(b, 0))
      else IfElseText(depth, Pow2(w) - 1, Render(a, depth + 1), Render(b, depth + 1))
  }

  /**
   * Runs the emitted code on the word `bits` and the rank `rest`: `None` for
   * the `ERROR` text, otherwise the position the code adds to `cell * 32`.
   */
  function Eval(t: Tree, bits: bv32, rest: int): Option<nat>
    requires Emittable(t)
  {
    match t
    case Invalid => None
    case Leaf(p) => Some(p)
    case Test(w, a, b) =>
      if Small(CountBits(And(bits, LowMask(w)))) < rest then Eval(a, bits, rest) else Eval(b, bits, rest)
  }

  // ---------------------------------------------------------------------
  // The mask

  lemma {:induction false} Pow2Add(m: nat, n: nat)
    ensures Pow2(m + n) == Pow2(m) * Pow2(n)
    decreases m
  {
    if m > 0 {
      Pow2Add(m - 1, n);
    }
  }

  lemma Pow32()
    ensures Pow2(32) == 0x1_0000_0000
  {
    assert Pow2(4) == 16;
    assert Pow2(8) == 256;
    Pow2Add(8, 8);
    Pow2Add(16, 16);
  }

  /** Halving 2^n - 1 k times leaves 2^(n-k) - 1. */
  lemma {:induction false} HalvingsOfOnes(n: nat, k: nat)
    requires k <= n
    ensures Halvings(Pow2(n) - 1, k) == Pow2(n - k) - 1
    decreases k
  {
    if k > 0 {
      assert (Pow2(n) - 1) / 2 == Pow2(n - 1) - 1;
      HalvingsOfOnes(n - 1, k - 1);
    }
  }

  /**
   * `0xffffffff >> (32 - offset - mid)` keeps exactly the low `offset + mid`
   * bits: it is 2^(offset + mid) - 1.
   */
  lemma MaskValue(offset: nat, mid: int)
    requires 0 <= offset + mid <= WordBits
    ensures ShiftRight(0xFFFF_FFFF, 32 - offset - mid) == Ok(Pow2(offset + mid) - 1)
  {
    Pow32();
    HalvingsOfOnes(32, 32 - offset - mid);
  }

  /** Bit `j` of the natural number `n`: the low bit of `n` halved `j` times, as `IsSet` reads a word. */
  predicate NatBit(n: nat, j: nat) {
    Halvings(n, j) % 2 == 1
  }

  /**
   * The mask the script prints, `2^w - 1`, has exactly the bits of the word
   * `LowMask(w)` that `Eval` tests with: bit `j` of both is set iff `j < w`.
   */
  lemma PrintedMaskIsLowMask(w: nat, j: nat)
    requires w <= WordBits
    ensures NatBit(Pow2(w) - 1, j) == IsSet(LowMask(w), j)
    ensures NatBit(Pow2(w) - 1, j) <==> j < w
  {
    LowMaskBit(w, j);
    OnesBit(w, j);
  }

  /** Bit `j` of `2^w - 1` is set iff `j < w`. */
  lemma OnesBit(w: nat, j: nat)
    ensures NatBit(Pow2(w) - 1, j) <==> j < w
  {
    if j < w {
      HalvingsOfOnes(w, j);
      var half := Pow2(w - j - 1);
      assert Halvings(Pow2(w) - 1, j) == 2 * half - 1;
    } else if j == w {
      HalvingsOfOnes(w, j);
    } else {
      Pow2Monotone(w, j);
    }
  }

  // ---------------------------------------------------------------------
  // Text

  /** The script's text is the text of the tree `Build` describes. */
  lemma {:induction false} EmitRendersBuild(offset: nat, size: int, depth: nat)
    ensures Build(offset, size).Err? ==> Emit(offset, size, depth) == Err(NegativeShiftCount)
    ensures Build(offset, size).Ok? ==> Emit(offset, size, depth) == Ok(Render(Build(offset, size).value, depth))
    decreases size
  {
    if size >= 2 {
      var mid := size / 2;
      if 32 - offset - mid >= 0 {
        var inner := if size == 2 then 0 else depth + 1;
        EmitRendersBuild(offset + mid, size - mid, inner);
        EmitRendersBuild(offset, size - mid, inner);
        var above := Build(offset + mid, size - mid);
        var below := Build(offset, size - mid);
        if above.Err? {
          AboveFails(offset, mid, size, depth, inner);
        } else {
          assert below.Ok?;
          NodeRenders(offset, mid, size, depth, inner, above.value, below.value);
        }
      }
    }
  }

  lemma AboveFails(offset: nat, mid: int, size: int, depth: nat, inner: nat)
    requires size >= 2 && mid == size / 2 && 32 - offset - mid >= 0
    requires inner == if size == 2 then 0 else depth + 1
    requires Emit(offset + mid, size - mid, inner) == Err(NegativeShiftCount)
    requires Build(offset + mid, size - mid).Err?
    ensures Build(offset, size).Err? && Emit(offset, size, depth) == Err(NegativeShiftCount)
  {
  }

  /** One node: if both halves print as their trees, so does the node. */
  lemma NodeRenders(offset: nat, mid: int, size: int, depth: nat, inner: nat, a: Tree, b: Tree)
    requires size >= 2 && mid == size / 2 && 32 - offset - mid >= 0
    requires inner == if size == 2 then 0 else depth + 1
    requires Build(offset + mid, size - mid) == Ok(a) && Build(offset, size - mid) == Ok(b)
    requires Emit(offset + mid, size - mid, inner) == Ok(Render(a, inner))
    requires Emit(offset, size - mid, inner) == Ok(Render(b, inner))
    ensures Build(offset, size) == Ok(Test(offset + mid, a, b))
    ensures Emit(offset, size, depth) == Ok(Render(Test(offset + mid, a, b), depth))
  {
    BuildNode(offset, mid, size, a, b);
    assert size == 2 ==> size - mid == 1 && a.Leaf? && b.Leaf?;
    assert size > 2 ==> size - mid >= 2 && a.Test?;
    NodeText(offset, mid, size, depth, inner, a, b);
  }

  /** The text of a node whose halves print as their trees. */
  lemma NodeText(offset: nat, mid: int, size: int, depth: nat, inner: nat, a: Tree, b: Tree)
    requires size >= 2 && mid == size / 2 && 32 - offset - mid >= 0
    requires inner == if size == 2 then 0 else depth + 1
    requires size == 2 ==> a.Leaf? && b.Leaf?
    requires size > 2 ==> a.Test?
    requires Emit(offset + mid, size - mid, inner) == Ok(Render(a, inner))
    requires Emit(offset, size - mid, inner) == Ok(Render(b, inner))
    ensures Emit(offset, size, depth) == Ok(Render(Test(offset + mid, a, b), depth))
  {
    EmitNode(offset, mid, size, depth, inner, Render(a, inner), Render(b, inner));
    if size == 2 {
      RenderPair(offset + mid, a, b, depth, inner);
    } else {
      RenderNested(offset + mid, a, b, depth, inner);
    }
  }

  lemma BuildNode(offset: nat, mid: int, size: int, a: Tree, b: Tree)
    requires size >= 2 && mid == size / 2 && 32 - offset - mid >= 0
    requires Build(offset + mid, size - mid) == Ok(a) && Build(offset, size - mid) == Ok(b)
    ensures Build(offset, size) == Ok(Test(offset + mid, a, b))
  {
  }

  /** The text of a node, given the texts of its halves. */
  lemma EmitNode(offset: nat, mid: int, size: int, depth: nat, inner: nat, above: Output, below: Output)
    requires size >= 2 && mid == size / 2 && 32 - offset - mid >= 0
    requires inner == if size == 2 then 0 else depth + 1
    requires Emit(offset + mid, size - mid, inner) == Ok(above)
    requires Emit(offset, size - mid, inner) == Ok(below)
    ensures size == 2 ==> Emit(offset, size, depth) == Ok(TernaryText(depth, Pow2(offset + mid) - 1, above, below))
    ensures size > 2 ==> Emit(offset, size, depth) == Ok(IfElseText(depth, Pow2(offset + mid) - 1, above, below))
  {
    MaskValue(offset, mid);
    var mask := Pow2(offset + mid) - 1;
    assert size > 1 && ShiftRight(0xFFFF_FFFF, 32 - offset - mid) == Ok(mask);
    if size == 2 {
      assert Emit(offset, size, depth) == Ok(TernaryText(depth, mask, above, below));
    } else {
      assert Emit(offset, size, depth) == Ok(IfElseText(depth, mask, above, below));
    }
  }

  lemma RenderPair(w: nat, a: Tree, b: Tree, depth: nat, inner: nat)
    requires a.Leaf? && b.Leaf? && inner == 0
    ensures Render(Test(w, a, b), depth) == TernaryText(depth, Pow2(w) - 1, Render(a, inner), Render(b, inner))
  {
  }

  lemma RenderNested(w: nat, a: Tree, b: Tree, depth: nat, inner: nat)
    requires a.Test? && inner == depth + 1
    ensures Render(Test(w, a, b), depth) == IfElseText(depth, Pow2(w) - 1, Render(a, inner), Render(b, inner))
  {
  }

  /** A size below 1 prints `ERROR` at the indentation and builds nothing further. */
  lemma EmitError(offset: nat, size: int, depth: nat)
    requires size < 1
    ensures Emit(offset, size, depth).Ok? && Flatten(Emit(offset, size, depth).value) == Padding(depth) + "ERROR"
    ensures Build(offset, size) == Ok(Invalid) && Leaves(Invalid) == []
  {
    assert Flatten(ErrorText(depth)) == Flatten([]) + Padding(depth) + "ERROR";
  }

  /** A size of 1 prints the leaf `cell * 32 + offset`. */
  lemma EmitLeaf(offset: nat, depth: nat)
    ensures Emit(offset, 1, depth).Ok?
    ensures Flatten(Emit(offset, 1, depth).value) == Padding(depth) + "cell * 32 + " + Decimal(offset)
  {
    var out := LeafText(depth, offset);
    assert out[..1] == [Chars(Padding(depth) + "cell * 32 + ")];
    assert Flatten(out[..1]) == Flatten([]) + Padding(depth) + "cell * 32 + ";
  }

  /** A size of 2 prints one ternary, at the indentation, whose branches carry none. */
  lemma EmitPair(offset: nat, depth: nat)
    requires offset < WordBits
    ensures Emit(offset, 2, depth) == Ok(TernaryText(depth, Pow2(offset + 1) - 1, LeafText(0, offset + 1), LeafText(0, offset)))
  {
    MaskValue(offset, 1);
  }

  /** A size above 2 prints an if/else whose branches are indented one level deeper. */
  lemma EmitNested(offset: nat, size: int, depth: nat)
    requires size > 2 && offset + size <= 33
    ensures var mid := size / 2;
      && Build(offset + mid, size - mid).Ok? && Build(offset, size - mid).Ok?
      && Emit(offset, size, depth) == Ok(IfElseText(depth, Pow2(offset + mid) - 1,
           Render(Build(offset + mid, size - mid).value, depth + 1), Render(Build(offset, size - mid).value, depth + 1)))
  {
    var mid := size / 2;
    var a, b := Build(offset + mid, size - mid).value, Build(offset, size - mid).value;
    BuildNode(offset, mid, size, a, b);
    EmitRendersBuild(offset, size, depth);
    assert Emit(offset, size, depth) == Ok(Render(Test(offset + mid, a, b), depth));
    RenderNested(offset + mid, a, b, depth, depth + 1);
  }

  lemma {:induction false} Pow2Monotone(m: nat, n: nat)
    requires m < n
    ensures Pow2(m) < Pow2(n)
    decreases n
  {
    if m < n - 1 {
      Pow2Monotone(m, n - 1);
    }
  }

  // ---------------------------------------------------------------------
  // Leaves

  /** `offset + n - 1` down to `offset`. */
  function Descending(offset: nat, n: nat): (r: seq<nat>)
    ensures |r| == n
  {
    if n == 0 then [] else [offset + n - 1] + Descending(offset, n - 1)
  }

  lemma {:induction false} DescendingSplit(offset: nat, m: nat, n: nat)
    ensures Descending(offset + m, n) + Descending(offset, m) == Descending(offset, m + n)
    decreases n
  {
    if n > 0 {
      DescendingSplit(offset, m, n - 1);
    }
  }

  lemma DescendingDistinct(offset: nat, n: nat, i: nat, j: nat)
    requires i < j < n
    ensures Descending(offset, n)[i] == offset + n - 1 - i
    ensures Descending(offset, n)[i] != Descending(offset, n)[j]
  {
    DescendingAt(offset, n, i);
    DescendingAt(offset, n, j);
  }

  lemma {:induction false} DescendingAt(offset: nat, n: nat, i: nat)
    requires i < n
    ensures Descending(offset, n)[i] == offset + n - 1 - i
    decreases n
  {
    if i > 0 {
      DescendingAt(offset, n - 1, i - 1);
    }
  }

  /**
   * For a power-of-two size the leaves, read from the top of the text down,
   * are `offset + size - 1` down to `offset`: each position of the range
   * exactly once.
   */
  lemma {:induction false} LeavesOfPowerOfTwo(offset: nat, k: nat)
    requires Build(offset, Pow2(k)).Ok?
    ensures Leaves(Build(offset, Pow2(k)).value) == Descending(offset, Pow2(k))
    decreases k
  {
    if k > 0 {
      var half := Pow2(k - 1);
      assert Pow2(k) / 2 == half;
      LeavesOfPowerOfTwo(offset + half, k - 1);
      LeavesOfPowerOfTwo(offset, k - 1);
      DescendingSplit(offset, half, half);
    }
  }

  /** `test(offset, 2^k)` has one test fewer than it has leaves. */
  lemma PowerOfTwoTests(offset: nat, k: nat)
    requires Build(offset, Pow2(k)).Ok?
    ensures Tests(Build(offset, Pow2(k)).value) == Pow2(k) - 1
  {
    LeavesOfPowerOfTwo(offset, k);
    BuildComplete(offset, Pow2(k));
    TestsAndLeaves(Build(offset, Pow2(k)).value);
  }

  /**
   * `test(0, 32)` emits 32 leaves, one per bit position from 31 down to 0,
   * and 31 tests. (The width is a parameter only to keep the verifier from
   * evaluating the whole tree.)
   */
  lemma FullWordTree(width: nat)
    requires width == WordBits
    ensures Build(0, width).Ok?
    ensures Leaves(Build(0, width).value) == Descending(0, width)
    ensures Tests(Build(0, width).value) == width - 1
  {
    var k := FiveHalvings(width);
    LeavesOfPowerOfTwo(0, k);
    PowerOfTwoTests(0, k);
  }

  /** 32 is `2^5`. */
  lemma FiveHalvings(width: nat) returns (k: nat)
    requires width == WordBits
    ensures Pow2(k) == width
  {
    k := 5;
    assert Pow2(5) == 32;
  }

  function Tests(t: Tree): nat {
    match t
    case Invalid => 0
    case Leaf(_) => 0
    case Test(_, a, b) => 1 + Tests(a) + Tests(b)
  }

  predicate Complete(t: Tree) {
    match t
    case Invalid => false
    case Leaf(_) => true
    case Test(_, a, b) => Complete(a) && Complete(b)
  }

  /** A tree without `ERROR` nodes has one test fewer than it has leaves. */
  lemma {:induction false} TestsAndLeaves(t: Tree)
    requires Complete(t)
    ensures Tests(t) + 1 == |Leaves(t)|
  {
    match t
    case Leaf(_) =>
    case Test(_, a, b) =>
      TestsAndLeaves(a);
      TestsAndLeaves(b);
  }

  lemma {:induction false} BuildComplete(offset: nat, size: int)
    requires size >= 1 && Build(offset, size).Ok?
    ensures Complete(Build(offset, size).value)
    decreases size
  {
    if size >= 2 {
      BuildComplete(offset + size / 2, size - size / 2);
      BuildComplete(offset, size - size / 2);
    }
  }

  // ---------------------------------------------------------------------
  // What the emitted code computes

  /** The test of a node compares the number of set bits below its width with `rest`. */
  lemma TestCounts(bits: bv32, w: nat)
    requires w <= WordBits
    ensures Small(CountBits(And(bits, LowMask(w)))) == CountLow(bits, w)
  {
    CountBitsIsPopcount(And(bits, LowMask(w)));
    MaskedPopcount(bits, w);
  }

  /**
   * The same tree run against a table of prefix counts: `below[w]` stands for
   * the number of set bits under position `w`, which is what each test of the
   * emitted code computes with `countBits(bits & mask)`.
   */
  function Pick(t: Tree, below: seq<nat>, rest: int): Option<nat>
    requires Emittable(t) && |below| == WordBits + 1
  {
    match t
    case Invalid => None
    case Leaf(p) => Some(p)
    case Test(w, a, b) => if below[w] < rest then Pick(a, below, rest) else Pick(b, below, rest)
  }

  /** The prefix counts of a word, for every width from 0 to 32. */
  function Prefix(bits: bv32): (r: seq<nat>)
    ensures |r| == WordBits + 1
  {
    seq(WordBits + 1, i requires 0 <= i => CountLow(bits, i))
  }

  /** A table of prefix counts: it starts at zero and grows by at most one per position. */
  ghost predicate Graded(below: seq<nat>) {
    && |below| == WordBits + 1
    && (forall i, j :: 0 <= i <= j < |below| ==> below[i] <= below[j] <= below[i] + (j - i))
  }

  lemma PrefixGraded(bits: bv32)
    ensures Graded(Prefix(bits))
  {
    var below := Prefix(bits);
    forall i, j | 0 <= i <= j < |below|
      ensures below[i] <= below[j] <= below[i] + (j - i)
    {
      CountLowSplit(bits, i, j - i);
    }
  }

  /** The emitted code on a word computes exactly what the tree picks from the word's prefix counts. */
  lemma {:induction false} EvalIsPick(t: Tree, bits: bv32, rest: int)
    requires Emittable(t)
    ensures Eval(t, bits, rest) == Pick(t, Prefix(bits), rest)
  {
    match t
    case Invalid =>
    case Leaf(_) =>
    case Test(w, a, b) =>
      TestCounts(bits, w);
      EvalIsPick(a, bits, rest);
      EvalIsPick(b, bits, rest);
  }

  /** One past the highest leaf of the tree. */
  function Top(t: Tree): nat {
    match t
    case Invalid => 0
    case Leaf(p) => p + 1
    case Test(_, a, _) => Top(a)
  }

  /**
   * The tree splits `[lo, hi)`: a leaf is the single position `lo`; a test on
   * width `w` sends `[w, hi)` above and a range `[lo, m)` below with
   * `w <= m <= hi`. For an odd size the script's two halves overlap, so `m`
   * can exceed `w`.
   */
  predicate Splits(t: Tree, lo: nat, hi: nat) {
    match t
    case Invalid => false
    case Leaf(p) => p == lo && hi == lo + 1
    case Test(w, a, b) => lo < w < hi && Splits(a, w, hi) && w <= Top(b) <= hi && Splits(b, lo, Top(b))
  }

  /** A tree splits the range that ends at its top. */
  lemma {:induction false} SplitsTop(t: Tree, lo: nat, hi: nat)
    requires Splits(t, lo, hi)
    ensures Top(t) == hi
  {
    match t
    case Leaf(_) =>
    case Test(w, a, b) => SplitsTop(a, w, hi);
  }

  /** `test(offset, size)` splits its range. */
  lemma BuildSplits(offset: nat, size: int)
    requires size >= 1 && Build(offset, size).Ok?
    ensures Splits(Build(offset, size).value, offset, offset + size)
  {
    BuildShaped(offset, size);
    ShapedSplits(Build(offset, size).value, offset, size, offset + size);
  }

  /**
   * The shape `test(offset, size)` gives its tree: a leaf on `offset` for a
   * size of 1; otherwise a test on `offset + size / 2` over the upper
   * `size - size / 2` positions from there and as many from `offset`.
   */
  ghost predicate Shaped(t: Tree, offset: nat, size: nat)
    decreases size
  {
    match t
    case Invalid => false
    case Leaf(p) => size == 1 && p == offset
    case Test(w, a, b) =>
      size >= 2 && w == offset + size / 2
      && Shaped(a, w, size - size / 2) && Shaped(b, offset, size - size / 2)
  }

  lemma {:induction false} BuildShaped(offset: nat, size: int)
    requires size >= 1 && Build(offset, size).Ok?
    ensures Shaped(Build(offset, size).value, offset, size)
    decreases size
  {
    if size >= 2 {
      BuildShaped(offset + size / 2, size - size / 2);
      BuildShaped(offset, size - size / 2);
    }
  }

  /** A shaped tree splits its range; `hi` names the range end. */
  lemma {:induction false} ShapedSplits(t: Tree, offset: nat, size: nat, hi: nat)
    requires Shaped(t, offset, size) && hi == offset + size
    ensures Splits(t, offset, hi)
    decreases t
  {
    match t
    case Leaf(_) =>
    case Test(w, a, b) =>
      var half := size - size / 2;
      ShapedSplits(a, w, half, hi);
      ShapedSplits(b, offset, half, offset + half);
      SplitsNode(offset, w, offset + half, hi, a, b);
  }

  /** A test on `w` whose halves split `[w, hi)` and `[lo, m)`, with `w <= m <= hi`, splits `[lo, hi)`. */
  lemma SplitsNode(lo: nat, w: nat, m: nat, hi: nat, a: Tree, b: Tree)
    requires lo < w <= m <= hi && w < hi && Splits(a, w, hi) && Splits(b, lo, m)
    ensures Splits(Test(w, a, b), lo, hi)
  {
    SplitsTop(b, lo, m);
  }

  /**
   * Given a rank that falls inside the range split by `t` (more than
   * `below[lo]` set bits under it, at most `below[hi]`), the tree picks the
   * position `p` of the range where the count reaches `rest`: exactly
   * `rest - 1` set bits lie under `p` and `rest` under `p + 1`, so `p` holds
   * the `rest`-th set bit, counting from 1. A count equal to `rest` sends the
   * search below.
   */
  lemma {:induction false} SelectsRankedBit(t: Tree, lo: nat, hi: nat, below: seq<nat>, rest: int)
    requires Graded(below) && Emittable(t) && Splits(t, lo, hi) && hi <= WordBits
    requires below[lo] < rest <= below[hi]
    ensures var r := Pick(t, below, rest);
      && r.Some? && lo <= r.value < hi
      && below[r.value] == rest - 1 && below[r.value + 1] == rest
  {
    match t
    case Leaf(_) =>
    case Test(w, a, b) =>
      if below[w] < rest {
        SelectsRankedBit(a, w, hi, below, rest);
      } else {
        SelectsRankedBit(b, lo, Top(b), below, rest);
      }
  }

  /** A rank at or below the count before the range picks the lowest position. */
  lemma {:induction false} LowRankSelectsLowest(t: Tree, lo: nat, hi: nat, below: seq<nat>, rest: int)
    requires Graded(below) && Emittable(t) && Splits(t, lo, hi) && hi <= WordBits
    requires rest <= below[lo]
    ensures Pick(t, below, rest) == Some(lo)
  {
    match t
    case Leaf(_) =>
    case Test(w, a, b) =>
      LowRankSelectsLowest(b, lo, Top(b), below, rest);
  }

  /** A rank above the count of the whole range picks the highest position. */
  lemma {:induction false} HighRankSelectsHighest(t: Tree, lo: nat, hi: nat, below: seq<nat>, rest: int)
    requires Graded(below) && Emittable(t) && Splits(t, lo, hi) && hi <= WordBits
    requires rest > below[hi]
    ensures Pick(t, below, rest) == Some(hi - 1)
  {
    match t
    case Leaf(_) =>
    case Test(w, a, b) =>
      HighRankSelectsHighest(a, w, hi, below, rest);
  }

  /**
   * Code whose tree splits the whole word, run with `1 <= rest <= popcount(bits)`,
   * returns the position of the `rest`-th set bit of the word.
   */
  lemma TreeSelect(t: Tree, bits: bv32, rest: int)
    requires Emittable(t) && Splits(t, 0, WordBits)
    requires 1 <= rest <= Popcount(bits)
    ensures var r := Eval(t, bits, rest);
      && r.Some? && r.value < WordBits && IsSet(bits, r.value) && CountLow(bits, r.value) == rest - 1
  {
    var below := Prefix(bits);
    PrefixGraded(bits);
    assert below[0] == 0 && below[WordBits] == Popcount(bits);
    SelectsRankedBit(t, 0, WordBits, below, rest);
    EvalIsPick(t, bits, rest);
    CountLowNext(bits, Pick(t, below, rest).value);
  }

  /** Code whose tree splits the whole word returns position 0 for a rank of zero or less. */
  lemma TreeLowest(t: Tree, bits: bv32, rest: int)
    requires Emittable(t) && Splits(t, 0, WordBits)
    requires rest <= 0
    ensures Eval(t, bits, rest) == Some(0)
  {
    PrefixGraded(bits);
    LowRankSelectsLowest(t, 0, WordBits, Prefix(bits), rest);
    EvalIsPick(t, bits, rest);
  }

  /** Code whose tree splits the whole word returns position 31 for a rank above the population. */
  lemma TreeHighest(t: Tree, bits: bv32, rest: int)
    requires Emittable(t) && Splits(t, 0, WordBits)
    requires rest > Popcount(bits)
    ensures Eval(t, bits, rest) == Some(WordBits - 1)
  {
    var below := Prefix(bits);
    PrefixGraded(bits);
    assert below[WordBits] == Popcount(bits);
    HighRankSelectsHighest(t, 0, WordBits, below, rest);
    EvalIsPick(t, bits, rest);
  }

  /** The code emitted for `(0, 32)` selects the `rest`-th set bit of the word. */
  lemma WordSelect(bits: bv32, rest: int)
    requires 1 <= rest <= Popcount(bits)
    ensures Build(0, 32).Ok?
    ensures var r := Eval(Build(0, 32).value, bits, rest);
      && r.Some? && r.value < WordBits && IsSet(bits, r.value) && CountLow(bits, r.value) == rest - 1
  {
    BuildSplits(0, 32);
    TreeSelect(Build(0, 32).value, bits, rest);
  }
}

=== FILE: heap.dfy ===
/**
 * The `PackHeap` namespace of `sources/heap/PackHeap.ts`: a pack used as a
 * binary heap ordered by a comparator, the element at `i` having its
 * parent at `(i - 1) >> 1`. The element a comparator puts last sits at the
 * root. The heap functions only read the pack's elements, swap two of
 * them, push one and delete the last one, so the pack is modelled by its
 * elements; its capacity plays no part. The pack is taken to be an
 * `ArrayPack`, whose `get` and `swap` throw outside its size; that is where
 * the `Err` results come from.
 */
module Heaps {
  import opened Outcomes
  import opened Sequences
  import opened Comparators

  /** `(i - 1) >> 1` for a position past the root. */
  function Parent(i: nat): (r: nat)
    requires i > 0
    ensures r < i && (i == 2 * r + 1 || i == 2 * r + 2)
  {
    (i - 1) / 2
  }

  /** The first `n` elements form a heap: no element comes after its parent. */
  predicate IsHeap<T(!new)>(cmp: (T, T) -> int, a: seq<T>, n: nat) {
    n <= |a| && forall i :: 0 < i < n ==> cmp(a[Parent(i)], a[i]) >= 0
  }

  /**
   * The first `n` elements form a heap except around position `k`: the
   * links between `k` and its parent and children are free, but the parent
   * of `k` does not come before the children of `k`.
   */
  predicate HoleAt<T(!new)>(cmp: (T, T) -> int, a: seq<T>, n: nat, k: nat) {
    k < n <= |a|
    && (forall i :: 0 < i < n && i != k && Parent(i) != k ==> cmp(a[Parent(i)], a[i]) >= 0)
    && (k > 0 ==> forall i :: 0 < i < n && Parent(i) == k ==> cmp(a[Parent(k)], a[i]) >= 0)
  }

  /** The element at `k` does not come before its children among the first `n`. */
  predicate Above<T(!new)>(cmp: (T, T) -> int, a: seq<T>, n: nat, k: nat)
    requires k < n <= |a|
  {
    forall i :: 0 < i < n && Parent(i) == k ==> cmp(a[k], a[i]) >= 0
  }

  /** A hole whose links up and down both hold closes into a heap. */
  lemma HeapFromHole<T(!new)>(cmp: (T, T) -> int, a: seq<T>, n: nat, k: nat)
    requires HoleAt(cmp, a, n, k) && Above(cmp, a, n, k)
    requires k > 0 ==> cmp(a[Parent(k)], a[k]) >= 0
    ensures IsHeap(cmp, a, n)
  {
  }

  // ---------------------------------------------------------------------
  // upliftAsPossible

  /**
   * One round of `upliftAsPossible`: an element placed after its parent
   * trades places with it, and the hole moves up to the parent, now above
   * both its children.
   */
  lemma UpliftStep<T(!new)>(cmp: (T, T) -> int, a: seq<T>, n: nat, k: nat)
    requires Preorder(cmp) && HoleAt(cmp, a, n, k) && k > 0 && cmp(a[k], a[Parent(k)]) > 0
    ensures HoleAt(cmp, Swapped(a, k, Parent(k)), n, Parent(k))
    ensures Above(cmp, Swapped(a, k, Parent(k)), n, Parent(k))
  {
    var q := Parent(k);
    var b := Swapped(a, k, q);
    forall i | 0 < i < n && i != q && Parent(i) != q
      ensures cmp(b[Parent(i)], b[i]) >= 0
    {
      if Parent(i) == k {
        assert b[Parent(i)] == a[q] && b[i] == a[i];
      } else {
        assert b[Parent(i)] == a[Parent(i)] && b[i] == a[i];
      }
    }
    if q > 0 {
      forall i | 0 < i < n && Parent(i) == q
        ensures cmp(b[Parent(q)], b[i]) >= 0
      {
        assert cmp(a[Parent(q)], a[q]) >= 0;
        if i != k {
          assert cmp(a[q], a[i]) >= 0;
        }
      }
    }
    forall i | 0 < i < n && Parent(i) == q
      ensures cmp(b[q], b[i]) >= 0
    {
      if i != k {
        assert cmp(a[q], a[i]) >= 0;
      }
    }
  }

  /**
   * `upliftAsPossible(target, comparator, index)` on the first `n`
   * elements: the element at `index` climbs while it comes after its
   * parent. It ends at `cell`, below a parent it does not come after, and
   * above its children when it moved at all.
   */
  method Uplift<T(!new)>(a: seq<T>, cmp: (T, T) -> int, n: nat, index: nat) returns (r: seq<T>, cell: nat)
    requires Preorder(cmp) && HoleAt(cmp, a, n, index)
    ensures |r| == |a| && multiset(r) == multiset(a)
    ensures forall i :: index < i < |a| ==> r[i] == a[i]
    ensures cell <= index && r[cell] == a[index] && HoleAt(cmp, r, n, cell)
    ensures cell > 0 ==> cmp(r[Parent(cell)], r[cell]) >= 0
    ensures cell < index ==> Above(cmp, r, n, cell)
  {
    r, cell := a, index;
    while cell > 0 && cmp(r[cell], r[Parent(cell)]) > 0
      invariant |r| == |a| && multiset(r) == multiset(a)
      invariant forall i :: index < i < |a| ==> r[i] == a[i]
      invariant cell <= index && r[cell] == a[index] && HoleAt(cmp, r, n, cell)
      invariant cell < index ==> Above(cmp, r, n, cell)
      decreases cell
    {
      UpliftStep(cmp, r, n, cell);
      r, cell := Swapped(r, cell, Parent(cell)), Parent(cell);
    }
  }

  // ---------------------------------------------------------------------
  // diveAsPossible

  /**
   * One round of `diveAsPossible`: an element that comes before its
   * greatest child trades places with it, and the hole moves down to that
   * child.
   */
  lemma DiveStep<T(!new)>(cmp: (T, T) -> int, a: seq<T>, k: nat, m: nat)
    requires Preorder(cmp) && HoleAt(cmp, a, |a|, k) && (k > 0 ==> cmp(a[Parent(k)], a[k]) >= 0)
    requires 0 < m < |a| && Parent(m) == k && cmp(a[k], a[m]) < 0
    requires forall i :: 0 < i < |a| && Parent(i) == k ==> cmp(a[m], a[i]) >= 0
    ensures HoleAt(cmp, Swapped(a, k, m), |a|, m)
    ensures cmp(Swapped(a, k, m)[k], Swapped(a, k, m)[m]) >= 0
  {
    var b := Swapped(a, k, m);
    forall i | 0 < i < |a| && i != m && Parent(i) != m
      ensures cmp(b[Parent(i)], b[i]) >= 0
    {
      if i == k {
        assert b[Parent(i)] == a[Parent(k)] && b[i] == a[m];
      } else if Parent(i) == k {
        assert b[Parent(i)] == a[m] && b[i] == a[i];
      } else {
        assert b[Parent(i)] == a[Parent(i)] && b[i] == a[i];
      }
    }
  }

  /**
   * The choice one round of `diveAsPossible` makes at `k`: the right child
   * when the element comes before it and the left child does too, the left
   * child when the element comes before the right child but the left one
   * does not, or before the left child alone; none when the element comes
   * before neither child.
   */
  function DiveChoice<T(!new)>(cmp: (T, T) -> int, a: seq<T>, k: nat): (m: Option<nat>)
    requires Preorder(cmp) && 2 * k + 1 < |a|
    ensures m.None? ==> Above(cmp, a, |a|, k)
    ensures m.Some? ==> 0 < m.value < |a| && Parent(m.value) == k && cmp(a[k], a[m.value]) < 0
    ensures m.Some? ==> forall i :: 0 < i < |a| && Parent(i) == k ==> cmp(a[m.value], a[i]) >= 0
  {
    var left, right := 2 * k + 1, 2 * k + 2;
    if right < |a| && cmp(a[k], a[right]) < 0 then
      if cmp(a[left], a[right]) < 0 then
        Some(right)
      else
        assert cmp(a[k], a[left]) < 0;
        Some(left)
    else if cmp(a[k], a[left]) < 0 then
      assert right < |a| ==> cmp(a[left], a[k]) >= 0 && cmp(a[k], a[right]) >= 0;
      Some(left)
    else
      None
  }

  /**
   * `diveAsPossible(target, comparator, index)`: the element at `index`
   * sinks, trading places with its greatest child while it comes before
   * that child, until the whole pack is a heap.
   */
  method Dive<T(!new)>(a: seq<T>, cmp: (T, T) -> int, index: nat) returns (r: seq<T>, cell: nat)
    requires Preorder(cmp) && HoleAt(cmp, a, |a|, index)
    requires index > 0 ==> cmp(a[Parent(index)], a[index]) >= 0
    ensures |r| == |a| && multiset(r) == multiset(a) && IsHeap(cmp, r, |r|)
    ensures index <= cell < |a| && r[cell] == a[index]
    ensures forall i :: 0 <= i < index ==> r[i] == a[i]
  {
    r, cell := Sink(a, cmp, index);
  }

  /**
   * The loop of `diveAsPossible` from `cell` on, one round per call: stop
   * when `cell` has no child or comes after its greatest child, otherwise
   * trade places with that child and go on from there.
   */
  method Sink<T(!new)>(a: seq<T>, cmp: (T, T) -> int, cell: nat) returns (r: seq<T>, last: nat)
    requires Preorder(cmp) && HoleAt(cmp, a, |a|, cell)
    requires cell > 0 ==> cmp(a[Parent(cell)], a[cell]) >= 0
    ensures |r| == |a| && multiset(r) == multiset(a) && IsHeap(cmp, r, |r|)
    ensures cell <= last < |a| && r[last] == a[cell]
    ensures forall i :: 0 <= i < cell ==> r[i] == a[i]
    decreases |a| - cell
  {
    if 2 * cell + 1 >= |a| {
      HeapFromHole(cmp, a, |a|, cell);
      return a, cell;
    }
    var choice := DiveChoice(cmp, a, cell);
    if choice.None? {
      HeapFromHole(cmp, a, |a|, cell);
      return a, cell;
    }
    var m := choice.value;
    DiveStep(cmp, a, cell, m);
    r, last := Sink(Swapped(a, cell, m), cmp, m);
  }

  // ---------------------------------------------------------------------
  // rearrange, remove, pop, push, heapify

  /** `rearrange(target, comparator, index)`: uplift, then dive from where the element stopped. */
  method Rearrange<T(!new)>(a: seq<T>, cmp: (T, T) -> int, index: nat) returns (r: seq<T>)
    requires Preorder(cmp) && HoleAt(cmp, a, |a|, index)
    ensures |r| == |a| && multiset(r) == multiset(a) && IsHeap(cmp, r, |r|)
  {
    var lifted, cell := Uplift(a, cmp, |a|, index);
    r, cell := Dive(lifted, cmp, cell);
  }

  /**
   * Writing the last element over position `index` and dropping the last
   * position leaves a hole at `index` in a heap.
   */
  lemma RemovedHole<T(!new)>(cmp: (T, T) -> int, a: seq<T>, index: nat)
    requires Preorder(cmp) && IsHeap(cmp, a, |a|) && index < |a| - 1
    ensures HoleAt(cmp, Swapped(a, index, |a| - 1)[..|a| - 1], |a| - 1, index)
  {
    var last := |a| - 1;
    var d := Swapped(a, index, last)[..last];
    if index > 0 {
      forall i | 0 < i < last && Parent(i) == index
        ensures cmp(d[Parent(index)], d[i]) >= 0
      {
        assert cmp(a[Parent(index)], a[index]) >= 0 && cmp(a[index], a[i]) >= 0;
      }
    }
  }

  /**
   * `remove(target, comparator, index)`, corrected: the element at `index`
   * trades places with the last one, the last position is deleted, and
   * the heap is rearranged from `index` when `index` still lies inside it.
   * An index outside the heap throws, from the pack's `swap`.
   */
  method Remove<T(!new)>(a: seq<T>, cmp: (T, T) -> int, index: int) returns (r: Result<seq<T>>)
    requires Preorder(cmp) && IsHeap(cmp, a, |a|)
    ensures r.Ok? <==> 0 <= index < |a|
    ensures r.Err? ==> r.failure == IllegalSequenceIndex
    ensures r.Ok? ==> |r.value| == |a| - 1 && IsHeap(cmp, r.value, |r.value|)
    ensures r.Ok? ==> multiset(r.value) + multiset{a[index]} == multiset(a)
  {
    if index < 0 || index >= |a| {
      return Err(IllegalSequenceIndex);
    }
    var last := |a| - 1;
    var swapped := Swapped(a, index, last);
    var deleted := swapped[..last];
    assert swapped == deleted + [a[index]];
    if index < last {
      RemovedHole(cmp, a, index);
      var rearranged := Rearrange(deleted, cmp, index);
      return Ok(rearranged);
    }
    return Ok(deleted);
  }

  /**
   * `remove(target, comparator, index)` as written: the guard before
   * `rearrange` compares `index` with the size taken before the deletion,
   * so it always passes, and removing the last element of a heap of two or
   * more makes `upliftAsPossible` read one past the new size, which the
   * pack's `get` refuses.
   */
  method RemoveAsWritten<T(!new)>(a: seq<T>, cmp: (T, T) -> int, index: int) returns (r: Result<seq<T>>)
    requires Preorder(cmp) && IsHeap(cmp, a, |a|)
    ensures r.Ok? <==> 0 <= index < |a| && !(0 < index == |a| - 1)
    ensures r.Err? ==> r.failure == IllegalSequenceIndex
    ensures r.Ok? ==> |r.value| == |a| - 1 && IsHeap(cmp, r.value, |r.value|)
    ensures r.Ok? ==> multiset(r.value) + multiset{a[index]} == multiset(a)
  {
    if index < 0 || index >= |a| {
      return Err(IllegalSequenceIndex);
    }
    var size := |a|;
    var swapped := Swapped(a, index, size - 1);
    var deleted := swapped[..size - 1];
    assert swapped == deleted + [a[index]];
    if index < size {
      if index >= |deleted| {
        if index > 0 {
          return Err(IllegalSequenceIndex);
        }
        return Ok(deleted);
      }
      RemovedHole(cmp, a, index);
      var rearranged := Rearrange(deleted, cmp, index);
      return Ok(rearranged);
    }
    return Ok(deleted);
  }

  /** The root of a heap comes after, or ties with, every element of it. */
  lemma {:induction false} RootIsMax<T(!new)>(cmp: (T, T) -> int, a: seq<T>, i: nat)
    requires Preorder(cmp) && IsHeap(cmp, a, |a|) && i < |a|
    ensures cmp(a[0], a[i]) >= 0
    decreases i
  {
    if i > 0 {
      RootIsMax(cmp, a, Parent(i));
    }
  }

  /**
   * `pop(target, comparator, index)`: the element at `index`, read by the
   * pack's `get`, and the heap without it. Popping the root yields an
   * element that no remaining element comes after.
   */
  method Pop<T(!new)>(a: seq<T>, cmp: (T, T) -> int, index: int) returns (r: Result<(T, seq<T>)>)
    requires Preorder(cmp) && IsHeap(cmp, a, |a|)
    ensures r.Ok? <==> 0 <= index < |a|
    ensures r.Err? ==> r.failure == IllegalSequenceIndex
    ensures r.Ok? ==> r.value.0 == a[index] && IsHeap(cmp, r.value.1, |r.value.1|)
    ensures r.Ok? ==> multiset(r.value.1) + multiset{r.value.0} == multiset(a)
    ensures r.Ok? && index == 0 ==> forall x :: x in multiset(r.value.1) ==> cmp(r.value.0, x) >= 0
  {
    if index < 0 || index >= |a| {
      return Err(IllegalSequenceIndex);
    }
    var result := a[index];
    var rest := Remove(a, cmp, index);
    if index == 0 {
      forall x | x in multiset(rest.value)
        ensures cmp(result, x) >= 0
      {
        assert x in multiset(a);
        var j :| 0 <= j < |a| && a[j] == x;
        RootIsMax(cmp, a, j);
      }
    }
    return Ok((result, rest.value));
  }

  /**
   * `pop(target, comparator, index)` as written: `get(index)`, then the
   * as-written `remove`, which throws for the last position of a heap of
   * two or more.
   */
  method PopAsWritten<T(!new)>(a: seq<T>, cmp: (T, T) -> int, index: int) returns (r: Result<(T, seq<T>)>)
    requires Preorder(cmp) && IsHeap(cmp, a, |a|)
    ensures r.Ok? <==> 0 <= index < |a| && !(0 < index == |a| - 1)
    ensures r.Err? ==> r.failure == IllegalSequenceIndex
    ensures r.Ok? ==> r.value.0 == a[index] && IsHeap(cmp, r.value.1, |r.value.1|)
    ensures r.Ok? ==> multiset(r.value.1) + multiset{r.value.0} == multiset(a)
  {
    if index < 0 || index >= |a| {
      return Err(IllegalSequenceIndex);
    }
    var result := a[index];
    var rest := RemoveAsWritten(a, cmp, index);
    if rest.Err? {
      return Err(rest.failure);
    }
    return Ok((result, rest.value));
  }

  /** `push(target, comparator, value)`: `value` goes at the end and climbs to its place. */
  method Push<T(!new)>(a: seq<T>, cmp: (T, T) -> int, value: T) returns (r: seq<T>)
    requires Preorder(cmp) && IsHeap(cmp, a, |a|)
    ensures |r| == |a| + 1 && IsHeap(cmp, r, |r|)
    ensures multiset(r) == multiset(a) + multiset{value}
  {
    var pushed := a + [value];
    assert forall i :: 0 <= i < |a| ==> pushed[i] == a[i];
    var cell;
    r, cell := Uplift(pushed, cmp, |pushed|, |a|);
    HeapFromHole(cmp, r, |r|, cell);
  }

  /**
   * `heapify(target, comparator)`: each element in turn climbs into the
   * heap formed by the ones before it. The constructor and the comparator
   * setter both call it.
   */
  method Heapify<T(!new)>(a: seq<T>, cmp: (T, T) -> int) returns (r: seq<T>)
    requires Preorder(cmp)
    ensures |r| == |a| && multiset(r) == multiset(a) && IsHeap(cmp, r, |r|)
  {
    r := a;
    var index := 0;
    while index < |r|
      invariant index <= |r| == |a| && multiset(r) == multiset(a) && IsHeap(cmp, r, index)
    {
      var cell;
      r, cell := Uplift(r, cmp, index + 1, index);
      HeapFromHole(cmp, r, index + 1, cell);
      index := index + 1;
    }
  }

  /** A `PackHeap` instance: the wrapped pack's elements and the comparator that orders them. */
  datatype PackHeap<!T> = PackHeap(elements: seq<T>, comparator: (T, T) -> int)

  /** The class invariant: the elements form a heap for the current comparator. */
  ghost predicate Ordered<T(!new)>(h: PackHeap<T>) {
    IsHeap(h.comparator, h.elements, |h.elements|)
  }

  /** The constructor: the pack is wrapped and heapified with `comparator`. */
  method Wrap<T(!new)>(elements: seq<T>, comparator: (T, T) -> int) returns (h: PackHeap<T>)
    requires Preorder(comparator)
    ensures Ordered(h) && h.comparator == comparator
    ensures multiset(h.elements) == multiset(elements)
  {
    var heaped := Heapify(elements, comparator);
    h := PackHeap(heaped, comparator);
  }

  /**
   * The `comparator` setter: the new comparator replaces the old one and the
   * pack is heapified again, so the heap it keeps follows the new order.
   */
  method WithComparator<T(!new)>(h: PackHeap<T>, next: (T, T) -> int) returns (r: PackHeap<T>)
    requires Preorder(next)
    ensures Ordered(r) && r.comparator == next
    ensures multiset(r.elements) == multiset(h.elements)
  {
    var heaped := Heapify(h.elements, next);
    r := PackHeap(heaped, next);
  }
}

=== FILE: identifiers.dfy ===
/**
 * `IdentifierSet` (`sources/set/IdentifierSet.ts`): a set of identifiers
 * below its capacity. `dense` is a permutation of `[0, capacity)` whose
 * first `size` entries are the members, and `sparse` is its inverse, so
 * `sparse[e]` is where `e` sits in `dense`. Adding or deleting swaps an
 * identifier across the boundary between members and free identifiers.
 *
 * Reading a typed array outside its length yields `undefined`, and every
 * comparison with `undefined` is false: an identifier outside
 * `[0, capacity)` is no member, and adding or deleting it does nothing.
 */
module IdentifierSets {
  import opened Outcomes
  import opened Sequences

  datatype Identifiers = Identifiers(sparse: seq<nat>, dense: seq<nat>, size: nat)

  function Capacity(s: Identifiers): nat {
    |s.dense|
  }

  /** `dense` and `sparse` are inverse permutations of `[0, capacity)`, and the members fit. */
  predicate Valid(s: Identifiers) {
    |s.sparse| == |s.dense| && s.size <= |s.dense|
    && (forall i :: 0 <= i < |s.dense| ==> s.dense[i] < |s.sparse| && s.sparse[s.dense[i]] == i)
    && (forall e :: 0 <= e < |s.sparse| ==> s.sparse[e] < |s.dense| && s.dense[s.sparse[e]] == e)
  }

  /** The members, in the order of `dense`. */
  function Members(s: Identifiers): seq<nat>
    requires Valid(s)
  {
    s.dense[..s.size]
  }

  /** The constructor: both arrays are the identity and nothing is a member. */
  function Create(capacity: nat): (r: Identifiers)
    ensures Valid(r) && Capacity(r) == capacity && Members(r) == []
    ensures forall i :: 0 <= i < capacity ==> r.dense[i] == i && r.sparse[i] == i
  {
    Identifiers(seq(capacity, i => i), seq(capacity, i => i), 0)
  }

  /** `has(element)`: the element's position in `dense` is among the members'. */
  function Has(s: Identifiers, element: int): bool
    requires Valid(s)
  {
    0 <= element < |s.sparse| && s.sparse[element] < s.size
  }

  /** Membership is occurrence among the members. */
  lemma HasMembers(s: Identifiers, element: int)
    requires Valid(s)
    ensures Has(s, element) <==> element in Members(s)
  {
    if element in Members(s) {
      var i :| 0 <= i < s.size && s.dense[i] == element;
      assert s.sparse[s.dense[i]] == i;
    }
  }

  /** `indexOf(element)`: the element's position among the members, -1 for a non-member. */
  function IndexOf(s: Identifiers, element: int): (r: int)
    requires Valid(s)
    ensures -1 <= r < s.size
    ensures r >= 0 <==> Has(s, element)
    ensures r >= 0 ==> s.dense[r] == element
  {
    if 0 <= element < |s.sparse| && s.sparse[element] < s.size then s.sparse[element] else -1
  }

  /**
   * The swap `add` and `reallocate` share: a free identifier trades places
   * in `dense` with the first free one, then the member boundary moves
   * past it.
   */
  function Enter(s: Identifiers, element: nat): (r: Identifiers)
    requires Valid(s) && element < Capacity(s) && s.sparse[element] >= s.size
    ensures Valid(r) && Capacity(r) == Capacity(s) && r.size == s.size + 1
    ensures Members(r) == Members(s) + [element]
  {
    var index := s.sparse[element];
    var swap := s.dense[s.size];
    var sparse := s.sparse[swap := index][element := s.size];
    var dense := s.dense[s.size := element][index := swap];
    var r := Identifiers(sparse, dense, s.size + 1);
    assert forall i :: 0 <= i < |dense| && i != index && i != s.size ==> dense[i] == s.dense[i];
    assert forall e :: 0 <= e < |sparse| && e != swap && e != element ==> sparse[e] == s.sparse[e];
    assert dense[s.size] == element;
    assert Members(r) == Members(s) + [element] by {
      assert forall i :: 0 <= i < s.size ==> dense[i] == s.dense[i];
    }
    r
  }

  /**
   * `add(element)`: a free identifier becomes a member by the swap of
   * `Enter`; a member, or an identifier outside the capacity, leaves the
   * set as it is.
   */
  function Add(s: Identifiers, element: int): (r: Identifiers)
    requires Valid(s)
    ensures Valid(r) && Capacity(r) == Capacity(s)
    ensures forall x :: Has(r, x) <==> Has(s, x) || (x == element && 0 <= element < Capacity(s))
    ensures Has(s, element) || element < 0 || element >= Capacity(s) ==> r == s
    ensures !Has(s, element) && 0 <= element < Capacity(s) ==> Members(r) == Members(s) + [element]
  {
    if 0 <= element < |s.sparse| && s.sparse[element] >= s.size then
      var r := Enter(s, element);
      assert forall x :: Has(r, x) <==> Has(s, x) || x == element by {
        forall x
          ensures Has(r, x) <==> Has(s, x) || x == element
        {
          HasMembers(r, x);
          HasMembers(s, x);
        }
      }
      r
    else
      s
  }

  /** Adding twice is adding once. */
  lemma AddIdempotent(s: Identifiers, element: int)
    requires Valid(s)
    ensures Add(Add(s, element), element) == Add(s, element)
  {
  }

  /**
   * `next()`: the first free identifier becomes a member and is returned.
   * It is `add` of that identifier, which trades places with itself.
   */
  function Next(s: Identifiers): (r: (nat, Identifiers))
    requires Valid(s) && s.size < Capacity(s)
    ensures Valid(r.1) && !Has(s, r.0) && Has(r.1, r.0) && r.1.size == s.size + 1
    ensures r.1 == Add(s, r.0)
  {
    var identifier := s.dense[s.size];
    assert s.sparse[identifier] == s.size;
    assert s.dense[s.size := identifier][s.size := identifier] == s.dense;
    (identifier, Identifiers(s.sparse, s.dense, s.size + 1))
  }

  /**
   * `delete(element)`: a member trades places in `dense` with the last
   * member, then the member boundary moves before it. A non-member leaves
   * the set as it is.
   */
  function Delete(s: Identifiers, element: int): (r: Identifiers)
    requires Valid(s)
    ensures Valid(r) && Capacity(r) == Capacity(s)
    ensures forall x :: Has(r, x) <==> Has(s, x) && x != element
    ensures Has(s, element) ==> r.size == s.size - 1
    ensures Has(s, element) ==> (s.sparse[element] < s.size
      && Members(r) == Members(s)[s.sparse[element] := Members(s)[s.size - 1]][..s.size - 1]
      && r.dense[r.size] == element)
    ensures !Has(s, element) ==> r == s
  {
    if 0 <= element < |s.sparse| && s.sparse[element] < s.size then Leave(s, element) else s
  }

  /**
   * The swap `delete` makes: a member trades places in `dense` with the
   * last member, then the member boundary moves before it.
   */
  function Leave(s: Identifiers, element: nat): (r: Identifiers)
    requires Valid(s) && element < Capacity(s) && s.sparse[element] < s.size
    ensures Valid(r) && Capacity(r) == Capacity(s) && r.size == s.size - 1
    ensures forall x :: Has(r, x) <==> Has(s, x) && x != element
    ensures Members(r) == Members(s)[s.sparse[element] := Members(s)[s.size - 1]][..s.size - 1]
    ensures r.dense[r.size] == element
  {
    var index := s.sparse[element];
    var size := s.size - 1;
    var last := s.dense[size];
    var dense := s.dense[size := element][index := last];
    var sparse := s.sparse[element := size][last := index];
    assert forall i :: 0 <= i < |dense| && i != index && i != size ==> dense[i] == s.dense[i];
    assert forall e :: 0 <= e < |sparse| && e != last && e != element ==> sparse[e] == s.sparse[e];
    var r := Identifiers(sparse, dense, size);
    assert Members(r) == Members(s)[index := last][..size] by {
      assert forall i :: 0 <= i < size ==> dense[i] == Members(s)[index := last][i];
    }
    r
  }


  /** The identifier deleted last is the first free one: `next()` hands it out again. */
  lemma DeleteThenNext(s: Identifiers, element: int)
    requires Valid(s) && Has(s, element)
    ensures Delete(s, element).size < Capacity(Delete(s, element))
    ensures Next(Delete(s, element)).0 == element
  {
  }

  /** Deleting a freshly added identifier gives back the same members. */
  lemma AddThenDelete(s: Identifiers, element: int, other: int)
    requires Valid(s) && !Has(s, element)
    ensures Has(Delete(Add(s, element), element), other) == Has(s, other)
  {
  }

  /** `clear()`: the member boundary drops to 0, the permutation stays. */
  function Clear(s: Identifiers): (r: Identifiers)
    requires Valid(s)
    ensures Valid(r) && Capacity(r) == Capacity(s) && Members(r) == []
    ensures forall x :: !Has(r, x)
  {
    Identifiers(s.sparse, s.dense, 0)
  }

  /**
   * `reallocate(capacity)`: fresh identity arrays of the new capacity, and
   * each member below it entered again in the order of `dense`.
   */
  method Reallocate(s: Identifiers, capacity: nat) returns (r: Identifiers)
    requires Valid(s)
    ensures Valid(r) && Capacity(r) == capacity
    ensures Members(r) == Below(Members(s), capacity)
    ensures forall x :: Has(r, x) <==> Has(s, x) && x < capacity
  {
    r := Create(capacity);
    var index := 0;
    while index < s.size
      invariant index <= s.size && Valid(r) && Capacity(r) == capacity
      invariant Members(r) == Below(s.dense[..index], capacity)
    {
      assert s.dense[..index + 1][..index] == s.dense[..index];
      var element := s.dense[index];
      if element < capacity {
        assert element !in Members(r);
        HasMembers(r, element);
        r := Enter(r, element);
      }
      index := index + 1;
    }
    assert s.dense[..index] == Members(s);
    forall x
      ensures Has(r, x) <==> Has(s, x) && x < capacity
    {
      HasMembers(r, x);
      HasMembers(s, x);
    }
  }

  /** `max()`: the greatest member, none for an empty set. */
  method Max(s: Identifiers) returns (r: Option<nat>)
    requires Valid(s)
    ensures r.None? <==> s.size == 0
    ensures r.Some? ==> r.value in Members(s) && forall x :: x in Members(s) ==> x <= r.value
  {
    if s.size <= 0 {
      return None;
    }
    var result := s.dense[0];
    var index := 1;
    while index < s.size
      invariant 1 <= index <= s.size
      invariant result in s.dense[..index] && forall i :: 0 <= i < index ==> s.dense[i] <= result
    {
      var cell := s.dense[index];
      result := if cell > result then cell else result;
      index := index + 1;
    }
    return Some(result);
  }

  /** `min()`: the least member, none for an empty set. */
  method Min(s: Identifiers) returns (r: Option<nat>)
    requires Valid(s)
    ensures r.None? <==> s.size == 0
    ensures r.Some? ==> r.value in Members(s) && forall x :: x in Members(s) ==> r.value <= x
  {
    if s.size <= 0 {
      return None;
    }
    var result := s.dense[0];
    var index := 1;
    while index < s.size
      invariant 1 <= index <= s.size
      invariant result in s.dense[..index] && forall i :: 0 <= i < index ==> result <= s.dense[i]
    {
      var cell := s.dense[index];
      result := if cell < result then cell else result;
      index := index + 1;
    }
    return Some(result);
  }
}

=== FILE: numbers.dfy ===
/**
 * The arithmetic behind the juggling rotation of `ArrayPack.rotate`:
 * Euclid's greatest common divisor (`gcd` itself is not part of this model;
 * it is taken to compute the mathematical gcd), Bezout's identity, and the
 * orbits of `i -> (i + d) % n`.
 */
module Numbers {
  import opened Sequences

  /** Euclid's algorithm. */
  function Gcd(a: nat, b: nat): (r: nat)
    ensures a > 0 || b > 0 ==> r > 0
    decreases b
  {
    if b == 0 then a else Gcd(b, a % b)
  }

  /** Adding a multiple of `n` does not change the residue. */
  lemma ModShift(a: int, k: int, n: int)
    requires n > 0
    ensures (a + k * n) % n == a % n
  {
    assert a + k * n == (a / n + k) * n + a % n by {
      assert (a / n + k) * n == (a / n) * n + k * n;
    }
    EuclideanUnique(a + k * n, n, a / n + k, a % n);
  }

  /** Reducing the left operand first does not change the residue of a sum. */
  lemma ModAddMod(a: int, b: int, n: int)
    requires n > 0
    ensures (a % n + b) % n == (a + b) % n
  {
    ModShift(a % n + b, a / n, n);
    assert a % n + b + (a / n) * n == a + b;
  }

  /** Two numbers with the same residue differ by a multiple of `n`. */
  lemma SameResidue(a: int, b: int, n: int) returns (k: int)
    requires n > 0 && a % n == b % n
    ensures b - a == k * n
  {
    k := b / n - a / n;
    assert (b / n - a / n) * n == (b / n) * n - (a / n) * n;
  }

  /** The gcd of two numbers, one of them positive, is positive and divides both. */
  lemma {:induction false} GcdDivides(a: nat, b: nat) returns (qa: nat, qb: nat)
    requires a > 0 || b > 0
    ensures Gcd(a, b) > 0 && a == qa * Gcd(a, b) && b == qb * Gcd(a, b)
    decreases b
  {
    if b == 0 {
      qa, qb := 1, 0;
    } else {
      var g := Gcd(b, a % b);
      var qb', qr := GcdDivides(b, a % b);
      qb := qb';
      qa := (a / b) * qb' + qr;
      calc {
        qa * g;
        ((a / b) * qb') * g + qr * g;
        { assert ((a / b) * qb') * g == (a / b) * (qb' * g); }
        (a / b) * b + a % b;
        a;
      }
    }
  }

  /** Bezout's identity: the gcd is an integer combination of the two numbers. */
  lemma {:induction false} Bezout(a: nat, b: nat) returns (x: int, y: int)
    ensures x * a + y * b == Gcd(a, b)
    decreases b
  {
    if b == 0 {
      x, y := 1, 0;
    } else {
      var x', y' := Bezout(b, a % b);
      var q := a / b;
      x, y := y', x' - y' * q;
      calc {
        x * a + y * b;
        y' * a + x' * b - (y' * q) * b;
        { assert (y' * q) * b == y' * (q * b); }
        x' * b + y' * (a - q * b);
        { assert a - q * b == a % b; }
        x' * b + y' * (a % b);
      }
    }
  }

  /** The length of every orbit of `i -> (i + d) % n`. */
  function Period(n: nat, d: nat): (t: nat)
    requires n > 0
    ensures t > 0
  {
    GcdBounds(n, d);
    n / Gcd(n, d)
  }

  /** The gcd with a positive `n` lies in `[1, n]`. */
  lemma GcdBounds(n: nat, d: nat)
    requires n > 0
    ensures 0 < Gcd(n, d) <= n
  {
    var qn, qd := GcdQuotients(n, d);
    MultipleAtLeastOrZero(qn, Gcd(n, d), n);
    assert n == qn * Gcd(n, d);
  }

  /** `GcdDivides` for callers in expressions. */
  lemma GcdQuotients(n: nat, d: nat) returns (qn: nat, qd: nat)
    requires n > 0
    ensures Gcd(n, d) > 0 && n == qn * Gcd(n, d) && d == qd * Gcd(n, d) && qn > 0
    ensures n / Gcd(n, d) == qn
  {
    qn, qd := GcdDivides(n, d);
    EuclideanUnique(n, Gcd(n, d), qn, 0);
  }

  /** `d` steps taken `Period` times make whole turns. */
  lemma FullTurn(n: nat, d: nat)
    requires n > 0
    ensures (Period(n, d) * d) % n == 0
  {
    var qn, qd := GcdQuotients(n, d);
    var g := Gcd(n, d);
    assert Period(n, d) * d == qd * n by {
      assert qn * (qd * g) == qd * (qn * g);
    }
    EuclideanUnique(qd * n, n, qd, 0);
  }

  /** Fewer than `Period` steps of `d` never make a whole number of turns. */
  lemma NoEarlyTurn(n: nat, d: nat, u: nat)
    requires n > 0 && 0 < u < Period(n, d)
    ensures (u * d) % n != 0
  {
    var qn, qd := GcdQuotients(n, d);
    var g := Gcd(n, d);
    if (u * d) % n == 0 {
      var k := SameResidue(0, u * d, n);
      var x, y := Bezout(n, d);
      CoprimeQuotients(x, qn, y, qd, g);
      QuotientSteps(u, qd, k, qn, g);
      var m := CoprimeMultiple(u, x, qn, y, qd, k);
      MultipleAtLeastOrZero(m, qn, u);
    }
  }

  /** Dividing Bezout's identity by the gcd: the quotients are coprime. */
  lemma CoprimeQuotients(x: int, qn: int, y: int, qd: int, g: int)
    requires g > 0 && x * (qn * g) + y * (qd * g) == g
    ensures x * qn + y * qd == 1
  {
    assert (x * qn + y * qd) * g == 1 * g by {
      assert (x * qn) * g == x * (qn * g);
      assert (y * qd) * g == y * (qd * g);
    }
    CancelPositive(x * qn + y * qd, 1, g);
  }

  /** Dividing `u * d == k * n` by the gcd. */
  lemma QuotientSteps(u: int, qd: int, k: int, qn: int, g: int)
    requires g > 0 && u * (qd * g) - 0 == k * (qn * g)
    ensures u * qd == k * qn
  {
    assert (u * qd) * g == u * (qd * g);
    assert (k * qn) * g == k * (qn * g);
    CancelPositive(u * qd, k * qn, g);
  }

  /** If `qn` and `qd` are coprime and `qn` divides `u * qd`, then `qn` divides `u`. */
  lemma CoprimeMultiple(u: int, x: int, qn: int, y: int, qd: int, k: int) returns (m: int)
    requires x * qn + y * qd == 1 && u * qd == k * qn
    ensures u == m * qn
  {
    m := u * x + y * k;
    calc {
      u;
      u * (x * qn + y * qd);
      { assert u * (x * qn + y * qd) == (u * x) * qn + y * (u * qd); }
      (u * x) * qn + y * (u * qd);
      (u * x) * qn + y * (k * qn);
      { assert y * (k * qn) == (y * k) * qn; }
      (u * x + y * k) * qn;
    }
  }

  lemma CancelPositive(a: int, b: int, g: int)
    requires g > 0 && a * g == b * g
    ensures a == b
  {
    if a < b {
      assert (b - a) * g == b * g - a * g;
      MultipleAtLeast(b - a, g);
    } else if a > b {
      assert (a - b) * g == a * g - b * g;
      MultipleAtLeast(a - b, g);
    }
  }

  /** A positive multiple of a positive number is at least that number. */
  lemma MultipleAtLeastOrZero(m: int, n: int, u: int)
    requires n > 0 && u > 0 && u == m * n
    ensures u >= n
  {
    if m > 0 {
      MultipleAtLeast(m, n);
    }
  }

  // ---------------------------------------------------------------------
  // orbits of i -> (i + d) % n

  /** Where `u` steps of `index = (index + d) % n` from `s` land. */
  function Orbit(n: nat, d: nat, s: nat, u: nat): (r: nat)
    requires n > 0
    ensures r < n
  {
    if u == 0 then s % n else (Orbit(n, d, s, u - 1) + d) % n
  }

  /** The closed form of the orbit: `u` steps of `d` from `s`. */
  lemma {:induction false} OrbitFormula(n: nat, d: nat, s: nat, u: nat)
    requires n > 0
    ensures Orbit(n, d, s, u) == (s + u * d) % n
  {
    if u > 0 {
      OrbitFormula(n, d, s, u - 1);
      ModAddMod(s + (u - 1) * d, d, n);
      assert s + (u - 1) * d + d == s + u * d;
    }
  }

  /** The slot one step back: the one whose step lands on `j`. */
  function Back(n: nat, d: nat, j: nat): (r: nat)
    requires d < n
    ensures r < n
  {
    (j + n - d) % n
  }

  /** Stepping back undoes a step. */
  lemma OrbitBack(n: nat, d: nat, s: nat, u: nat)
    requires d < n
    ensures Back(n, d, Orbit(n, d, s, u + 1)) == Orbit(n, d, s, u)
  {
    var x := Orbit(n, d, s, u);
    StepBack(n, d, x);
  }

  lemma StepBack(n: nat, d: nat, x: nat)
    requires d < n && x < n
    ensures Back(n, d, (x + d) % n) == x
  {
    if x + d < n {
      EuclideanUnique(x + d, n, 0, x + d);
      EuclideanUnique(x + n, n, 1, x);
    } else {
      EuclideanUnique(x + d, n, 1, x + d - n);
      EuclideanUnique(x, n, 0, x);
    }
  }

  /** The orbit starts at `s` and is back at `s` after `Period` steps. */
  lemma OrbitReturns(n: nat, d: nat, s: nat)
    requires s < n
    ensures Orbit(n, d, s, 0) == s && Orbit(n, d, s, Period(n, d)) == s
  {
    EuclideanUnique(s, n, 0, s);
    OrbitFormula(n, d, s, Period(n, d));
    FullTurn(n, d);
    var k := SameResidue(0, Period(n, d) * d, n);
    ModShift(s, k, n);
  }

  /** Within one period the orbit never repeats a slot. */
  lemma OrbitDistinct(n: nat, d: nat, s: nat, u: nat, v: nat)
    requires n > 0 && u < v < Period(n, d)
    ensures Orbit(n, d, s, u) != Orbit(n, d, s, v)
  {
    OrbitFormula(n, d, s, u);
    OrbitFormula(n, d, s, v);
    if (s + u * d) % n == (s + v * d) % n {
      var k := SameResidue(s + u * d, s + v * d, n);
      assert (v - u) * d == 0 + k * n by {
        assert (v - u) * d == v * d - u * d;
      }
      ModShift(0, k, n);
      NoEarlyTurn(n, d, v - u);
    }
  }

  /** Every slot of the orbit of `s` has the residue of `s` modulo the gcd. */
  lemma OrbitResidue(n: nat, d: nat, s: nat, u: nat)
    requires n > 0
    ensures Orbit(n, d, s, u) % Gcd(n, d) == s % Gcd(n, d)
  {
    var qn, qd := GcdQuotients(n, d);
    var g := Gcd(n, d);
    var r := Orbit(n, d, s, u);
    OrbitFormula(n, d, s, u);
    EuclideanUnique(r, n, 0, r);
    var k := SameResidue(s + u * d, r, n);
    var m := ResidueAlgebra(s, u, d, r, k, n, qn, qd, g);
    ModShift(s, m, g);
  }

  /** `a + k * n` with `a = s + u * d` and `g` dividing `n` and `d` is `s` plus a multiple of `g`. */
  lemma ResidueAlgebra(s: int, u: int, d: int, r: int, k: int, n: int, qn: int, qd: int, g: int) returns (m: int)
    requires r - (s + u * d) == k * n && n == qn * g && d == qd * g
    ensures r == s + m * g
  {
    m := u * qd + k * qn;
    assert u * d == (u * qd) * g;
    assert k * n == (k * qn) * g;
    assert m * g == (u * qd) * g + (k * qn) * g;
  }

  /** Every slot with the residue of `s` is reached within one period. */
  lemma OrbitReaches(n: nat, d: nat, s: nat, j: nat) returns (u: nat)
    requires j < n && s < Gcd(n, d) && j % Gcd(n, d) == s
    ensures u < Period(n, d) && Orbit(n, d, s, u) == j
  {
    var qn, qd := GcdQuotients(n, d);
    var g := Gcd(n, d);
    var x, y := Bezout(n, d);
    var q := j / g;
    var p := Period(n, d);
    var u0 := q * y;
    u := u0 % p;
    var w := u0 / p;
    var k := ReachAlgebra(s, j, q, g, u, d, u0, w, p, qd, qn, n, x, y);
    ModShift(j, k, n);
    EuclideanUnique(j, n, 0, j);
    OrbitFormula(n, d, s, u);
  }

  /** The ring identity behind `OrbitReaches`. */
  lemma ReachAlgebra(s: int, j: int, q: int, g: int, u: int, d: int, u0: int, w: int, p: int,
                     qd: int, qn: int, n: int, x: int, y: int) returns (k: int)
    requires j == q * g + s && x * n + y * d == g && u0 == q * y && u0 == w * p + u
    requires n == qn * g && d == qd * g && p == qn
    ensures s + u * d == j + k * n
  {
    k := -(q * x) - w * qd;
    assert p * d == qd * n by {
      assert qn * (qd * g) == qd * (qn * g);
    }
    assert u * d == u0 * d - w * (p * d) by {
      assert u0 * d == (w * p) * d + u * d;
      assert (w * p) * d == w * (p * d);
    }
    assert u0 * d == q * g - (q * x) * n by {
      assert u0 * d == q * (y * d);
      assert q * (g - x * n) == q * g - (q * x) * n;
    }
    assert w * (qd * n) == (w * qd) * n;
    assert k * n == -((q * x) * n) - (w * qd) * n;
  }
}

=== FILE: outcomes.dfy ===
/**
 * Outcomes of operations that can fail. The library throws error objects
 * (the classes under `sources/error`) and the generator script lets Python raise; both are
 * returned here as values.
 */
module Outcomes {

  /** The failures the modelled code raises. */
  datatype Failure =
    | IllegalSequenceIndex     // an index outside [0, size)
    | NegativeSequenceIndex    // a negative bound given to a range operation
    | IllegalSubsequence       // a range that does not fit in the sequence
    | EmptyCollection          // first, last, pop or shift on an empty collection
    | NegativeShiftCount       // Python's ValueError for `x >> n` with n < 0

  datatype Option<T> = None | Some(value: T)

  datatype Result<T> = Ok(value: T) | Err(failure: Failure)
}

=== FILE: quicksort.dfy ===
/**
 * `quicksort` (`sources/algorithm/quicksort.ts`): an in-place quicksort of
 * the range `[offset, offset + size)` of a list, with Hoare's partition
 * around the element in the middle of the range. The list is modelled by
 * its elements; each step returns the rearranged elements.
 */
module Sorting {
  import opened Sequences
  import opened Comparators

  /** The elements of `[low, high)` are sorted by `cmp`. */
  predicate SortedRange<T>(cmp: (T, T) -> int, a: seq<T>, low: int, high: int)
    requires 0 <= low && high <= |a|
  {
    forall i, k :: low <= i < k < high ==> cmp(a[i], a[k]) <= 0
  }

  /** `b` rearranges `a` inside `[low, high)` and leaves the rest in place. */
  ghost predicate Rearranged<T>(a: seq<T>, b: seq<T>, low: int, high: int) {
    |b| == |a| && multiset(b) == multiset(a)
    && forall k :: 0 <= k < |a| && !(low <= k < high) ==> b[k] == a[k]
  }

  /** A rearrangement inside a range rearranges the range itself. */
  lemma RangeMultiset<T>(a: seq<T>, b: seq<T>, low: int, high: int)
    requires 0 <= low <= high <= |a| && Rearranged(a, b, low, high)
    ensures multiset(b[low..high]) == multiset(a[low..high])
  {
    CutInThree(a, low, high);
    CutInThree(b, low, high);
    assert a[..low] == b[..low] && a[high..] == b[high..];
    forall x
      ensures multiset(b[low..high])[x] == multiset(a[low..high])[x]
    {
      assert multiset(a)[x] == multiset(b)[x];
    }
  }

  /** Cutting a sequence at two points splits its multiset into three. */
  lemma CutInThree<T>(a: seq<T>, low: nat, high: nat)
    requires low <= high <= |a|
    ensures multiset(a) == multiset(a[..low]) + multiset(a[low..high]) + multiset(a[high..])
  {
    assert a[..low] + a[low..high] == a[..high];
    assert a[..high] + a[high..] == a;
  }

  /** Trading two positions of a range rearranges it. */
  lemma SwapRearranges<T>(a: seq<T>, i: nat, j: nat, low: int, high: int)
    requires low <= i < high && low <= j < high && high <= |a|
    ensures Rearranged(a, Swapped(a, i, j), low, high)
  {
  }

  /**
   * The end of Hoare's scheme: once the scans meet or cross, everything up
   * to the downward scan's stop is at most the pivot and everything after
   * it at least the pivot.
   */
  lemma ScansMeet<T>(cmp: (T, T) -> int, a: seq<T>, pivot: T, left: int, right: int,
                     lower: int, upper: int, lo: int, up: int)
    requires 0 <= left && right < |a| && left - 1 <= lower < lo && up < upper <= right + 1
    requires up <= lo <= right && left <= up
    requires cmp(a[up], pivot) <= 0 && cmp(a[lo], pivot) >= 0
    requires forall k :: left <= k <= lower ==> cmp(a[k], pivot) <= 0
    requires forall k :: lower < k < lo ==> cmp(a[k], pivot) < 0
    requires forall k :: up < k < upper ==> cmp(a[k], pivot) > 0
    requires forall k :: upper <= k <= right ==> cmp(a[k], pivot) >= 0
    ensures forall k :: left <= k <= up ==> cmp(a[k], pivot) <= 0
    ensures forall k :: up < k <= right ==> cmp(a[k], pivot) >= 0
  {
  }

  /**
   * One exchange of Hoare's scheme: once both scans stop with `lo < up`,
   * swapping the two stopped elements grows the settled prefix to `lo`
   * and the settled suffix down to `up`.
   */
  lemma SwapExtends<T>(cmp: (T, T) -> int, a: seq<T>, pivot: T, left: int, right: int,
                       lower: int, upper: int, lo: int, up: int)
    requires 0 <= left && right < |a| && left - 1 <= lower < lo < up < upper <= right + 1
    requires cmp(a[lo], pivot) >= 0 && cmp(a[up], pivot) <= 0
    requires forall k :: left <= k <= lower ==> cmp(a[k], pivot) <= 0
    requires forall k :: lower < k < lo ==> cmp(a[k], pivot) < 0
    requires forall k :: up < k < upper ==> cmp(a[k], pivot) > 0
    requires forall k :: upper <= k <= right ==> cmp(a[k], pivot) >= 0
    ensures forall k :: left <= k <= lo ==> cmp(Swapped(a, lo, up)[k], pivot) <= 0
    ensures forall k :: up <= k <= right ==> cmp(Swapped(a, lo, up)[k], pivot) >= 0
  {
    var b := Swapped(a, lo, up);
    forall k | left <= k <= lo
      ensures cmp(b[k], pivot) <= 0
    {
      if k < lo { assert b[k] == a[k]; }
    }
    forall k | up <= k <= right
      ensures cmp(b[k], pivot) >= 0
    {
      if k > up { assert b[k] == a[k]; }
    }
  }

  /**
   * The body of `do { lower += 1 } while (comparator(get(lower), pivot) < 0)`
   * from `index` on: it stops at the first element not before the pivot,
   * at `stop` at the latest.
   */
  function ScanUp<T>(cmp: (T, T) -> int, a: seq<T>, pivot: T, index: int, ghost stop: int): (r: int)
    requires 0 <= index <= stop < |a| && cmp(a[stop], pivot) >= 0
    ensures index <= r <= stop && cmp(a[r], pivot) >= 0
    ensures forall k :: index <= k < r ==> cmp(a[k], pivot) < 0
    decreases stop - index
  {
    if cmp(a[index], pivot) < 0 then ScanUp(cmp, a, pivot, index + 1, stop) else index
  }

  /**
   * The body of `do { upper -= 1 } while (comparator(get(upper), pivot) > 0)`
   * from `index` down: it stops at the last element not after the pivot,
   * at `stop` at the latest.
   */
  function ScanDown<T>(cmp: (T, T) -> int, a: seq<T>, pivot: T, index: int, ghost stop: int): (r: int)
    requires 0 <= stop <= index < |a| && cmp(a[stop], pivot) <= 0
    ensures stop <= r <= index && cmp(a[r], pivot) <= 0
    ensures forall k :: r < k <= index ==> cmp(a[k], pivot) > 0
    decreases index - stop
  {
    if cmp(a[index], pivot) > 0 then ScanDown(cmp, a, pivot, index - 1, stop) else index
  }

  /**
   * The outer loop of `partition`: both scans, then either the crossing
   * point is returned or the two elements they stopped at trade places.
   * Everything up to `lower` is not after the pivot, everything from
   * `upper` on is not before it, and the elements at `lowStop` and
   * `upStop` keep each scan inside the range.
   */
  function Partitioning<T>(cmp: (T, T) -> int, a: seq<T>, pivot: T, left: int, right: int,
                           lower: int, upper: int, ghost lowStop: int, ghost upStop: int): (r: (seq<T>, int))
    requires 0 <= left && right < |a|
    requires left - 1 <= lower < lowStop <= right && cmp(a[lowStop], pivot) >= 0
    requires left <= upStop < upper <= right + 1 && cmp(a[upStop], pivot) <= 0
    requires lowStop < right || upper <= right
    requires forall k :: left <= k <= lower ==> cmp(a[k], pivot) <= 0
    requires forall k :: upper <= k <= right ==> cmp(a[k], pivot) >= 0
    ensures Rearranged(a, r.0, left, right + 1)
    ensures left <= r.1 < right
    ensures forall k :: left <= k <= r.1 ==> cmp(r.0[k], pivot) <= 0
    ensures forall k :: r.1 < k <= right ==> cmp(r.0[k], pivot) >= 0
    decreases upper - lower
  {
    var lo := ScanUp(cmp, a, pivot, lower + 1, lowStop);
    var up := ScanDown(cmp, a, pivot, upper - 1, upStop);
    if lo >= up then
      ScansMeet(cmp, a, pivot, left, right, lower, upper, lo, up);
      (a, up)
    else
      var b := Swapped(a, lo, up);
      SwapRearranges(a, lo, up, left, right + 1);
      SwapExtends(cmp, a, pivot, left, right, lower, upper, lo, up);
      var r := Partitioning(cmp, b, pivot, left, right, lo, up, up, lo);
      r
  }

  /**
   * `(left + right) >>> 1`: the sum read as an unsigned 32-bit integer,
   * halved. Below 2^31 on both ends nothing wraps around, and it is the
   * middle of the range rounded down.
   */
  function Middle(left: int, right: int): (r: int)
    requires 0 <= left <= right < 0x8000_0000
    ensures r == (left + right) / 2 && left <= r <= right
  {
    ((left + right) % 0x1_0000_0000) / 2
  }

  /**
   * `partition(sequence, comparator, left, right)`: Hoare's partition
   * around the element at `(left + right) >>> 1`, where `>>>` reads the
   * sum as an unsigned 32-bit integer: below 2^31 on both ends, that is
   * the middle of the range rounded down. It returns a position
   * `j` of `[left, right)` such that no element of `[left, j]` comes after
   * an element of `[j + 1, right]`.
   */
  function Partition<T(!new)>(cmp: (T, T) -> int, a: seq<T>, left: int, right: int): (r: (seq<T>, int))
    requires Preorder(cmp) && 0 <= left < right < |a| && right < 0x8000_0000
    ensures Rearranged(a, r.0, left, right + 1)
    ensures left <= r.1 < right
    ensures Split(cmp, r.0, left, r.1, right)
  {
    var middle := Middle(left, right);
    var pivot := a[middle];
    Reflexive(cmp, pivot);
    var r := Partitioning(cmp, a, pivot, left, right, left - 1, right + 1, middle, middle);
    assert forall i, k :: left <= i <= r.1 < k <= right ==> cmp(r.0[i], r.0[k]) <= 0 by {
      forall i, k | left <= i <= r.1 < k <= right
        ensures cmp(r.0[i], r.0[k]) <= 0
      {
        assert cmp(pivot, r.0[i]) >= 0 && cmp(r.0[k], pivot) >= 0;
      }
    }
    r
  }

  /**
   * `rquicksort(sequence, comparator, left, right)`: partitions
   * `[left, right]` and sorts both sides; a range of one element or none
   * is left as it is.
   */
  function RQuicksort<T(!new)>(cmp: (T, T) -> int, a: seq<T>, left: int, right: int): (r: seq<T>)
    requires Preorder(cmp)
    requires left < right ==> 0 <= left && right < |a| && right < 0x8000_0000
    ensures Rearranged(a, r, left, right + 1)
    ensures left < right ==> SortedRange(cmp, r, left, right + 1)
    ensures left >= right ==> r == a
    decreases right - left
  {
    if left < right then
      var p := Partition(cmp, a, left, right);
      var b, j := p.0, p.1;
      var c := RQuicksort(cmp, b, left, j);
      var d := RQuicksort(cmp, c, j + 1, right);
      Combined(cmp, a, b, c, d, left, j, right);
      d
    else
      a
  }

  /** No element of `[left, j]` comes after an element of `[j + 1, right]`. */
  predicate Split<T>(cmp: (T, T) -> int, a: seq<T>, left: int, j: int, right: int)
    requires 0 <= left && right < |a|
  {
    forall i, k :: left <= i <= j < k <= right ==> cmp(a[i], a[k]) <= 0
  }

  /** Every element of `b[low..high]` was an element of `a[low..high]`. */
  lemma FromRange<T>(a: seq<T>, b: seq<T>, low: int, high: int, i: int) returns (m: int)
    requires 0 <= low <= i < high <= |a| && Rearranged(a, b, low, high)
    ensures low <= m < high && a[m] == b[i]
  {
    RangeMultiset(a, b, low, high);
    assert b[i] == b[low..high][i - low];
    assert b[i] in multiset(a[low..high]);
    var n :| 0 <= n < high - low && a[low..high][n] == b[i];
    m := low + n;
  }

  /** Rearranging the left side of a split keeps it split. */
  lemma SplitLeft<T>(cmp: (T, T) -> int, b: seq<T>, c: seq<T>, left: int, j: int, right: int)
    requires 0 <= left <= j < right < |b| && Rearranged(b, c, left, j + 1) && Split(cmp, b, left, j, right)
    ensures Split(cmp, c, left, j, right)
  {
    forall i, k | left <= i <= j < k <= right
      ensures cmp(c[i], c[k]) <= 0
    {
      var m := FromRange(b, c, left, j + 1, i);
      assert c[k] == b[k];
    }
  }

  /** Rearranging the right side of a split keeps it split. */
  lemma SplitRight<T>(cmp: (T, T) -> int, c: seq<T>, d: seq<T>, left: int, j: int, right: int)
    requires 0 <= left <= j < right < |c| && Rearranged(c, d, j + 1, right + 1) && Split(cmp, c, left, j, right)
    ensures Split(cmp, d, left, j, right)
  {
    forall i, k | left <= i <= j < k <= right
      ensures cmp(d[i], d[k]) <= 0
    {
      var n := FromRange(c, d, j + 1, right + 1, k);
      assert d[i] == c[i];
    }
  }

  /** Sorting both sides of a split range sorts the range. */
  lemma Combined<T(!new)>(cmp: (T, T) -> int, a: seq<T>, b: seq<T>, c: seq<T>, d: seq<T>, left: int, j: int, right: int)
    requires 0 <= left <= j < right < |a|
    requires Rearranged(a, b, left, right + 1) && Split(cmp, b, left, j, right)
    requires Rearranged(b, c, left, j + 1) && (left < j ==> SortedRange(cmp, c, left, j + 1))
    requires Rearranged(c, d, j + 1, right + 1) && (j + 1 < right ==> SortedRange(cmp, d, j + 1, right + 1))
    ensures Rearranged(a, d, left, right + 1) && SortedRange(cmp, d, left, right + 1)
  {
    SplitLeft(cmp, b, c, left, j, right);
    SplitRight(cmp, c, d, left, j, right);
    forall i, k | left <= i < k <= right
      ensures cmp(d[i], d[k]) <= 0
    {
      if k <= j {
        assert d[i] == c[i] && d[k] == c[k];
      }
    }
  }

  /**
   * `quicksort(sequence, comparator, offset, size)`: the range
   * `[offset, offset + size)` comes out sorted, a rearrangement of what it
   * held, and nothing outside it moves.
   */
  function Quicksort<T(!new)>(cmp: (T, T) -> int, a: seq<T>, offset: int, size: int): (r: seq<T>)
    requires Preorder(cmp)
    requires size > 1 ==> 0 <= offset && offset + size <= |a| && offset + size <= 0x8000_0000
    ensures size > 1 ==> Rearranged(a, r, offset, offset + size) && SortedRange(cmp, r, offset, offset + size)
    ensures size <= 1 ==> r == a
  {
    RQuicksort(cmp, a, offset, offset + size - 1)
  }

  /** Sorting a whole list yields a sorted permutation of it. */
  lemma QuicksortSorts<T(!new)>(cmp: (T, T) -> int, a: seq<T>)
    requires Preorder(cmp) && |a| <= 0x8000_0000
    ensures var r := Quicksort(cmp, a, 0, |a|);
            multiset(r) == multiset(a) && Sorted(cmp, r)
  {
  }
}

=== FILE: sequences.dfy ===
/**
 * Index arithmetic shared by the packs and the circular buffer: the way the
 * range operations order their two bounds, JavaScript's `%`, and what an
 * assignment to a JavaScript array does at or past its end.
 */
module Sequences {

  /** `startOrEnd < endOrStart ? startOrEnd : endOrStart`: the lower bound of a range given in either order. */
  function Lower(startOrEnd: int, endOrStart: int): (r: int)
    ensures r <= startOrEnd && r <= endOrStart && (r == startOrEnd || r == endOrStart)
  {
    if startOrEnd < endOrStart then startOrEnd else endOrStart
  }

  /** `startOrEnd < endOrStart ? endOrStart : startOrEnd`: the upper bound of a range given in either order. */
  function Upper(startOrEnd: int, endOrStart: int): (r: int)
    ensures r >= startOrEnd && r >= endOrStart && (r == startOrEnd || r == endOrStart)
  {
    if startOrEnd < endOrStart then endOrStart else startOrEnd
  }

  /** Swapping the bounds of a range does not change the range. */
  lemma BoundsSymmetric(a: int, b: int)
    ensures Lower(a, b) == Lower(b, a) && Upper(a, b) == Upper(b, a)
    ensures Lower(a, b) + Upper(a, b) == a + b
  {
  }

  function Max(a: int, b: int): int {
    if a < b then b else a
  }

  function Min(a: int, b: int): int {
    if a < b then a else b
  }

  /**
   * JavaScript's `a % b`: the remainder of the division truncated toward
   * zero, so it takes the sign of `a` (Dafny's `%` is Euclidean).
   */
  function Remainder(a: int, b: int): (r: int)
    requires b != 0
    ensures -(if b < 0 then -b else b) < r < (if b < 0 then -b else b)
    ensures a >= 0 ==> r >= 0
    ensures a <= 0 ==> r <= 0
  {
    var m := if b < 0 then -b else b;
    if a >= 0 then a % m else -((-a) % m)
  }

  /** The remainder differs from `a` by a multiple of `b`. */
  lemma RemainderDivides(a: int, b: int) returns (q: int)
    requires b > 0
    ensures a == q * b + Remainder(a, b)
  {
    if a >= 0 {
      q := a / b;
    } else {
      q := -((-a) / b);
    }
  }

  /** `r = a % n; if (r < 0) r += n`: for a positive `n` this lands in `[0, n)`. */
  function NonNegativeRemainder(a: int, n: int): (r: int)
    requires n > 0
    ensures 0 <= r < n
  {
    var r := Remainder(a, n);
    if r < 0 then r + n else r
  }

  /** The adjusted remainder is Dafny's Euclidean one: `a` lands on the residue `a mod n`. */
  lemma NonNegativeRemainderIsModulo(a: int, n: int)
    requires n > 0
    ensures NonNegativeRemainder(a, n) == a % n
  {
    var q := RemainderDivides(a, n);
    var r := Remainder(a, n);
    if r < 0 {
      assert a == (q - 1) * n + (r + n);
      EuclideanUnique(a, n, q - 1, r + n);
    } else {
      EuclideanUnique(a, n, q, r);
    }
  }

  /** Any representation `a == q * n + r` with `0 <= r < n` is Dafny's division. */
  lemma EuclideanUnique(a: int, n: int, q: int, r: int)
    requires n > 0 && 0 <= r < n && a == q * n + r
    ensures a % n == r && a / n == q
  {
    var q', r' := a / n, a % n;
    assert q' * n + r' == q * n + r;
    if q' < q {
      assert (q - q') * n == q * n - q' * n;
      MultipleAtLeast(q - q', n);
    } else if q' > q {
      assert (q' - q) * n == q' * n - q * n;
      MultipleAtLeast(q' - q, n);
    }
  }

  lemma {:induction false} MultipleAtLeast(d: int, n: int)
    requires d >= 1 && n > 0
    ensures d * n >= n
  {
    if d > 1 {
      MultipleAtLeast(d - 1, n);
      assert d * n == (d - 1) * n + n;
    }
  }

  /**
   * `array[index] = value` on a JavaScript array: inside the array the slot
   * is overwritten, at its end the array grows by one.
   */
  function Store<T>(xs: seq<T>, index: nat, value: T): (r: seq<T>)
    requires index <= |xs|
    ensures |r| == if index < |xs| then |xs| else |xs| + 1
    ensures r[index] == value
    ensures forall i :: 0 <= i < |xs| && i != index ==> r[i] == xs[i]
  {
    if index < |xs| then xs[index := value] else xs + [value]
  }

  /** `xs` read backwards. */
  function Reverse<T>(xs: seq<T>): (r: seq<T>)
    ensures |r| == |xs|
    ensures forall i :: 0 <= i < |xs| ==> r[i] == xs[|xs| - 1 - i]
  {
    if xs == [] then [] else Reverse(xs[1..]) + [xs[0]]
  }

  /** Reversing keeps every element, with its multiplicity. */
  lemma {:induction false} ReverseMultiset<T>(xs: seq<T>)
    ensures multiset(Reverse(xs)) == multiset(xs)
  {
    if xs != [] {
      ReverseMultiset(xs[1..]);
      assert xs == [xs[0]] + xs[1..];
    }
  }

  /** A sequence that agrees with `c` below `index`, holds `value` at `index` and `c` shifted up above it is the insertion. */
  lemma InsertedAt<T>(c: seq<T>, index: nat, value: T, d: seq<T>)
    requires index <= |c| && |d| == |c| + 1 && d[index] == value
    requires forall i :: 0 <= i < index ==> d[i] == c[i]
    requires forall i :: index < i < |d| ==> d[i] == c[i - 1]
    ensures d == c[..index] + [value] + c[index..]
  {
    var e := c[..index] + [value] + c[index..];
    assert forall i :: 0 <= i < index ==> e[i] == c[i];
    assert forall i :: index < i < |d| ==> e[i] == c[i - 1];
  }

  /** Inserting and then dropping the first element is inserting one place lower into the rest. */
  lemma InsertedThenDropped<T>(c: seq<T>, index: nat, value: T)
    requires 1 <= index <= |c|
    ensures (c[..index] + [value] + c[index..])[1..] == c[1..][..index - 1] + [value] + c[1..][index - 1..]
  {
    assert c[..index] == [c[0]] + c[1..][..index - 1];
    assert c[index..] == c[1..][index - 1..];
  }

  /** `swap(i, j)` on the elements: the two positions trade values, nothing else moves. */
  function Swapped<T>(xs: seq<T>, i: nat, j: nat): (r: seq<T>)
    requires i < |xs| && j < |xs|
    ensures |r| == |xs| && r[i] == xs[j] && r[j] == xs[i]
    ensures forall k :: 0 <= k < |xs| && k != i && k != j ==> r[k] == xs[k]
    ensures multiset(r) == multiset(xs)
  {
    xs[i := xs[j]][j := xs[i]]
  }

  /** The elements of `xs` below `bound`, in order. */
  function Below(xs: seq<nat>, bound: nat): (r: seq<nat>)
    ensures forall x :: x in r <==> x in xs && x < bound
  {
    if xs == [] then []
    else if xs[|xs| - 1] < bound then Below(xs[..|xs| - 1], bound) + [xs[|xs| - 1]]
    else Below(xs[..|xs| - 1], bound)
  }
}

=== FILE: sparse.dfy ===
/**
 * `PackSparseDenseSet` (`sources/set/PackSparseDenseSet.ts`): a set of
 * integers below its capacity kept in two packs. `dense` lists the members
 * in insertion order, up to deletions; `sparse` has one entry per possible
 * member, and the entry of a member is its position in `dense`. Entries of
 * non-members hold whatever was last written there; a lookup trusts an
 * entry only when `dense` confirms it.
 *
 * The packs are those of the array allocator: `get` outside the size
 * throws. `sparse` always has the capacity as its size, so a value outside
 * `[0, capacity)` makes the lookup in `sparse` throw.
 */
module SparseDenseSets {
  import opened Outcomes
  import opened Sequences

  datatype SparseDense = SparseDense(sparse: seq<nat>, dense: seq<nat>)

  /** Every listed member points back, through `sparse`, to its own position. */
  predicate Valid(s: SparseDense) {
    forall i :: 0 <= i < |s.dense| ==> s.dense[i] < |s.sparse| && s.sparse[s.dense[i]] == i
  }

  function Capacity(s: SparseDense): nat {
    |s.sparse|
  }

  function Size(s: SparseDense): nat {
    |s.dense|
  }

  /** A valid set lists each member once. */
  lemma Distinct(s: SparseDense, i: nat, j: nat)
    requires Valid(s) && i < |s.dense| && j < |s.dense| && s.dense[i] == s.dense[j]
    ensures i == j
  {
    assert s.sparse[s.dense[i]] == i && s.sparse[s.dense[j]] == j;
  }

  /**
   * The constructor: `sparse` is sized to the capacity, its entries taking
   * the pack's default 0, and `dense` is empty.
   */
  function Create(capacity: nat): (r: SparseDense)
    ensures Valid(r) && Capacity(r) == capacity && Size(r) == 0
    ensures forall x :: x !in r.dense
  {
    SparseDense(seq(capacity, i => 0), [])
  }

  /**
   * `indexOf(element, startOrEnd, endOrStart)`: the position of `element`
   * in `dense` when it lies in the range, -1 otherwise. A range outside
   * `[0, size]` throws, and so does an element the `sparse` lookup refuses.
   */
  function IndexOf(s: SparseDense, element: int, startOrEnd: int, endOrStart: int): (r: Result<int>)
    requires Valid(s)
    ensures r.Ok? <==> 0 <= Lower(startOrEnd, endOrStart) && Upper(startOrEnd, endOrStart) <= Size(s)
                       && 0 <= element < Capacity(s)
    ensures r.Err? ==> r.failure == (if 0 <= Lower(startOrEnd, endOrStart) && Upper(startOrEnd, endOrStart) <= Size(s)
                                     then IllegalSequenceIndex else IllegalSubsequence)
    ensures r.Ok? && r.value >= 0 ==> Lower(startOrEnd, endOrStart) <= r.value < Upper(startOrEnd, endOrStart)
                                      && s.dense[r.value] == element
    ensures r.Ok? && r.value < 0 ==> (r.value == -1
      && forall i :: Lower(startOrEnd, endOrStart) <= i < Upper(startOrEnd, endOrStart) ==> s.dense[i] != element)
  {
    var start, end := Lower(startOrEnd, endOrStart), Upper(startOrEnd, endOrStart);
    if start < 0 || start > Size(s) || end > Size(s) then
      Err(IllegalSubsequence)
    else if element < 0 || element >= Capacity(s) then
      Err(IllegalSequenceIndex)
    else
      var index := s.sparse[element];
      if index < end && index >= start && s.dense[index] == element then
        Ok(index)
      else
        assert forall i :: start <= i < end && s.dense[i] == element ==> s.sparse[element] == i;
        Ok(-1)
  }

  /** `has(element)`: `indexOf` over the whole set found it. */
  function Has(s: SparseDense, element: int): (r: Result<bool>)
    requires Valid(s)
    ensures r.Ok? <==> 0 <= element < Capacity(s)
    ensures r.Err? ==> r.failure == IllegalSequenceIndex
    ensures r.Ok? ==> (r.value <==> element in s.dense)
  {
    var index := IndexOf(s, element, 0, Size(s));
    if index.Err? then Err(index.failure) else Ok(index.value > -1)
  }

  /**
   * `add(element)`: a value `dense` does not confirm is pushed on `dense`
   * and its `sparse` entry points at it; a member leaves the set as it is.
   */
  function Add(s: SparseDense, element: int): (r: Result<SparseDense>)
    requires Valid(s)
    ensures r.Ok? <==> 0 <= element < Capacity(s)
    ensures r.Err? ==> r.failure == IllegalSequenceIndex
    ensures r.Ok? ==> Valid(r.value) && Capacity(r.value) == Capacity(s)
    ensures r.Ok? && element in s.dense ==> r.value == s
    ensures r.Ok? && element !in s.dense ==> r.value.dense == s.dense + [element]
  {
    if element < 0 || element >= Capacity(s) then
      Err(IllegalSequenceIndex)
    else
      var index := s.sparse[element];
      if index >= Size(s) || s.dense[index] != element then
        assert element !in s.dense;
        Ok(SparseDense(s.sparse[element := Size(s)], s.dense + [element]))
      else
        Ok(s)
  }

  /** Adding twice is adding once. */
  lemma AddIdempotent(s: SparseDense, element: int)
    requires Valid(s) && Add(s, element).Ok?
    ensures Add(Add(s, element).value, element) == Add(s, element)
  {
  }

  /** An added element is a member; the other members stay members. */
  lemma AddThenHas(s: SparseDense, element: int, other: int)
    requires Valid(s) && Add(s, element).Ok?
    ensures Has(Add(s, element).value, element) == Ok(true)
    ensures other != element ==> Has(Add(s, element).value, other) == Has(s, other)
  {
  }

  /**
   * `warp(index)` on `dense`: the last member is written over position
   * `index` and the size drops by one.
   */
  function WarpOut(dense: seq<nat>, index: nat): (r: seq<nat>)
    requires index < |dense|
    ensures |r| == |dense| - 1
    ensures multiset(r) + multiset{dense[index]} == multiset(dense)
    ensures r == dense[index := dense[|dense| - 1]][..|dense| - 1]
  {
    var last := |dense| - 1;
    assert dense == dense[..last] + [dense[last]];
    if index == last then
      dense[..last]
    else
      assert dense[..last][index := dense[last]] + [dense[last]] == dense[index := dense[last]];
      dense[..last][index := dense[last]]
  }

  /**
   * `delete(element)`: a member is warped out of `dense`, the last member
   * moving into its place, and that last member's `sparse` entry follows
   * it. A non-member leaves the set as it is.
   */
  function Delete(s: SparseDense, element: int): (r: Result<SparseDense>)
    requires Valid(s)
    ensures r.Ok? <==> 0 <= element < Capacity(s)
    ensures r.Err? ==> r.failure == IllegalSequenceIndex
    ensures r.Ok? ==> Valid(r.value) && Capacity(r.value) == Capacity(s)
    ensures r.Ok? && element !in s.dense ==> r.value == s
    ensures r.Ok? && element in s.dense ==> (element !in r.value.dense
      && multiset(r.value.dense) + multiset{element as nat} == multiset(s.dense))
    ensures r.Ok? && element in s.dense ==> (s.sparse[element] < Size(s)
      && r.value.dense == s.dense[s.sparse[element] := s.dense[Size(s) - 1]][..Size(s) - 1])
  {
    if element < 0 || element >= Capacity(s) then
      Err(IllegalSequenceIndex)
    else
      var index := s.sparse[element];
      if index < Size(s) && s.dense[index] == element then
        var last := s.dense[Size(s) - 1];
        var dense := WarpOut(s.dense, index);
        var r := SparseDense(s.sparse[last := index], dense);
        assert Valid(r) by {
          forall i | 0 <= i < |dense|
            ensures dense[i] < |r.sparse| && r.sparse[dense[i]] == i
          {
            if i == index {
              assert dense[i] == last;
            } else {
              assert dense[i] == s.dense[i];
            }
          }
        }
        assert element !in dense by {
          forall i | 0 <= i < |dense|
            ensures dense[i] != element
          {
            if i != index {
              assert dense[i] == s.dense[i] && s.sparse[s.dense[i]] == i;
            }
          }
        }
        Ok(r)
      else
        assert element !in s.dense;
        Ok(s)
  }

  /** A deleted element is no member; the other members stay members. */
  lemma DeleteThenHas(s: SparseDense, element: int, other: int)
    requires Valid(s) && Delete(s, element).Ok?
    ensures Has(Delete(s, element).value, element) == Ok(false)
    ensures other != element ==> Has(Delete(s, element).value, other) == Has(s, other)
  {
    var r := Delete(s, element).value;
    if other != element && other in s.dense {
      assert other in multiset(s.dense);
    }
    if other != element && other in r.dense {
      assert other in multiset(r.dense);
    }
  }

  /** Deleting a freshly added element gives back the members in their order. */
  lemma AddThenDelete(s: SparseDense, element: int)
    requires Valid(s) && Add(s, element).Ok? && element !in s.dense
    ensures Delete(Add(s, element).value, element).Ok?
    ensures Delete(Add(s, element).value, element).value.dense == s.dense
  {
    var added := Add(s, element).value;
    assert added.sparse[element] == |s.dense|;
    assert added.dense[..|s.dense|] == s.dense;
  }

  /** `clear()`: `dense` is emptied; `sparse` keeps its stale entries. */
  function Clear(s: SparseDense): (r: SparseDense)
    ensures Valid(r) && Capacity(r) == Capacity(s) && Size(r) == 0
    ensures forall x :: x !in r.dense
  {
    SparseDense(s.sparse, [])
  }

  /** After `clear()` nothing the set can hold is a member. */
  lemma ClearThenHas(s: SparseDense, element: int)
    requires 0 <= element < Capacity(s)
    ensures Has(Clear(s), element) == Ok(false)
  {
  }

  /**
   * `reallocate(capacity)`: fresh packs of the new capacity, `sparse`
   * sized to it with 0 entries, and every member below the new capacity
   * added again in the order of `dense`.
   */
  method Reallocate(s: SparseDense, capacity: nat) returns (r: SparseDense)
    requires Valid(s)
    ensures Valid(r) && Capacity(r) == capacity
    ensures r.dense == Below(s.dense, capacity)
    ensures forall x :: x in r.dense <==> x in s.dense && x < capacity
  {
    var sparse: seq<nat> := seq(capacity, i => 0);
    var dense: seq<nat> := [];
    var index := 0;
    while index < |s.dense|
      invariant index <= |s.dense| && |sparse| == capacity
      invariant Valid(SparseDense(sparse, dense))
      invariant dense == Below(s.dense[..index], capacity)
    {
      assert s.dense[..index + 1][..index] == s.dense[..index];
      var x := s.dense[index];
      assert x !in dense;
      if x < capacity {
        sparse := sparse[s.dense[index] := |dense|];
        dense := dense + [s.dense[index]];
      }
      index := index + 1;
    }
    assert s.dense[..index] == s.dense;
    r := SparseDense(sparse, dense);
  }

  /** `max()`: the greatest member, 0 for an empty set. */
  method Max(s: SparseDense) returns (r: int)
    ensures |s.dense| == 0 ==> r == 0
    ensures |s.dense| > 0 ==> r in s.dense && forall x :: x in s.dense ==> x <= r
  {
    if |s.dense| <= 0 {
      return 0;
    }
    r := s.dense[0];
    var index := 1;
    while index < |s.dense|
      invariant 1 <= index <= |s.dense|
      invariant r in s.dense[..index] && forall i :: 0 <= i < index ==> s.dense[i] <= r
    {
      var cell := s.dense[index];
      r := if cell > r then cell else r;
      index := index + 1;
    }
    assert s.dense[..index] == s.dense;
  }

  /** `min()`: the least member, 0 for an empty set. */
  method Min(s: SparseDense) returns (r: int)
    ensures |s.dense| == 0 ==> r == 0
    ensures |s.dense| > 0 ==> r in s.dense && forall x :: x in s.dense ==> r <= x
  {
    if |s.dense| <= 0 {
      return 0;
    }
    r := s.dense[0];
    var index := 1;
    while index < |s.dense|
      invariant 1 <= index <= |s.dense|
      invariant r in s.dense[..index] && forall i :: 0 <= i < index ==> r <= s.dense[i]
    {
      var cell := s.dense[index];
      r := if cell < r then cell else r;
      index := index + 1;
    }
    assert s.dense[..index] == s.dense;
  }
}

=== FILE: text.dfy ===
/**
 * Python's number formatting as the generator script uses it: `str(n)` and
 * `hex(n)` of a non-negative integer, and the `'  ' * depth` indentation.
 */
module Text {

  /** The digit characters, lower-case as Python prints them. */
  const DigitChars := "0123456789abcdef"

  /** `n` written in base `base`, most significant digit first, without leading zeros. */
  function Numeral(n: nat, base: nat): string
    requires 2 <= base <= 16
    decreases n
  {
    if n < base then [DigitChars[n]]
    else
      DivideDown(n, base);
      Numeral(n / base, base) + [DigitChars[n % base]]
  }

  /** Dividing by the base shrinks a number that has more than one digit. */
  lemma DivideDown(n: nat, base: nat)
    requires base >= 2 && n >= base
    ensures 1 <= n / base < n && n % base < base
    ensures n == (n / base) * base + n % base
  {
    var q := n / base;
    assert n == q * base + n % base;
    AtLeastTwice(q, base);
  }

  /** A multiple by at least 2 is at least the double. */
  lemma {:induction false} AtLeastTwice(q: nat, base: nat)
    requires base >= 2
    ensures q * base >= 2 * q
  {
    if q > 0 {
      AtLeastTwice(q - 1, base);
      assert q * base == (q - 1) * base + base;
    }
  }

  /** Python's `str(n)` for a non-negative integer. */
  function Decimal(n: nat): string {
    Numeral(n, 10)
  }

  /** Python's `hex(n)` for a non-negative integer: `0x` and lower-case digits. */
  function Hex(n: nat): string {
    "0x" + Numeral(n, 16)
  }

  /** Python's `'  ' * depth`. */
  function Padding(depth: nat): (r: string)
    ensures |r| == 2 * depth && forall i :: 0 <= i < |r| ==> r[i] == ' '
  {
    if depth == 0 then "" else "  " + Padding(depth - 1)
  }

  /** The value of a digit character; characters that are not digits count as 0. */
  function DigitValue(c: char): (d: nat)
    ensures d < 16
    ensures d != 0 ==> DigitChars[d] == c
  {
    if '0' <= c <= '9' then (c - '0') as nat
    else if 'a' <= c <= 'f' then (c - 'a') as nat + 10
    else 0
  }

  /** Reads a numeral in base `base`, most significant digit first. */
  function ReadNumeral(s: string, base: nat): nat {
    if |s| == 0 then 0 else ReadNumeral(s[..|s| - 1], base) * base + DigitValue(s[|s| - 1])
  }

  lemma DigitRoundTrip(d: nat)
    requires d < 16
    ensures DigitValue(DigitChars[d]) == d
  {
  }

  /** Reading a numeral back gives the number. */
  lemma {:induction false} ReadNumeralOf(n: nat, base: nat)
    requires 2 <= base <= 16
    ensures ReadNumeral(Numeral(n, base), base) == n
    decreases n
  {
    if n < base {
      DigitRoundTrip(n);
      assert [DigitChars[n]][..0] == "";
    } else {
      DivideDown(n, base);
      var s := Numeral(n / base, base);
      ReadNumeralOf(n / base, base);
      DigitRoundTrip(n % base);
      assert (s + [DigitChars[n % base]])[..|s|] == s;
    }
  }

  /** A numeral has no leading zero unless it is `0`. */
  lemma {:induction false} NoLeadingZero(n: nat, base: nat)
    requires 2 <= base <= 16
    ensures |Numeral(n, base)| >= 1
    ensures Numeral(n, base)[0] == '0' ==> n == 0
    decreases n
  {
    if n >= base {
      DivideDown(n, base);
      NoLeadingZero(n / base, base);
    }
  }

  /** Different numbers print differently in hexadecimal. */
  lemma HexInjective(m: nat, n: nat)
    ensures Hex(m) == Hex(n) <==> m == n
  {
    if Hex(m) == Hex(n) {
      assert Hex(m)[2..] == Numeral(m, 16);
      assert Hex(n)[2..] == Numeral(n, 16);
      ReadNumeralOf(m, 16);
      ReadNumeralOf(n, 16);
    }
  }

  /** Different numbers print differently in decimal. */
  lemma DecimalInjective(m: nat, n: nat)
    ensures Decimal(m) == Decimal(n) <==> m == n
  {
    if Decimal(m) == Decimal(n) {
      ReadNumeralOf(m, 10);
      ReadNumeralOf(n, 10);
    }
  }
}

=== FILE: typedarray.dfy ===
/**
 * The integer typed arrays of `sources/native/TypedArray.ts` and the two
 * allocators that pick the narrowest kind able to hold values up to a
 * given maximum. A typed array of a kind stores each value converted to
 * the kind's width, wrapping around modulo 2^bits as JavaScript's
 * `ToUint8`, `ToInt16` and their kin do.
 */
module TypedArrays {

  datatype Kind = Uint8 | Uint16 | Uint32 | Int8 | Int16 | Int32

  /** The bits of one element. */
  function Bits(k: Kind): nat {
    match k
    case Uint8 => 8
    case Int8 => 8
    case Uint16 => 16
    case Int16 => 16
    case Uint32 => 32
    case Int32 => 32
  }

  predicate Signed(k: Kind) {
    k.Int8? || k.Int16? || k.Int32?
  }

  /** The number of distinct values an element can hold, 2^bits. */
  function Modulus(k: Kind): (r: nat)
    ensures r > 1 && r % 2 == 0
  {
    match Bits(k)
    case 8 => 0x100
    case 16 => 0x1_0000
    case _ => 0x1_0000_0000
  }

  /** The least value an element can hold. */
  function Least(k: Kind): int {
    if Signed(k) then -(Modulus(k) / 2) else 0
  }

  /** The greatest value an element can hold. */
  function Greatest(k: Kind): int {
    Least(k) + Modulus(k) - 1
  }

  /** An element of kind `k` holds `v` unchanged. */
  predicate Holds(k: Kind, v: int) {
    Least(k) <= v <= Greatest(k)
  }

  /**
   * The value an element of kind `k` keeps when `v` is written to it: `v`
   * modulo 2^bits, moved into the signed range for a signed kind.
   */
  function Stored(k: Kind, v: int): (r: int)
    ensures Holds(k, r)
    ensures (v - r) % Modulus(k) == 0
    ensures Holds(k, v) ==> r == v
  {
    var u := v % Modulus(k);
    if Signed(k) && u >= Modulus(k) / 2 then u - Modulus(k) else u
  }

  /** A typed array: its kind and its elements. */
  datatype TypedArray = TypedArray(kind: Kind, elements: seq<int>)

  /** `new Kind(capacity)`: `capacity` elements, all 0. */
  function Allocate(kind: Kind, capacity: nat): (r: TypedArray)
    ensures r.kind == kind && |r.elements| == capacity
    ensures forall i :: 0 <= i < capacity ==> r.elements[i] == 0
  {
    TypedArray(kind, seq(capacity, i => 0))
  }

  /** Writing `value` at `index` stores its conversion to the array's kind. */
  function Write(a: TypedArray, index: nat, value: int): (r: TypedArray)
    requires index < |a.elements|
    ensures r.kind == a.kind && |r.elements| == |a.elements|
    ensures Holds(a.kind, value) ==> r.elements[index] == value
    ensures forall i :: 0 <= i < |a.elements| && i != index ==> r.elements[i] == a.elements[i]
  {
    TypedArray(a.kind, a.elements[index := Stored(a.kind, value)])
  }

  /**
   * The kind `createUintArrayUpTo` picks: 8 bits up to `0xff`, 16 bits up
   * to `0xffff`, 32 bits beyond.
   */
  function UintKindUpTo(maximum: int): (r: Kind)
    ensures !Signed(r)
    ensures 0 <= maximum <= 0xffff_ffff ==> Holds(r, maximum)
    ensures forall k :: !Signed(k) && maximum <= Greatest(k) ==> Bits(r) <= Bits(k)
  {
    if maximum <= 0xff then Uint8 else if maximum <= 0xffff then Uint16 else Uint32
  }

  /**
   * The kind `createIntArrayUpTo` picks: 8 bits up to `0x7f`, 16 bits up
   * to `0x7fff`, 32 bits beyond. Only the maximum is checked: the least
   * value the array can hold is the kind's own.
   */
  function IntKindUpTo(maximum: int): (r: Kind)
    ensures Signed(r)
    ensures -0x80 <= maximum <= 0x7fff_ffff ==> Holds(r, maximum)
    ensures forall k :: Signed(k) && maximum <= Greatest(k) ==> Bits(r) <= Bits(k)
  {
    if maximum <= 0x7f then Int8 else if maximum <= 0x7fff then Int16 else Int32
  }

  /** A greater maximum never gets a narrower kind, signed or not. */
  lemma KindsMonotone(low: int, high: int)
    requires low <= high
    ensures Bits(UintKindUpTo(low)) <= Bits(UintKindUpTo(high))
    ensures Bits(IntKindUpTo(low)) <= Bits(IntKindUpTo(high))
  {
  }

  /**
   * `createUintArrayUpTo(maximum, capacity)`: a zeroed unsigned array of
   * the narrowest kind that keeps every value from 0 to `maximum` written
   * to it, for a maximum up to `0xffffffff`; never wider than 32 bits.
   */
  function CreateUintArrayUpTo(maximum: int, capacity: nat): (r: TypedArray)
    ensures !Signed(r.kind) && Bits(r.kind) <= 32
    ensures |r.elements| == capacity && forall i :: 0 <= i < capacity ==> r.elements[i] == 0
    ensures maximum <= 0xffff_ffff ==> forall v :: 0 <= v <= maximum ==> Stored(r.kind, v) == v
    ensures forall k :: !Signed(k) && maximum <= Greatest(k) ==> Bits(r.kind) <= Bits(k)
  {
    Allocate(UintKindUpTo(maximum), capacity)
  }

  /**
   * `createIntArrayUpTo(maximum, capacity)`: a zeroed signed array of the
   * narrowest kind whose greatest value reaches `maximum`; it keeps every
   * value from -128 to `maximum` written to it, for a maximum up to
   * `0x7fffffff`, and is never wider than 32 bits.
   */
  function CreateIntArrayUpTo(maximum: int, capacity: nat): (r: TypedArray)
    ensures Signed(r.kind) && Bits(r.kind) <= 32
    ensures |r.elements| == capacity && forall i :: 0 <= i < capacity ==> r.elements[i] == 0
    ensures maximum <= 0x7fff_ffff ==> forall v :: -0x80 <= v <= maximum ==> Stored(r.kind, v) == v
    ensures forall k :: Signed(k) && maximum <= Greatest(k) ==> Bits(r.kind) <= Bits(k)
  {
    Allocate(IntKindUpTo(maximum), capacity)
  }

  /**
   * Past the 32-bit range the unsigned allocator still answers with 32
   * bits, and the maximum itself wraps around when written.
   */
  lemma UintBeyondRange()
    ensures CreateUintArrayUpTo(0x1_0000_0000, 0).kind == Uint32
    ensures Stored(Uint32, 0x1_0000_0000) == 0
  {
  }
}
